=== FILE: README.md ===
# winbundle / pydumb in Dafny

This project models the core of a small Windows bundler for Python
applications. The bundler downloads the embeddable CPython archive for a
target version and machine and unpacks it into `build/<name>`. It installs
the dependencies there with pip, copies the project's sources in, and writes
one launcher `.exe` per entry point. It can also stamp an icon onto each
launcher, compile to bytecode, clean up, and copy the result to
`release/<name>[-<version>]`, optionally zipping it.

The model covers five parts:

- **The ICO container** (`winbundle/icon.py`). The ICONDIR header, the
  ICONDIRENTRY directory and the image blobs are read at their offsets. The
  RT_GROUP_ICON payload of header and GRPICONDIRENTRY records is rebuilt
  from them. `apply_icon` is the sequence of resource-update calls it makes
  (modules `LittleEndian`, `Icon` and `IconResource`).
- **`split_icon`** (`winbundle/util.py`, repeated verbatim in
  `pydumb/builder.py`). This is the regular-expression split of an
  entry-point spec into a command and an optional `[icon=…]` flag.
  - The leftmost match of `\s*\[([^\]]+)\]` is characterised
    declaratively, as the match with the smallest start.
  - `re.split(r",\s*")`, `str.partition` and `dict` over pairs are modelled
    with Python's insertion order and last-value-wins semantics.
  - The remaining flags are rendered back into the command.
  - Module `IconSpec`.
- **The configuration wizard's entry format** (`winbundle/newconfig.py`),
  and the fact that `split_icon` inverts it (module `Wizard`).
- **Path and URL helpers the builder relies on.** These are `pathlib` join,
  `suffix`/`stem`/`with_suffix`, `urlparse(...).path` and
  `PurePosixPath.name` (module `Paths`).
- **The decisions of `pydumb.builder.Builder`** (modules `Builder` and
  `Bundle`): paths, launcher choice, the pip and `compileall` command lines,
  the download cache, entry-point generation with the once-only Resource
  Hacker set-up, copying, release and `make_bundle`'s stage order.
  - The file system is a set of existing paths.
  - Side effects are a trace of `Event`s: fetch, extract, run a tool, copy,
    make a script, remove, unlink, archive.
  - Exceptions are `Result` failures.
  - The script maker, `is_file` and the directory test `copytree`'s listing
    depends on are parameters (`Env`).
  - The host interpreter (`sys.executable`, the host machine and Python
    version) is a parameter (`Host`).

Signed little-endian integers follow `construct`'s `Int8sl`, `Int16sl` and
`Int32sl`. A field is an `int` whose range is checked, encoded as two's
complement over its width.

An icon file whose image data is shorter than an entry declares is read
short, as `file.read` does. A negative image offset makes `seek` raise, and a
size below -1 makes `read` raise.

`Bundle.MakeBundle` is `make_bundle` as written, including the two defects
listed under "## Findings". `Bundle.MakeBundleIntended` is the same pipeline
with both corrected, and the lemmas that relate the two say where they
differ.

## Model

| member | source | states |
|---|---|---|
| `LittleEndian.EncodeSigned` | winbundle/icon.py:9-35 | a value in the signed range of an n-byte field encodes to n bytes that decode back to it |
| `LittleEndian.EncodeDecodeSigned` | winbundle/icon.py:9-35 | every n-byte string is the encoding of the signed value it decodes to |
| `LittleEndian.DecodeEncodeFields` | winbundle/icon.py:9-35 | building a struct of fields and parsing it back gives the same field values |
| `LittleEndian.EncodeDecodeFields` | winbundle/icon.py:9-35 | parsing any byte string of a struct's size and building it again gives the same bytes |
| `Icon.LayoutWidths` | winbundle/icon.py:9-35 | ICONDIRHEADER is 6 bytes, ICONDIRENTRY 16 and GRPICONDIRENTRY 14; the two entries share their first 12 bytes |
| `Icon.HeaderRoundTrip` | winbundle/icon.py:9-13 | the header codec is a bijection between headers and 6-byte strings |
| `Icon.EntryDecodeEncode` | winbundle/icon.py:15-24 | a directory entry survives being built and parsed again |
| `Icon.EntryEncodeDecode` | winbundle/icon.py:15-24 | any 16 bytes survive being parsed and built again |
| `Icon.GroupEntryLayout` | winbundle/icon.py:26-35 | a group record is the directory entry's first 12 bytes followed by the 16-bit id |
| `Icon.ReadAt` | winbundle/icon.py:51-52 | `seek` then `read(size)` for a size from -1 up: the exact slice when it fits; the bytes from the offset to the end of file when it runs past the end or the size is -1; empty past the end |
| `Icon.ParseDirectory` | winbundle/icon.py:45-49 | the header and max(idCount, 0) entries; it fails, as a short read, exactly when the file is too short for them |
| `Icon.ReadImages` | winbundle/icon.py:50-52 | one blob per entry, in entry order, read at its offset; it fails exactly when some entry has a negative offset or a size below -1, with the error of the first such entry (the seek's before the read's) |
| `Icon.Parse` | winbundle/icon.py:38-52 | reading an icon file fails when the directory is short. Otherwise it fails exactly when an entry has a negative offset or a size below -1, with the first such entry's error. On success the images align with the entries, each the `ReadAt` of its entry |
| `Icon.DirectoryRoundTrip` | winbundle/icon.py:45-49 | rebuilding the parsed header and entries gives back exactly the bytes they were read from |
| `Icon.GroupIconHeader` | winbundle/icon.py:54-55 | `group_icon_header()` is 6 bytes and parses back to the file's header |
| `Icon.GroupIconHeaderRoundTrip` | winbundle/icon.py:54-55 | for a parsed file, `group_icon_header()` equals the file's own first 6 bytes |
| `Icon.GroupIconEntries` | winbundle/icon.py:57-61 | 14 bytes per entry; fails exactly when there is an entry and the id does not fit 16 bits |
| `Icon.GroupEntriesPreserveDirectory` | winbundle/icon.py:57-61 | record i keeps the first 12 bytes of the file's directory entry i and ends with the id |
| `IconResource.ApplyIcon` | winbundle/icon.py:64-72 | `apply_icon` fails exactly when reading the icon file fails, with that error, the resource-update calls being taken to succeed |
| `IconResource.ApplyIconTrace` | winbundle/icon.py:64-72 | begin, one RT_GROUP_ICON update named 0 with header and id-1 records, one RT_ICON update named 1 per image in order, end |
| `IconResource.GroupPayloadLayout` | winbundle/icon.py:66-69 | the group payload holds the file's own header and, for each entry, its directory bytes with the id 1 |
| `IconResource.ImageUpdatesCount` | winbundle/icon.py:70-71 | the image loop makes one RT_ICON update per image and no group update |
| `IconSpec.SkipSpace` | winbundle/util.py:8 | `\s*` consumes exactly the maximal whitespace run |
| `IconSpec.MatchAt` | winbundle/util.py:8 | the match starting at a position, if there is one; otherwise none starts there |
| `IconSpec.FirstMatch` | winbundle/util.py:8 | the match with the smallest start at or after a position, or proof that none exists |
| `IconSpec.FirstMatchIsFirst` | winbundle/util.py:8-10 | the search finds nothing exactly when the pattern does not occur; otherwise it finds the leftmost match |
| `IconSpec.SplitCommas` | winbundle/util.py:12 | `re.split(r",\s*")`: pieces without commas, every piece after the first not starting with whitespace, and the input is the pieces joined by commas each followed by some whitespace run |
| `IconSpec.SplitJoinGaps` | winbundle/util.py:12 | splitting pieces joined by commas and arbitrary whitespace runs gives back exactly the pieces |
| `IconSpec.SplitCommasSpaced` | winbundle/util.py:12 | `"a, b"` splits into `a` and `b` |
| `IconSpec.SplitJoin` | winbundle/util.py:12 | splitting the comma-join of such pieces gives back the pieces |
| `IconSpec.Partition` | winbundle/util.py:12 | `partition('=')`: the key has no `=`, and key, `=` and value rebuild the string |
| `IconSpec.Insert` | winbundle/util.py:12 | dict assignment: an existing key keeps its position, a new key goes last, and only that key's value changes |
| `IconSpec.BuildFlagsKeys` | winbundle/util.py:12 | `dict(pairs)` has the keys in first-occurrence order |
| `IconSpec.BuildFlagsLookup` | winbundle/util.py:12 | `dict(pairs)` maps each key to its last value |
| `IconSpec.Dedup` | winbundle/util.py:12 | the distinct keys, ordered by first occurrence |
| `IconSpec.Pop` | winbundle/util.py:13 | `pop('icon', None)` returns the key's value and removes only that key, keeping order |
| `IconSpec.SplitIcon` | winbundle/util.py:7-19 | an icon returned is non-empty; without an icon the spec comes back unchanged |
| `IconSpec.SplitIconNoGroup` | winbundle/util.py:9-10 | a spec without a bracket group comes back unchanged with no icon |
| `IconSpec.SplitIconIcon` | winbundle/util.py:12-15 | the icon is the last `icon=` value of the first group, when non-empty |
| `IconSpec.SplitIconCommand` | winbundle/util.py:16-19 | with an icon, the command is the text before the first group plus the other flags, re-rendered in brackets if there are any |
| `IconSpec.RemainingAgree` | winbundle/util.py:16-17 | the dict code renders the non-icon flags in first-occurrence order with their last values, `k=v` or bare `k` |
| `IconSpec.RestEmpty` | winbundle/util.py:16-19 | no flags remain exactly when every flag of the group was `icon` |
| `IconSpec.SplitIconAt` | pydumb/builder.py:19-31 | the builder's copy splits at the first match and decides from its group alone |
| `IconSpec.SplitIconIgnoresTail` | winbundle/util.py:8-19 | text after the first group changes neither the icon nor, when there is one, the command |
| `Wizard.WizardEntry` | winbundle/newconfig.py:43-46 | the command alone without an icon; otherwise the command, then ` [icon=`, the icon and `]` |
| `Wizard.WizardRoundTrip` | winbundle/newconfig.py:43-46 | `split_icon` recovers exactly the command and icon the wizard wrote, when the command has no `[` and no trailing space and the icon no `,` or `]` |
| `Paths.Join` | pydumb/builder.py:85-88 | `/` appends one component; an empty one leaves the path alone |
| `Paths.Suffix` | pydumb/builder.py:237 | `suffix`: the name from its last dot when that dot is neither first nor last, otherwise empty; empty when there is no dot |
| `Paths.Stem` | pydumb/builder.py:237 | `stem` is a prefix of the name, the whole name exactly when there is no suffix |
| `Paths.WithSuffix` | pydumb/builder.py:237 | `with_suffix` replaces the last component by its stem plus the new suffix |
| `Paths.AddExtension` | pydumb/builder.py:241-246 | `make_archive(base, 'zip')` writes the base name with `.zip` appended |
| `Paths.WithSuffixVersusExtension` | pydumb/builder.py:237-246 | `with_suffix` and appending agree exactly when the name has no suffix |
| `Paths.PosixName` | pydumb/builder.py:122 | `PurePosixPath(path).name`: empty exactly when every component is empty or `.`; otherwise a whole component with only empty or `.` components after it |
| `Paths.UrlParseRoundTrip` | pydumb/builder.py:122 | `urlparse` of a plain scheme://host/dir/name URL gives back its parts, and the file name is `name` |
| `Builder.NewBuilder` | pydumb/builder.py:68-92 | missing dependencies become an empty list; given ones are kept |
| `Builder.ReleaseDirName` | pydumb/builder.py:89 | the name alone without a version; otherwise `name-`, then exactly the version |
| `Builder.ReleaseDirNamesDistinct` | pydumb/builder.py:89 | two versions of one project get the same release directory exactly when they are equal |
| `Builder.OutputIsCacheOnlyForCache` | pydumb/builder.py:85-88 | with path components compared as literal strings, the output directory coincides with the cache exactly for the literal name `cache` |
| `Builder.LauncherName` | pydumb/builder.py:36-41 | the stub is the kind, then `64` exactly for `amd64` and `32` otherwise, then `.exe` |
| `Builder.LauncherNameInjective` | pydumb/builder.py:36-41 | a stub name determines the kind and whether the machine is `amd64` |
| `Builder.GetLauncher` | pydumb/builder.py:34-47 | the stub's bytes when distlib has it, otherwise the ValueError naming it and the package |
| `Builder.Clamp` | pydumb/builder.py:206 | the level lies in [-1, 2], is unchanged inside it and saturates outside it |
| `Builder.ClampIdempotentMonotone` | pydumb/builder.py:206 | clamping twice is clamping once, and clamping preserves order |
| `Builder.CompileArgs` | pydumb/builder.py:205-216 | `_compile`'s seven-word `compileall` command; `Builder.CompileArgsLevel` gives how the level enters it |
| `Builder.CompileArgsLevel` | pydumb/builder.py:205-216 | two requested levels give the same `compileall` command exactly when they clamp alike |
| `Builder.Arch` | pydumb/builder.py:195 | `win-amd64` exactly for `amd64` |
| `Builder.PipArgs` | pydumb/builder.py:190-203 | the corrected pip command: the pip prefix targeting the output first and the dependencies last; `Builder.PipArgsShape` gives the flags between |
| `Builder.PipArgsAsWritten` | pydumb/builder.py:190-203 | the pip command as written: the same prefix and dependencies; `Builder.PipArgsAsWrittenShape` gives the flags between |
| `Builder.PipArgsShape` | pydumb/builder.py:190-203 | corrected: pip prefix, then `--platform <arch>` exactly when machines differ, `--python-version <v>` exactly when versions differ, `--only-binary=:all:` when either and nothing else, then the dependencies |
| `Builder.PipArgsAsWrittenShape` | pydumb/builder.py:190-203 | as written: pip prefix, `--platform <arch>` exactly when machines differ, then always `--python-version <v> --only-binary=:all:`, then the dependencies |
| `Builder.PipArgsAsWrittenNative` | pydumb/builder.py:197-199 | as written, a native build still gets the version and binary-only flags |
| `Builder.DownloadItem` | pydumb/builder.py:121-127 | the cache file for the URL; fetched exactly when it did not exist, after which it and the directories above it exist |
| `Builder.DownloadIdempotent` | pydumb/builder.py:121-127 | a second download of the same URL fetches nothing and returns the same path |
| `Builder.PythonCacheFile` | pydumb/builder.py:129-131 | the CPython archive is cached as `python-<v>-embed-<machine>.zip` |
| `Builder.ResourceHackerCacheFile` | pydumb/builder.py:133-135 | the Resource Hacker archive is cached as `resource_hacker.zip` |
| `Bundle.IconCommandsAt` | pydumb/builder.py:180-188 | each executable gets the delete run then the add-overwrite run, in executable order |
| `Bundle.FetchAndExtract` | pydumb/builder.py:133-139 | an optional fetch of the URL into its cache file, then one extraction of that file into the target, which exists afterwards with its parents |
| `Bundle.SetUpResourceHacker` | pydumb/builder.py:174-177 | the set-up marks Resource Hacker present, makes its directory, removes no path and counts as exactly one set-up |
| `Bundle.AddIcon` | pydumb/builder.py:171-188 | `_add_icon` adds paths and, with the latch set, leaves the state alone; `Bundle.AddIconLatch` and `Bundle.AddIconRuns` give its meaning |
| `Bundle.AddIconFirstTime` | pydumb/builder.py:171-188 | the first icon sets Resource Hacker up once and then runs both commands per executable |
| `Bundle.AddIconLatch` | pydumb/builder.py:171-188 | no icon does nothing; an icon sets up Resource Hacker only if not yet done and then runs both commands per executable |
| `Bundle.ProcessSpecs` | pydumb/builder.py:162-168 | the loop over the specs adds paths and never clears the latch; `Bundle.ProcessSpecsLatch`, `Bundle.ProcessSpecsRuns` and `Bundle.EntrypointOrder` give its meaning |
| `Bundle.ProcessSpecsLatch` | pydumb/builder.py:163-177 | across all entry points Resource Hacker is set up at most once, and exactly once when it was not yet and some spec carries an icon; the latch ends set exactly when it was set or some spec carries an icon |
| `Bundle.ProcessSpecsRuns` | pydumb/builder.py:162-188 | downloads and unpackings aside, each spec in turn gets its script, then, when it carries an icon, the delete and add-overwrite runs on exactly the executables the maker produced for it |
| `Bundle.AddIconRuns` | pydumb/builder.py:171-188 | downloads and unpackings aside, `_add_icon` runs the two commands per executable when there is an icon, and nothing otherwise |
| `Bundle.WithExecutable` | pydumb/builder.py:160-161 | each spec paired with the interpreter its launcher runs, in order |
| `Bundle.MakeEntrypoints` | pydumb/builder.py:155-169 | fails, doing nothing, exactly when the builder has no entry points |
| `Bundle.EntrypointOrder` | pydumb/builder.py:155-169 | console scripts under `python.exe`, then GUI scripts under `pythonw.exe`, each after `split_icon`; the files are the maker's outputs in that order |
| `Bundle.CopySource` | pydumb/builder.py:147-153 | `_copy_source`: a failure means some entry is not a file; `Bundle.CopySourceOutcome` gives the full meaning |
| `Bundle.CopySourceOutcome` | pydumb/builder.py:147-153 | copying succeeds exactly when every entry is a file, each copied into the output in order. Otherwise the first entry that is not a file stops it, after the files before it: a missing entry with `SourceMissing`, a directory with `CopyTreeExists` |
| `Bundle.ExtractPythonEvents` | pydumb/builder.py:141-145 | extraction happens exactly when the output directory is missing, after which it exists with the directories above it; otherwise nothing changes |
| `Bundle.ReleaseWith` | pydumb/builder.py:233-246 | `_release` with the archive it unlinks as a parameter; `Bundle.ReleaseRemovesTree`, `Bundle.ReleaseUnlinksStale` and `Bundle.ReleaseReplacesArchive` give its meaning |
| `Bundle.ReleaseAsWritten` | pydumb/builder.py:233-246 | `_release` as written, unlinking `final.with_suffix('.zip')`; `Bundle.ReleaseAsWrittenStale` and `Bundle.ReleaseAsWrittenCounterexample` give its meaning |
| `Bundle.ReleaseRemovesTree` | pydumb/builder.py:235-236 | over an existing release, nothing that was below the old release directory survives, whichever archive is unlinked |
| `Bundle.ReleaseReplacesArchive` | pydumb/builder.py:233-246 | the old release tree and its archive go before the copy; the archive exists afterwards exactly when asked for, or when it was there and no old release was |
| `Bundle.ReleaseAsWrittenStale` | pydumb/builder.py:237 | as written, the archive unlinked is this release's own exactly when the directory name has no suffix |
| `Bundle.ReleaseUnlinksStale` | pydumb/builder.py:233-240 | over an existing release, the stale archive path the release computes is unlinked and gone afterwards, while an existing path that is neither it nor the release directory survives |
| `Bundle.ReleaseAsWrittenCounterexample` | pydumb/builder.py:235-246 | as written, re-releasing version 1.0 deletes version 1's archive and keeps the stale 1.0 one |
| `Bundle.ReleaseUnder` | pydumb/builder.py:84-89 | the release directory and both archive names lie outside `build` |
| `Bundle.FinishKeeps` | pydumb/builder.py:233-246 | releasing removes nothing under `build` |
| `Bundle.BundleInstall` | pydumb/builder.py:190-203 | `make_bundle` as written runs pip with the as-written arguments; the corrected pipeline runs it with the corrected ones |
| `Bundle.StagesInstall` | pydumb/builder.py:249-251 | pip runs right after the download and extraction events, before anything else |
| `Bundle.MakeBundle` | pydumb/builder.py:248-258 | `make_bundle` as written; `Bundle.BundleStages`, `Bundle.BundleOrdered`, `Bundle.BundleOutcome` and `Bundle.BundleSwitches` give its meaning |
| `Bundle.MakeBundleIntended` | pydumb/builder.py:248-258 | `make_bundle` with both findings corrected; `Bundle.BundleStages` and `Bundle.BundleInstall` give its meaning |
| `Bundle.Finish` | pydumb/builder.py:253-258 | the compile, clean and release tail of `make_bundle`; `Bundle.FinishStages` and `Bundle.FinishKeeps` give its meaning |
| `Bundle.FinishStages` | pydumb/builder.py:253-258 | the tail compiles with the `compileall` command exactly when asked for, cleans once (removing sources exactly when compiled), releases exactly when asked for, and does nothing else |
| `Bundle.LaterStages` | pydumb/builder.py:250-258 | after extraction: pip runs once; the copy stage does exactly `_copy_source`'s events; the entry-point stage does exactly `_make_entrypoints`' events when copying succeeded; compile, clean and release do their events exactly when both succeeded and the options ask |
| `Bundle.StagesEvents` | pydumb/builder.py:248-258 | for any commands, the download and extraction stages do exactly `_download_python`'s and `_extract_python`'s events, and the later stages those of `Bundle.LaterStages` from the state extraction left |
| `Bundle.BundleStages` | pydumb/builder.py:248-258 | as written and corrected, every stage of `make_bundle` does exactly the events of its own step, with the as-written or corrected pip command, the `compileall` command for the level, and the stale archive `with_suffix('.zip')` or the one `make_archive` wrote |
| `Bundle.BundleOrdered` | pydumb/builder.py:248-258 | the stages run in the order download, extract, install, copy, entry points, compile, clean, release |
| `Bundle.BundleOutcome` | pydumb/builder.py:248-258 | the run succeeds exactly when every source entry is a file and there are entry points. Otherwise it reports which: no entry points, or the first entry that is not a file, as missing or as a directory meeting the existing output |
| `Bundle.BundleSwitches` | pydumb/builder.py:254-258 | compile and release run exactly when asked for and the run succeeds; clean runs on every success, removing sources exactly when compiled |
| `Bundle.BundleExtract` | pydumb/builder.py:121-145 | Python is fetched exactly when the archive is not cached. It is extracted into the output exactly when the output is missing and the project name is neither the literal `cache` nor empty, for with those names the cache directory made before the fetch is the output or lies below it |
| `Bundle.StagesExtract` | pydumb/builder.py:141-145 | for any commands, fetch exactly when the archive is missing and extract exactly when the output is missing after the fetch |
| `Bundle.CachedFetchMakesOutput` | pydumb/builder.py:121-127 | after a cache fetch the output exists exactly when it did before or the project name is the literal `cache` or empty |
| `Bundle.OutputAboveArchive` | pydumb/builder.py:85-88 | the output directory is the cache directory or above it exactly for the literal name `cache` or an empty name |
| `Bundle.BundleRerun` | pydumb/builder.py:121-145 | a second run from the state the first left neither downloads nor extracts Python |

## Left out

- Network, zip and file-copy internals: `fetch`, `ZipFile.extractall`, `shutil.copy2/copytree/rmtree/make_archive` are events in the trace; their effect on file contents is not modelled.
- `subprocess.run`: pip, `compileall` and Resource Hacker are `RunTool` events; their exit codes are ignored, as in the source.
- `win32api` resource updates are recorded as calls; the Windows resource section itself is not modelled.
- The distlib `ScriptMaker` is the `Env.make` parameter (spec and interpreter to the files written). `_get_launcher` is modelled against a map of distlib's launcher resources.
- `this_machine()`, `platform.python_version()` and `sys.executable` are the `Host` parameter; `Builder.from_path`, TOML loading, the wizard's prompting and the command-line entry points are not part of this model.
- `Path.resolve()` is the identity: the root is taken as already absolute and symbolic links are not modelled.
- `_clean_output` is one `CleanOutput(dir, source_too)` event; which files its globs match is not modelled. This includes the misspelt `__pychache__` pattern, which matches no `__pycache__` directory.
- `urlparse` is modelled for the scheme, netloc, path, params, query and fragment split; its whitespace stripping, IPv6 brackets and scheme validity corner cases are not.
- `Builder.PythonCacheFile`: requires a Python version and machine without `/`, `?`, `#` or `;`; with them the archive's cache name is whatever `urlparse` makes of the URL.
- `Bundle.BundleExtract`: requires a Python version and machine without `/`, `?`, `#` or `;`, so that the URL's last path component is the archive name, and a starting file system in which the directory above every existing path exists.
- `Bundle.BundleOutcome`: the fetch never fails and the script maker never raises. A non-200 response in `fetch` (pydumb/builder.py:62-63) and the `ValueError` from `_get_launcher` for a missing stub (pydumb/builder.py:44-46), reached through `ScriptMaker.make`, are not failure paths of the pipeline; `Builder.GetLauncher` models the latter on its own.
- `Builder.OutputIsCacheOnlyForCache`: path components, the project name among them, are compared as literal strings and a `.` component is kept. Windows compares paths without regard to case and `pathlib` drops `.`, so a project named `Cache` (the cache directory) or `.` (the `build` directory itself) is not modelled.
- `Bundle.BundleExtract`: for the same reason, a project name equal to `cache` up to case, or `.`, is outside the model; with such a name the program finds its output directory already made and skips extraction, while the model extracts.
- `Bundle.CachedFetchMakesOutput`, `Bundle.OutputAboveArchive`: state the literal-name condition only, as above.
- `Paths.Join`: a user-supplied string, the icon (pydumb/builder.py:178) or an entry of `files` (pydumb/builder.py:149), is taken as one component. `pathlib`'s splitting on `/` and `\\` and its replacement of the path by an absolute right operand are not modelled.
- `Bundle.IconCommandsAt`, `Bundle.AddIconLatch`: the `-open`/`-save` paths are the strings the script maker returned; `Path(x).resolve()` is taken as the identity.
- `IconResource.ApplyIcon`: the `win32api` calls `BeginUpdateResource`, `UpdateResource` and `EndUpdateResource` (winbundle/icon.py:66-72) are taken to succeed. Their failures, and the handle left open when one raises before `EndUpdateResource`, are not modelled.
- `Bundle.CopySource`: `copytree` is taken to fail only by listing a source that is not a directory or by meeting an existing target; a permission or copy error inside the tree is not modelled.
- `Icon.GroupIconEntries`: `construct`'s range check is modelled as a failure when the id does not fit 16 bits; the exact exception type is not.

## Findings

| source | as written | input that shows it | evidently intended | confidence | as-written member | corrected member |
|---|---|---|---|---|---|---|
| pydumb/builder.py:197 | compares `py_version` with the function `platform.version`, so the versions always differ | a native build: target machine and Python version equal the host's | compare with the host's `platform.python_version()`, adding no cross flags for a native build | high, not executed | `Builder.PipArgsAsWrittenNative` | `Builder.PipArgs` | pydumb/builder.py:190-203 | the corrected pip command: the pip prefix targeting the output first and the dependencies last; `Builder.PipArgsShape` gives the flags between |
| `Builder.PipArgsAsWritten` | pydumb/builder.py:190-203 | the pip command as written: the same prefix and dependencies; `Builder.PipArgsAsWrittenShape` gives the flags between |
| `Builder.PipArgsShape` |
| pydumb/builder.py:237 | unlinks `final.with_suffix('.zip')`, which drops a dotted version's last part | releasing `app` version `1.0` again over `C:/proj`: it unlinks `release/app-1.zip` (version 1's archive) and leaves `release/app-1.0.zip` | unlink `str(final) + '.zip'`, the archive `make_archive` wrote | medium, not executed | `Bundle.ReleaseAsWrittenCounterexample` | `Bundle.ReleaseReplacesArchive` |

=== FILE: builder.dfy ===
/** The naming and argument-building decisions of `pydumb.builder.Builder`:
    where it puts things, which launcher stub it asks for, which commands
    it runs, and when it downloads. */
module Builder {
  import opened Wrappers
  import opened LittleEndian
  import opened Paths

  /** What the source reads from the running interpreter: `sys.executable`,
      `this_machine()` and `platform.python_version()`. */
  datatype Host = Host(executable: string, machine: string, pyVersion: string)

  /** A `Builder`. `entrypoints` maps `con` and `gui` to entry-point specs;
      it is `None` when the constructor got none. */
  datatype Builder = Builder(
    name: string, root: Path, files: seq<string>, version: Option<string>,
    dependencies: seq<string>, entrypoints: Option<map<string, seq<string>>>,
    machine: string, pyVersion: string)

  datatype BuildError =
    | LauncherMissing(resource: string, package: string)  // `_get_launcher`'s ValueError
    | NoEntrypoints                                       // `None.get` in `_make_entrypoints`
    | CopyTreeExists(src: Path, dst: Path)                // `copytree` onto an existing directory
    | SourceMissing(src: Path)                            // `copytree`'s `scandir` of a non-directory

  /** The side effects the builder causes, in the order it causes them. */
  datatype Event =
    | Fetch(url: string, target: Path)
    | ExtractZip(archive: Path, into: Path)
    | RunTool(args: seq<string>)
    | CopyFile(src: Path, dst: Path)
    | CopyTree(src: Path, dst: Path)
    | MakeScript(spec: string, executable: string)
    | CleanOutput(dir: Path, sourceToo: bool)
    | RemoveTree(path: Path)
    | Unlink(path: Path)
    | MakeArchive(base: Path)

  /** `Builder(...)`: missing dependencies become an empty list. */
  function NewBuilder(
    name: string, root: Path, files: seq<string>, version: Option<string>,
    dependencies: Option<seq<string>>, entrypoints: Option<map<string, seq<string>>>,
    machine: string, pyVersion: string): (b: Builder)
    ensures dependencies.None? ==> b.dependencies == []
    ensures dependencies.Some? ==> b.dependencies == dependencies.value
  {
    Builder(name, root, files, version,
            if dependencies.None? then [] else dependencies.value,
            entrypoints, machine, pyVersion)
  }

  // ------------------------------------------------------------------ paths

  function BuildPath(b: Builder): Path { Join(b.root, "build") }
  function CachePath(b: Builder): Path { Join(BuildPath(b), "cache") }
  function RhPath(b: Builder): Path { Join(CachePath(b), "resourcehacker") }
  function OutputPath(b: Builder): Path { Join(BuildPath(b), b.name) }

  /** The release directory's name: the project name, with `-version`
      appended when there is a version. */
  function ReleaseDirName(name: string, version: Option<string>): (r: string)
    ensures version.None? ==> r == name
    ensures version.Some? ==> |r| == |name| + 1 + |version.value| && r[..|name| + 1] == name + "-"
    ensures version.Some? ==> r[|name| + 1..] == version.value
  {
    if version.None? then name else name + "-" + version.value
  }

  function FinalPath(b: Builder): Path
  {
    Join(Join(b.root, "release"), ReleaseDirName(b.name, b.version))
  }

  /** Releases of one project never share a directory: each version, and
      the unversioned build, has its own. */
  lemma ReleaseDirNamesDistinct(name: string, v1: Option<string>, v2: Option<string>)
    ensures ReleaseDirName(name, v1) == ReleaseDirName(name, v2) <==> v1 == v2
  {
    if ReleaseDirName(name, v1) == ReleaseDirName(name, v2) && v1.Some? && v2.Some? {
      assert v1.value == ReleaseDirName(name, v1)[|name| + 1..];
      assert v2.value == ReleaseDirName(name, v2)[|name| + 1..];
    }
  }

  /** The output directory is `build/<name>`, beside the cache; it is the
      cache itself for a project named `cache`. */
  lemma OutputIsCacheOnlyForCache(b: Builder)
    ensures OutputPath(b) == CachePath(b) <==> b.name == "cache"
  {
    if OutputPath(b) == CachePath(b) {
      assert |OutputPath(b)| == |CachePath(b)|;
      if b.name != "" {
        assert OutputPath(b)[|BuildPath(b)|] == b.name;
      }
    }
  }

  // ---------------------------------------------------------------- launcher

  function Bits(machine: string): string
  {
    if machine == "amd64" then "64" else "32"
  }

  /** The launcher stub `_get_launcher` asks distlib for. */
  function LauncherName(kind: string, machine: string): (r: string)
    ensures |r| == |kind| + 6 && r[..|kind|] == kind && r[|kind| + 2..] == ".exe"
    ensures r[|kind|..|kind| + 2] == "64" <==> machine == "amd64"
    ensures r[|kind|..|kind| + 2] == "32" <==> machine != "amd64"
  {
    kind + Bits(machine) + ".exe"
  }

  /** A stub name determines the kind and whether the target is 64-bit, and
      every machine other than `amd64` gets the 32-bit stub. */
  lemma LauncherNameInjective(k1: string, m1: string, k2: string, m2: string)
    ensures LauncherName(k1, m1) == LauncherName(k2, m2) <==> k1 == k2 && (m1 == "amd64" <==> m2 == "amd64")
  {
    var n1, n2 := LauncherName(k1, m1), LauncherName(k2, m2);
    if n1 == n2 {
      assert k1 == n1[..|k1|] && k2 == n2[..|k2|];
      assert n1[|k1|..|k1| + 2] == Bits(m1);
      assert n2[|k2|..|k2| + 2] == Bits(m2);
    }
  }

  const LauncherPackage := "distlib"

  /** `_get_launcher(kind)` against the launcher resources distlib ships. */
  function GetLauncher(resources: map<string, seq<byte>>, kind: string, machine: string): (r: Result<seq<byte>, BuildError>)
    ensures r.Success? <==> LauncherName(kind, machine) in resources
    ensures r.Success? ==> r.value == resources[LauncherName(kind, machine)]
    ensures r.Failure? ==> r.error == LauncherMissing(LauncherName(kind, machine), LauncherPackage)
  {
    var name := LauncherName(kind, machine);
    if name in resources then Success(resources[name])
    else Failure(LauncherMissing(name, LauncherPackage))
  }

  // ---------------------------------------------------------------- compile

  /** `min(max(-1, optimize), 2)`. */
  function Clamp(optimize: int): (r: int)
    ensures -1 <= r <= 2
    ensures -1 <= optimize <= 2 ==> r == optimize
    ensures optimize < -1 ==> r == -1
    ensures optimize > 2 ==> r == 2
  {
    var low := if optimize < -1 then -1 else optimize;
    if low > 2 then 2 else low
  }

  lemma ClampIdempotentMonotone(a: int, b: int)
    ensures Clamp(Clamp(a)) == Clamp(a)
    ensures a <= b ==> Clamp(a) <= Clamp(b)
  {
  }

  /** `str(level)` for a clamped level. */
  function LevelString(level: int): (r: string)
    requires -1 <= level <= 2
    ensures |r| >= 1
  {
    if level == -1 then "-1" else if level == 0 then "0" else if level == 1 then "1" else "2"
  }

  /** The `compileall` command `_compile(optimize)` runs. */
  function CompileArgs(b: Builder, optimize: int): (args: seq<string>)
    ensures |args| == 7
  {
    [Str(Join(OutputPath(b), "python.exe")), "-m", "compileall", "-b", "-o",
     LevelString(Clamp(optimize)), Str(OutputPath(b))]
  }

  /** Two requested levels give the same command exactly when they clamp
      to the same level; levels inside [-1, 2] are passed unchanged. */
  lemma CompileArgsLevel(b: Builder, o1: int, o2: int)
    ensures CompileArgs(b, o1) == CompileArgs(b, o2) <==> Clamp(o1) == Clamp(o2)
  {
    if CompileArgs(b, o1) == CompileArgs(b, o2) {
      assert CompileArgs(b, o1)[5] == CompileArgs(b, o2)[5];
    }
  }

  // -------------------------------------------------------------------- pip

  /** The `--platform` value for a target machine. */
  function Arch(machine: string): (r: string)
    ensures r == "win-amd64" <==> machine == "amd64"
  {
    if machine == "amd64" then "win-amd64" else "win32"
  }

  function PipPrefix(b: Builder, host: Host): seq<string>
  {
    [host.executable, "-m", "pip", "install", "--target", Str(OutputPath(b))]
  }

  /** The flags `_install_dependencies` adds when the target differs from
      the host: platform when the machines differ, Python version when
      `differentVersion`, and binary-only wheels when either is added. */
  function CrossFlags(b: Builder, host: Host, differentVersion: bool): seq<string>
  {
    var platform := if b.machine != host.machine then ["--platform", Arch(b.machine)] else [];
    var version := if differentVersion then ["--python-version", b.pyVersion] else [];
    var onlyBin := if b.machine != host.machine || differentVersion then ["--only-binary=:all:"] else [];
    platform + version + onlyBin
  }

  /** `_install_dependencies` as written: it compares `py_version` with the
      function `platform.version` rather than with a version string, so the
      comparison never finds them equal. */
  function PipArgsAsWritten(b: Builder, host: Host): (args: seq<string>)
    ensures |args| >= 6 + |b.dependencies|
    ensures args[..6] == [host.executable, "-m", "pip", "install", "--target", Str(OutputPath(b))]
    ensures args[|args| - |b.dependencies|..] == b.dependencies
  {
    FlagsPart(PipPrefix(b, host), CrossFlags(b, host, true), b.dependencies);
    PipPrefix(b, host) + CrossFlags(b, host, true) + b.dependencies
  }

  /** `_install_dependencies` comparing with the host's Python version. */
  function PipArgs(b: Builder, host: Host): (args: seq<string>)
    ensures |args| >= 6 + |b.dependencies|
    ensures args[..6] == [host.executable, "-m", "pip", "install", "--target", Str(OutputPath(b))]
    ensures args[|args| - |b.dependencies|..] == b.dependencies
  {
    FlagsPart(PipPrefix(b, host), CrossFlags(b, host, b.pyVersion != host.pyVersion), b.dependencies);
    PipPrefix(b, host) + CrossFlags(b, host, b.pyVersion != host.pyVersion) + b.dependencies
  }

  /** The pip command: the fixed prefix, then the cross-target flags, then
      the dependencies in order. The flags open with `--platform <arch>`
      exactly when the machines differ, hold `--python-version <version>`
      exactly when the Python versions differ, and end with
      `--only-binary=:all:` whenever there are any; a native build gets
      none. */
  lemma PipArgsShape(b: Builder, host: Host)
    ensures var args := PipArgs(b, host);
      var n := |b.dependencies|;
      && |args| >= 6 + n
      && args[..6] == [host.executable, "-m", "pip", "install", "--target", Str(OutputPath(b))]
      && args[|args| - n..] == b.dependencies
      && CrossFlagsShape(b, host, b.pyVersion != host.pyVersion, args[6..|args| - n])
  {
    var flags := CrossFlags(b, host, b.pyVersion != host.pyVersion);
    FlagsPart(PipPrefix(b, host), flags, b.dependencies);
    CrossFlagsFacts(b, host, b.pyVersion != host.pyVersion);
  }

  /** The pip command as written: the same prefix and dependencies, with
      `--python-version <version> --only-binary=:all:` on every build and
      `--platform <arch>` before them exactly when the machines differ. */
  lemma PipArgsAsWrittenShape(b: Builder, host: Host)
    ensures var args := PipArgsAsWritten(b, host);
      var n := |b.dependencies|;
      && |args| >= 6 + n
      && args[..6] == [host.executable, "-m", "pip", "install", "--target", Str(OutputPath(b))]
      && args[|args| - n..] == b.dependencies
      && CrossFlagsShape(b, host, true, args[6..|args| - n])
  {
    var flags := CrossFlags(b, host, true);
    FlagsPart(PipPrefix(b, host), flags, b.dependencies);
    CrossFlagsFacts(b, host, true);
  }

  /** What the flags between the prefix and the dependencies say, when the
      version flags are added exactly if `crossVersion`: nothing but the
      platform pair, the version pair and the binary-only flag, in that
      order. */
  ghost predicate CrossFlagsShape(b: Builder, host: Host, crossVersion: bool, flags: seq<string>)
  {
    var crossMachine := b.machine != host.machine;
    && (crossMachine <==> |flags| >= 2 && flags[0] == "--platform")
    && (crossMachine ==> flags[..2] == ["--platform", Arch(b.machine)])
    && (crossVersion <==> |flags| >= 3 && flags[|flags| - 3] == "--python-version")
    && (crossVersion ==> flags[|flags| - 3..] == ["--python-version", b.pyVersion, "--only-binary=:all:"])
    && (flags != [] <==> crossMachine || crossVersion)
    && (flags != [] ==> flags[|flags| - 1] == "--only-binary=:all:")
    && |flags| == (if crossMachine then 2 else 0) + (if crossVersion then 2 else 0)
                  + (if crossMachine || crossVersion then 1 else 0)
  }

  lemma CrossFlagsFacts(b: Builder, host: Host, crossVersion: bool)
    ensures CrossFlagsShape(b, host, crossVersion, CrossFlags(b, host, crossVersion))
  {
  }

  lemma FlagsPart(prefix: seq<string>, flags: seq<string>, deps: seq<string>)
    requires |prefix| == 6
    ensures var args := prefix + flags + deps;
      && |args| >= 6 + |deps|
      && args[..6] == prefix
      && args[|args| - |deps|..] == deps
      && args[6..|args| - |deps|] == flags
  {
  }

  /** As written, the version flags are added even for a native build:
      with the host's own machine and Python version the command still
      restricts pip to binary wheels and pins the version. */
  lemma PipArgsAsWrittenNative(b: Builder, host: Host)
    requires b.machine == host.machine && b.pyVersion == host.pyVersion
    ensures PipArgsAsWritten(b, host) == PipPrefix(b, host) + ["--python-version", b.pyVersion, "--only-binary=:all:"] + b.dependencies
    ensures PipArgs(b, host) == PipPrefix(b, host) + b.dependencies
    ensures PipArgsAsWritten(b, host) != PipArgs(b, host)
  {
    assert |PipArgsAsWritten(b, host)| == |PipArgs(b, host)| + 3;
  }

  // --------------------------------------------------------------- the cache

  /** Where `_download_item(url)` keeps a download: the cache directory
      joined with the last component of the URL's path. */
  function CacheFile(b: Builder, url: string): Path
  {
    Join(CachePath(b), PosixName(UrlParse(url).path))
  }

  /** `_download_item(url)` given the paths that exist: the file is fetched
      only when it is not there yet, after creating the cache directory and
      the directories above it. */
  function DownloadItem(b: Builder, existing: set<Path>, url: string): (r: (Path, seq<Event>, set<Path>))
    ensures r.0 == CacheFile(b, url)
    ensures r.0 in r.2 && existing <= r.2
    ensures r.1 == [] <==> r.0 in existing
    ensures r.1 == [] ==> r.2 == existing
    ensures r.1 != [] ==> r.1 == [Fetch(url, r.0)] && r.2 == existing + Ancestors(r.0) + {r.0}
  {
    var path := CacheFile(b, url);
    var fetched := FetchMissing(existing, url, path);
    (path, fetched.0, fetched.1)
  }

  /** Fetching `url` into `path` unless that file is already there; the
      directories above `path` are made first. */
  function FetchMissing(existing: set<Path>, url: string, path: Path): (r: (seq<Event>, set<Path>))
    ensures path in r.1 && existing <= r.1
    ensures r.0 == [] <==> path in existing
    ensures r.0 == [] ==> r.1 == existing
    ensures r.0 != [] ==> r.1 == existing + Ancestors(path) + {path}
  {
    if path in existing then ([], existing) else ([Fetch(url, path)], existing + Ancestors(path) + {path})
  }

  /** Downloading again fetches nothing and names the same file. */
  lemma DownloadIdempotent(b: Builder, existing: set<Path>, url: string)
    ensures var (path, _, after) := DownloadItem(b, existing, url);
      DownloadItem(b, after, url) == (path, [], after)
  {
  }

  const PythonHost := "www.python.org"

  /** The embeddable CPython archive for the target version and machine:
      `https://www.python.org/ftp/python/<v>/python-<v>-embed-<machine>.zip`. */
  function PythonUrl(b: Builder): string
  {
    PlainUrl("https", PythonHost, "/ftp/python/" + b.pyVersion, PythonArchiveName(b))
  }

  function PythonArchiveName(b: Builder): string
  {
    "python-" + b.pyVersion + "-embed-" + b.machine + ".zip"
  }

  /** `http://www.angusj.com/resourcehacker/resource_hacker.zip`. */
  const ResourceHackerUrl := PlainUrl("http", "www.angusj.com", "/resourcehacker", "resource_hacker.zip")

  /** A version and machine without URL delimiters. */
  predicate PlainUrlText(s: string)
  {
    '/' !in s && '?' !in s && '#' !in s && ';' !in s
  }

  /** The Python archive is cached as `python-<version>-embed-<machine>.zip`. */
  lemma PythonCacheFile(b: Builder)
    requires PlainUrlText(b.pyVersion) && PlainUrlText(b.machine)
    ensures CacheFile(b, PythonUrl(b)) == CachePath(b) + [PythonArchiveName(b)]
  {
    PythonUrlParts(b.pyVersion, b.machine);
    UrlParseRoundTrip("https", PythonHost, "/ftp/python/" + b.pyVersion, PythonArchiveName(b));
  }

  lemma PythonUrlParts(version: string, machine: string)
    requires PlainUrlText(version) && PlainUrlText(machine)
    ensures var dir := "/ftp/python/" + version;
      var name := "python-" + version + "-embed-" + machine + ".zip";
      && '?' !in dir && '#' !in dir && ';' !in dir && dir[0] == '/'
      && PlainUrlText(name) && name != "" && name != "."
  {
    var name := "python-" + version + "-embed-" + machine + ".zip";
    PlainLiterals();
    PlainAppend("python-", version);
    PlainAppend("python-" + version, "-embed-");
    PlainAppend("python-" + version + "-embed-", machine);
    PlainAppend("python-" + version + "-embed-" + machine, ".zip");
    assert name[0] == 'p' && name[1] == 'y';
  }

  lemma PlainLiterals()
    ensures PlainUrlText("python-") && PlainUrlText("-embed-") && PlainUrlText(".zip")
    ensures '?' !in "/ftp/python/" && '#' !in "/ftp/python/" && ';' !in "/ftp/python/"
  {
  }

  lemma PlainAppend(a: string, b: string)
    requires PlainUrlText(a) && PlainUrlText(b)
    ensures PlainUrlText(a + b)
  {
  }

  /** The Resource Hacker archive is cached as `resource_hacker.zip`. */
  lemma ResourceHackerCacheFile(b: Builder)
    ensures CacheFile(b, ResourceHackerUrl) == CachePath(b) + ["resource_hacker.zip"]
  {
    UrlParseRoundTrip("http", "www.angusj.com", "/resourcehacker", "resource_hacker.zip");
  }
}

=== FILE: bundle.dfy ===
/** `Builder.make_bundle` and the stages it runs, as the sequence of side
    effects each stage causes. The file system is the set of paths that
    exist; the script maker and the file-versus-directory test are
    parameters. */
module Bundle {
  import opened Wrappers
  import opened Text
  import opened Paths
  import opened IconSpec
  import opened Builder

  /** The file-system state the builder consults, and its `_has_rh` latch. */
  datatype State = State(existing: set<Path>, hasRh: bool)

  /** What the model does not compute itself: distlib's `ScriptMaker.make`
      (spec and interpreter name to the files it writes), `is_file()`, and
      whether a path is a directory `copytree` can list. */
  datatype Env = Env(make: (string, string) -> seq<string>, isFile: Path -> bool, isDir: Path -> bool)

  // ------------------------------------------------------------- _add_icon

  function ResourceHackerExe(b: Builder): string
  {
    Str(Join(RhPath(b), "ResourceHacker.exe"))
  }

  function DeleteIconArgs(b: Builder, exe: string): seq<string>
  {
    [ResourceHackerExe(b), "-open", exe, "-save", exe, "-action", "delete", "-mask", "ICONGROUP,101,"]
  }

  function AddIconArgs(b: Builder, exe: string, icon: string): seq<string>
  {
    [ResourceHackerExe(b), "-open", exe, "-save", exe, "-action", "addoverwrite",
     "-res", Str(Join(b.root, icon)), "-mask", "ICONGROUP,MAINICON,"]
  }

  /** The two Resource Hacker runs for one executable: drop distlib's
      icon group 101, then add the icon as MAINICON. */
  function IconRuns(b: Builder, exe: string, icon: string): seq<Event>
  {
    [RunTool(DeleteIconArgs(b, exe)), RunTool(AddIconArgs(b, exe, icon))]
  }

  /** The runs for every executable, in order. */
  function IconCommands(b: Builder, exes: seq<string>, icon: string): (r: seq<Event>)
    ensures |r| == 2 * |exes|
    ensures forall i :: 0 <= i < |r| ==> r[i].RunTool?
  {
    if |exes| == 0 then [] else IconRuns(b, exes[0], icon) + IconCommands(b, exes[1..], icon)
  }

  /** Executable `i` gets its two runs at positions `2i` and `2i + 1`. */
  lemma {:induction false} IconCommandsAt(b: Builder, exes: seq<string>, icon: string, i: nat)
    requires i < |exes|
    ensures IconCommands(b, exes, icon)[2 * i..2 * i + 2] == IconRuns(b, exes[i], icon)
  {
    var runs := IconRuns(b, exes[0], icon);
    var rest := IconCommands(b, exes[1..], icon);
    if i > 0 {
      IconCommandsAt(b, exes[1..], icon, i - 1);
      PairAfter(runs, rest, 2 * (i - 1));
    } else {
      assert (runs + rest)[..2] == runs;
    }
  }

  lemma PairAfter(x: seq<Event>, y: seq<Event>, k: nat)
    requires |x| == 2 && k + 2 <= |y|
    ensures (x + y)[k + 2..k + 4] == y[k..k + 2]
  {
    assert (x + y)[k + 2] == y[k] && (x + y)[k + 3] == y[k + 1];
  }

  /** `_download_item(url)` followed by unpacking the download into `into`,
      which `extractall` creates with the directories above it. */
  function FetchAndExtract(b: Builder, existing: set<Path>, url: string, into: Path): (r: (seq<Event>, set<Path>))
    ensures existing <= r.1 && into in r.1 && Ancestors(into) <= r.1
    ensures |r.0| >= 1 && r.0[|r.0| - 1] == ExtractZip(CacheFile(b, url), into)
    ensures forall i :: 0 <= i < |r.0| - 1 ==> r.0[i] == Fetch(url, CacheFile(b, url))
    ensures forall i :: 0 <= i < |r.0| ==> IsSetup(r.0[i])
  {
    var d := DownloadItem(b, existing, url);
    Unpack(existing, d.1, d.2, Fetch(url, d.0), ExtractZip(d.0, into), into)
  }

  /** The download's events and paths followed by the unpacking into `into`. */
  function Unpack(existing: set<Path>, fetch: seq<Event>, fetched: set<Path>, get: Event, unpack: Event, into: Path): (r: (seq<Event>, set<Path>))
    requires fetch == [] || fetch == [get]
    requires existing <= fetched
    ensures existing <= r.1 && into in r.1 && Ancestors(into) <= r.1
    ensures |r.0| >= 1 && r.0[|r.0| - 1] == unpack
    ensures forall i :: 0 <= i < |r.0| - 1 ==> r.0[i] == get
  {
    (fetch + [unpack], fetched + Ancestors(into) + {into})
  }

  /** `_download_resource_hacker` and `_extract_resource_hacker`; sets the latch. */
  function SetUpResourceHacker(b: Builder, st: State): (r: (seq<Event>, State))
    ensures r.1.hasRh && st.existing <= r.1.existing && RhPath(b) in r.1.existing
    ensures CountRhSetups(b, r.0) == 1
  {
    var fe := FetchAndExtract(b, st.existing, ResourceHackerUrl, RhPath(b));
    FetchAndExtractOnce(b, st.existing, ResourceHackerUrl);
    (fe.0, State(fe.1, true))
  }

  /** `_add_icon(exes, icon)`. */
  function AddIcon(b: Builder, st: State, exes: seq<string>, icon: Option<string>): (r: (seq<Event>, State))
    ensures st.existing <= r.1.existing
    ensures st.hasRh ==> r.1 == st
  {
    if icon.None? || icon.value == "" then ([], st)
    else
      var (setup, st1) := if st.hasRh then ([], st) else SetUpResourceHacker(b, st);
      (setup + IconCommands(b, exes, icon.value), st1)
  }

  /** An event of a download or an unpacking. */
  predicate IsSetup(e: Event)
  {
    e.Fetch? || e.ExtractZip?
  }

  /** Resource Hacker is unpacked into its directory. */
  predicate IsRhSetup(b: Builder, e: Event)
  {
    e.ExtractZip? && e.into == RhPath(b)
  }

  function CountRhSetups(b: Builder, events: seq<Event>): nat
  {
    if |events| == 0 then 0
    else (if IsRhSetup(b, events[0]) then 1 else 0) + CountRhSetups(b, events[1..])
  }

  lemma {:induction false} CountRhSetupsAppend(b: Builder, x: seq<Event>, y: seq<Event>)
    ensures CountRhSetups(b, x + y) == CountRhSetups(b, x) + CountRhSetups(b, y)
  {
    if |x| > 0 {
      assert (x + y)[1..] == x[1..] + y;
      CountRhSetupsAppend(b, x[1..], y);
    } else {
      assert x + y == y;
    }
  }

  lemma {:induction false} IconCommandsNoSetup(b: Builder, exes: seq<string>, icon: string)
    ensures CountRhSetups(b, IconCommands(b, exes, icon)) == 0
  {
    var r := IconCommands(b, exes, icon);
    if |exes| > 0 {
      IconCommandsNoSetup(b, exes[1..], icon);
      assert r == [r[0], r[1]] + IconCommands(b, exes[1..], icon);
      CountRhSetupsAppend(b, [r[0], r[1]], IconCommands(b, exes[1..], icon));
    }
  }

  lemma FetchAndExtractOnce(b: Builder, existing: set<Path>, url: string)
    ensures CountRhSetups(b, FetchAndExtract(b, existing, url, RhPath(b)).0) == 1
  {
    UnpackedOnce(b, FetchAndExtract(b, existing, url, RhPath(b)).0, url, CacheFile(b, url));
  }

  /** Fetches of `zip` followed by its unpacking into Resource Hacker's
      directory set Resource Hacker up once. */
  lemma UnpackedOnce(b: Builder, ev: seq<Event>, url: string, zip: Path)
    requires |ev| >= 1 && ev[|ev| - 1] == ExtractZip(zip, RhPath(b))
    requires forall i :: 0 <= i < |ev| - 1 ==> ev[i] == Fetch(url, zip)
    ensures CountRhSetups(b, ev) == 1
  {
    var init := ev[..|ev| - 1];
    assert ev == init + [ev[|ev| - 1]];
    CountRhSetupsAppend(b, init, [ev[|ev| - 1]]);
    NoSetupAmongFetches(b, init, url, zip);
  }

  lemma {:induction false} NoSetupAmongFetches(b: Builder, events: seq<Event>, url: string, target: Path)
    requires forall i :: 0 <= i < |events| ==> events[i] == Fetch(url, target)
    ensures CountRhSetups(b, events) == 0
  {
    if |events| > 0 {
      NoSetupAmongFetches(b, events[1..], url, target);
    }
  }

  /** The latch: a falsy icon does nothing; otherwise Resource Hacker is set
      up exactly when it was not yet, and every executable gets its two
      runs, in order. */
  lemma AddIconLatch(b: Builder, st: State, exes: seq<string>, icon: Option<string>)
    ensures var (events, st1) := AddIcon(b, st, exes, icon);
      && (icon.None? || icon.value == "" ==> events == [] && st1 == st)
      && (icon.Some? && icon.value != "" ==>
            && st1.hasRh
            && CountRhSetups(b, events) == (if st.hasRh then 0 else 1)
            && events[|events| - 2 * |exes|..] == IconCommands(b, exes, icon.value))
      && st.existing <= st1.existing
      && (st.hasRh ==> st1 == st)
  {
    if icon.Some? && icon.value != "" {
      var cmds := IconCommands(b, exes, icon.value);
      IconCommandsNoSetup(b, exes, icon.value);
      if st.hasRh {
        assert AddIcon(b, st, exes, icon) == ([] + cmds, st);
        SetupThenCommands(b, [], cmds);
      } else {
        AddIconFirstTime(b, st, exes, icon.value);
      }
    }
  }

  /** Without the latch, the icon runs follow a Resource Hacker set-up. */
  lemma AddIconFirstTime(b: Builder, st: State, exes: seq<string>, icon: string)
    requires !st.hasRh && icon != ""
    ensures var (events, st1) := AddIcon(b, st, exes, Some(icon));
      && st1.hasRh && st.existing <= st1.existing
      && CountRhSetups(b, events) == 1
      && events[|events| - 2 * |exes|..] == IconCommands(b, exes, icon)
  {
    var cmds := IconCommands(b, exes, icon);
    var setup := SetUpResourceHacker(b, st);
    IconCommandsNoSetup(b, exes, icon);
    FirstSetupThenCommands(b, setup.0, cmds, AddIcon(b, st, exes, Some(icon)).0);
  }

  lemma FirstSetupThenCommands(b: Builder, setup: seq<Event>, cmds: seq<Event>, events: seq<Event>)
    requires events == setup + cmds
    requires CountRhSetups(b, setup) == 1 && CountRhSetups(b, cmds) == 0
    ensures CountRhSetups(b, events) == 1 && events[|events| - |cmds|..] == cmds
  {
    SetupThenCommands(b, setup, cmds);
  }

  lemma SetupThenCommands(b: Builder, setup: seq<Event>, cmds: seq<Event>)
    ensures CountRhSetups(b, setup + cmds) == CountRhSetups(b, setup) + CountRhSetups(b, cmds)
    ensures (setup + cmds)[|setup + cmds| - |cmds|..] == cmds
  {
    CountRhSetupsAppend(b, setup, cmds);
    assert (setup + cmds)[|setup|..] == cmds;
  }

  // ------------------------------------------------------ _make_entrypoints

  /** Each spec with the interpreter its launcher runs. */
  function WithExecutable(specs: seq<string>, exe: string): (r: seq<(string, string)>)
    ensures |r| == |specs|
    ensures forall i :: 0 <= i < |specs| ==> r[i] == (specs[i], exe)
  {
    seq(|specs|, i requires 0 <= i < |specs| => (specs[i], exe))
  }

  /** `entrypoints.get(key, [])`. */
  function Get(eps: map<string, seq<string>>, key: string): seq<string>
  {
    if key in eps then eps[key] else []
  }

  /** Console specs run under `python.exe`, then GUI specs under `pythonw.exe`. */
  function Specs(eps: map<string, seq<string>>): seq<(string, string)>
  {
    WithExecutable(Get(eps, "con"), "python.exe") + WithExecutable(Get(eps, "gui"), "pythonw.exe")
  }

  /** The loop of `_make_entrypoints`: the files written, the side effects,
      and the state after. */
  function ProcessSpecs(b: Builder, env: Env, st: State, specs: seq<(string, string)>): (r: (seq<string>, seq<Event>, State))
    ensures st.existing <= r.2.existing
    ensures st.hasRh ==> r.2.hasRh
    decreases |specs|
  {
    if |specs| == 0 then ([], [], st)
    else
      var (spec, exe) := specs[0];
      var (cmd, icon) := SplitIcon(spec);
      var made := env.make(cmd, exe);
      var (iconEvents, st1) := AddIcon(b, st, made, icon);
      AddIconLatch(b, st, made, icon);
      var (files, events, st2) := ProcessSpecs(b, env, st1, specs[1..]);
      (made + files, [MakeScript(cmd, exe)] + iconEvents + events, st2)
  }

  /** `_make_entrypoints()`; it fails when the builder has no entry points. */
  function MakeEntrypoints(b: Builder, env: Env, st: State): (r: (Result<seq<string>, BuildError>, seq<Event>, State))
    ensures r.0.Failure? <==> b.entrypoints.None?
    ensures r.0.Failure? ==> r.0.error == NoEntrypoints && r.1 == [] && r.2 == st
  {
    if b.entrypoints.None? then (Failure(NoEntrypoints), [], st)
    else
      var (files, events, st1) := ProcessSpecs(b, env, st, Specs(b.entrypoints.value));
      (Success(files), events, st1)
  }

  /** The scripts the maker is asked for, in order. */
  function Scripts(events: seq<Event>): (r: seq<Event>)
    ensures forall i :: 0 <= i < |r| ==> r[i].MakeScript?
  {
    if |events| == 0 then []
    else (if events[0].MakeScript? then [events[0]] else []) + Scripts(events[1..])
  }

  lemma {:induction false} ScriptsAppend(x: seq<Event>, y: seq<Event>)
    ensures Scripts(x + y) == Scripts(x) + Scripts(y)
  {
    if |x| > 0 {
      assert (x + y)[1..] == x[1..] + y;
      ScriptsAppend(x[1..], y);
    } else {
      assert x + y == y;
    }
  }

  lemma NoScriptsInIcons(b: Builder, st: State, exes: seq<string>, icon: Option<string>)
    ensures Scripts(AddIcon(b, st, exes, icon).0) == []
  {
    if icon.Some? && icon.value != "" {
      var cmds := IconCommands(b, exes, icon.value);
      IconCommandsNoScripts(b, exes, icon.value);
      if st.hasRh {
        ScriptsAppend([], cmds);
      } else {
        var setup := SetUpResourceHacker(b, st).0;
        FetchAndExtractNoScripts(b, st.existing, ResourceHackerUrl, RhPath(b));
        ScriptsAppend(setup, cmds);
      }
    }
  }

  lemma FetchAndExtractNoScripts(b: Builder, existing: set<Path>, url: string, into: Path)
    ensures Scripts(FetchAndExtract(b, existing, url, into).0) == []
  {
    NoScriptsWhenNone(FetchAndExtract(b, existing, url, into).0);
  }

  lemma {:induction false} IconCommandsNoScripts(b: Builder, exes: seq<string>, icon: string)
    ensures Scripts(IconCommands(b, exes, icon)) == []
  {
    if |exes| > 0 {
      IconCommandsNoScripts(b, exes[1..], icon);
      ScriptsAppend(IconRuns(b, exes[0], icon), IconCommands(b, exes[1..], icon));
      NoScriptsWhenNone(IconRuns(b, exes[0], icon));
    }
  }

  lemma {:induction false} NoScriptsWhenNone(events: seq<Event>)
    requires forall i :: 0 <= i < |events| ==> !events[i].MakeScript?
    ensures Scripts(events) == []
  {
    if |events| > 0 {
      NoScriptsWhenNone(events[1..]);
    }
  }

  /** The reference order: one `make` per spec, each spec's command as
      `split_icon` leaves it, in spec order. */
  function ExpectedScripts(specs: seq<(string, string)>): (r: seq<Event>)
    ensures |r| == |specs|
  {
    MapSeq(ScriptFor, specs)
  }

  /** `f` applied to every element, in order. */
  function MapSeq<A, B>(f: A -> B, s: seq<A>): (r: seq<B>)
    decreases |s|
    ensures |r| == |s|
  {
    if |s| == 0 then [] else [f(s[0])] + MapSeq(f, s[1..])
  }

  lemma {:induction false} MapSeqAppend<A, B>(f: A -> B, x: seq<A>, y: seq<A>)
    decreases |x|
    ensures MapSeq(f, x + y) == MapSeq(f, x) + MapSeq(f, y)
  {
    if |x| > 0 {
      assert (x + y)[1..] == x[1..] + y;
      MapSeqAppend(f, x[1..], y);
    } else {
      assert x + y == y;
    }
  }

  /** The `make` call for one spec and interpreter. */
  function ScriptFor(spec: (string, string)): Event
  {
    MakeScript(SplitIcon(spec.0).0, spec.1)
  }

  /** The files `_make_entrypoints` returns: every `make` result, in order. */
  function ExpectedFiles(env: Env, specs: seq<(string, string)>): seq<string>
  {
    if |specs| == 0 then []
    else env.make(SplitIcon(specs[0].0).0, specs[0].1) + ExpectedFiles(env, specs[1..])
  }

  lemma {:induction false} ProcessSpecsOrder(b: Builder, env: Env, st: State, specs: seq<(string, string)>)
    decreases |specs|
    ensures var (files, events, _) := ProcessSpecs(b, env, st, specs);
      && Scripts(events) == ExpectedScripts(specs)
      && files == ExpectedFiles(env, specs)
  {
    if |specs| > 0 {
      var (spec, exe) := specs[0];
      var (cmd, icon) := SplitIcon(spec);
      var made := env.make(cmd, exe);
      var (iconEvents, st1) := AddIcon(b, st, made, icon);
      var (files, events, st2) := ProcessSpecs(b, env, st1, specs[1..]);
      ProcessSpecsOrder(b, env, st1, specs[1..]);
      NoScriptsInIcons(b, st, made, icon);
      ScriptsAppend([MakeScript(cmd, exe)] + iconEvents, events);
      ScriptsAppend([MakeScript(cmd, exe)], iconEvents);
      assert Scripts([MakeScript(cmd, exe)]) == [MakeScript(cmd, exe)];
      assert ExpectedScripts(specs) == [MakeScript(cmd, exe)] + ExpectedScripts(specs[1..]);
    }
  }

  /** Every console spec is made before any GUI spec, each group in input
      order, each after `split_icon`, and the returned files are the maker's
      outputs concatenated in the same order. */
  lemma EntrypointOrder(b: Builder, env: Env, st: State)
    requires b.entrypoints.Some?
    ensures var eps := b.entrypoints.value;
      var (files, events, _) := MakeEntrypoints(b, env, st);
      && Scripts(events) == ExpectedScripts(WithExecutable(Get(eps, "con"), "python.exe"))
                            + ExpectedScripts(WithExecutable(Get(eps, "gui"), "pythonw.exe"))
      && files == Success(ExpectedFiles(env, Specs(eps)))
  {
    var eps := b.entrypoints.value;
    var con := WithExecutable(Get(eps, "con"), "python.exe");
    var gui := WithExecutable(Get(eps, "gui"), "pythonw.exe");
    ProcessSpecsOrder(b, env, st, con + gui);
    ExpectedScriptsAppend(con, gui);
  }

  lemma ExpectedScriptsAppend(x: seq<(string, string)>, y: seq<(string, string)>)
    ensures ExpectedScripts(x + y) == ExpectedScripts(x) + ExpectedScripts(y)
  {
    MapSeqAppend(ScriptFor, x, y);
  }

  /** Resource Hacker is set up at most once per builder, over all specs,
      and not at all once the latch is set. */
  /** `split_icon` found a non-empty icon in the spec. */
  predicate HasIcon(spec: string)
  {
    SplitIcon(spec).1.Some?
  }

  /** Some spec of `specs` carries an icon. */
  predicate AnyIcon(specs: seq<(string, string)>)
    decreases |specs|
  {
    |specs| > 0 && (HasIcon(specs[0].0) || AnyIcon(specs[1..]))
  }

  /** Resource Hacker is set up exactly when the latch is unset and some
      spec carries an icon, and then once over all specs; the latch ends up
      set exactly when it was set or some spec carries an icon. */
  lemma {:induction false} ProcessSpecsLatch(b: Builder, env: Env, st: State, specs: seq<(string, string)>)
    decreases |specs|
    ensures var (_, events, st1) := ProcessSpecs(b, env, st, specs);
      && CountRhSetups(b, events) <= 1
      && (CountRhSetups(b, events) == 1 <==> !st.hasRh && AnyIcon(specs))
      && (st1.hasRh <==> st.hasRh || AnyIcon(specs))
  {
    if |specs| > 0 {
      var (spec, exe) := specs[0];
      var (cmd, icon) := SplitIcon(spec);
      var made := env.make(cmd, exe);
      var (iconEvents, st1) := AddIcon(b, st, made, icon);
      var (files, events, st2) := ProcessSpecs(b, env, st1, specs[1..]);
      AddIconLatch(b, st, made, icon);
      ProcessSpecsLatch(b, env, st1, specs[1..]);
      CountRhSetupsAppend(b, [MakeScript(cmd, exe)] + iconEvents, events);
      CountRhSetupsAppend(b, [MakeScript(cmd, exe)], iconEvents);
      assert CountRhSetups(b, [MakeScript(cmd, exe)]) == 0;
      if icon.Some? {
        assert st1.hasRh;
      } else {
        assert CountRhSetups(b, iconEvents) == 0;
        assert st1 == st;
      }
    }
  }

  /** What one spec asks for, downloads aside: its script, then, when it
      carries an icon, the two Resource Hacker runs on each executable the
      maker produced. */
  function SpecRuns(b: Builder, env: Env, spec: string, exe: string): seq<Event>
  {
    var (cmd, icon) := SplitIcon(spec);
    [MakeScript(cmd, exe)] + (if icon.Some? then IconCommands(b, env.make(cmd, exe), icon.value) else [])
  }

  function AllSpecRuns(b: Builder, env: Env, specs: seq<(string, string)>): seq<Event>
    decreases |specs|
  {
    if |specs| == 0 then [] else SpecRuns(b, env, specs[0].0, specs[0].1) + AllSpecRuns(b, env, specs[1..])
  }

  /** The events that are not downloads or unpackings, in order. */
  function WithoutSetup(events: seq<Event>): (r: seq<Event>)
    ensures |r| <= |events|
  {
    if |events| == 0 then []
    else (if IsSetup(events[0]) then [] else [events[0]]) + WithoutSetup(events[1..])
  }

  lemma {:induction false} WithoutSetupAppend(x: seq<Event>, y: seq<Event>)
    ensures WithoutSetup(x + y) == WithoutSetup(x) + WithoutSetup(y)
  {
    if |x| > 0 {
      assert (x + y)[1..] == x[1..] + y;
      WithoutSetupAppend(x[1..], y);
    } else {
      assert x + y == y;
    }
  }

  lemma {:induction false} WithoutSetupKeeps(events: seq<Event>)
    requires forall i :: 0 <= i < |events| ==> !IsSetup(events[i])
    ensures WithoutSetup(events) == events
  {
    if |events| > 0 {
      WithoutSetupKeeps(events[1..]);
    }
  }

  lemma {:induction false} WithoutSetupDrops(events: seq<Event>)
    requires forall i :: 0 <= i < |events| ==> IsSetup(events[i])
    ensures WithoutSetup(events) == []
  {
    if |events| > 0 {
      WithoutSetupDrops(events[1..]);
    }
  }

  /** Downloads aside, every spec in turn gets its script and then, when it
      carries an icon, the icon runs on exactly the executables the maker
      produced for it; whether Resource Hacker was set up before changes
      nothing else. */
  lemma {:induction false} ProcessSpecsRuns(b: Builder, env: Env, st: State, specs: seq<(string, string)>)
    decreases |specs|
    ensures WithoutSetup(ProcessSpecs(b, env, st, specs).1) == AllSpecRuns(b, env, specs)
  {
    if |specs| > 0 {
      var (spec, exe) := specs[0];
      var (cmd, icon) := SplitIcon(spec);
      var made := env.make(cmd, exe);
      var (iconEvents, st1) := AddIcon(b, st, made, icon);
      var (files, events, st2) := ProcessSpecs(b, env, st1, specs[1..]);
      ProcessSpecsRuns(b, env, st1, specs[1..]);
      WithoutSetupAppend([MakeScript(cmd, exe)] + iconEvents, events);
      WithoutSetupAppend([MakeScript(cmd, exe)], iconEvents);
      assert WithoutSetup([MakeScript(cmd, exe)]) == [MakeScript(cmd, exe)];
      AddIconRuns(b, st, made, icon);
    }
  }

  /** Downloads aside, `_add_icon` runs the two commands per executable. */
  lemma AddIconRuns(b: Builder, st: State, exes: seq<string>, icon: Option<string>)
    requires icon.Some? ==> icon.value != ""
    ensures WithoutSetup(AddIcon(b, st, exes, icon).0)
      == if icon.Some? then IconCommands(b, exes, icon.value) else []
  {
    if icon.Some? {
      var runs := IconCommands(b, exes, icon.value);
      var events := AddIcon(b, st, exes, icon).0;
      if st.hasRh {
        SetupThenRuns([], runs, events);
      } else {
        SetupThenRuns(SetUpResourceHacker(b, st).0, runs, events);
      }
    }
  }

  lemma SetupThenRuns(setup: seq<Event>, runs: seq<Event>, events: seq<Event>)
    requires events == setup + runs
    requires forall i :: 0 <= i < |setup| ==> IsSetup(setup[i])
    requires forall i :: 0 <= i < |runs| ==> runs[i].RunTool?
    ensures WithoutSetup(events) == runs
  {
    WithoutSetupAppend(setup, runs);
    WithoutSetupDrops(setup);
    WithoutSetupKeeps(runs);
  }

  // ------------------------------------------------------------ _copy_source

  /** `_copy_source()`: files are copied into the output directory; any
      other entry is handed to `copytree`, which first lists the source (a
      missing one raises there) and then refuses an existing target. */
  function CopySource(b: Builder, env: Env, existing: set<Path>, entries: seq<string>): (r: (seq<Event>, Result<(), BuildError>))
    ensures r.1.Failure? ==> exists k :: 0 <= k < |entries| && !env.isFile(Join(b.root, entries[k]))
    decreases |entries|
  {
    if |entries| == 0 then ([], Success(()))
    else
      var src := Join(b.root, entries[0]);
      if env.isFile(src) then
        var (events, result) := CopySource(b, env, existing, entries[1..]);
        ([CopyFile(src, OutputPath(b))] + events, result)
      else if !env.isDir(src) then ([], Failure(SourceMissing(src)))
      else if OutputPath(b) in existing then ([], Failure(CopyTreeExists(src, OutputPath(b))))
      else
        var (events, result) := CopySource(b, env, existing + {OutputPath(b)}, entries[1..]);
        ([CopyTree(src, OutputPath(b))] + events, result)
  }

  /** What `copytree(src, output)` raises once the output directory exists:
      a source it cannot list is missing, a directory meets the existing target. */
  function CopyError(b: Builder, env: Env, src: Path): BuildError
  {
    if env.isDir(src) then CopyTreeExists(src, OutputPath(b)) else SourceMissing(src)
  }

  /** Entry `k` is the first that is not a file: the copy stopped there
      with `copytree`'s error, after copying every file before it. */
  predicate FirstNonFile(b: Builder, env: Env, entries: seq<string>, events: seq<Event>, result: Result<(), BuildError>, k: int)
  {
    && 0 <= k < |entries|
    && !env.isFile(Join(b.root, entries[k]))
    && result == Failure(CopyError(b, env, Join(b.root, entries[k])))
    && |events| == k
    && forall i :: 0 <= i < k ==> env.isFile(Join(b.root, entries[i])) && events[i] == CopyFile(Join(b.root, entries[i]), OutputPath(b))
  }

  /** With the output directory in place, copying succeeds exactly when
      every entry is a file; otherwise the first other entry stops it, with
      `copytree`'s error for that entry, after the files before it were
      copied. */
  lemma {:induction false} CopySourceOutcome(b: Builder, env: Env, existing: set<Path>, entries: seq<string>)
    requires OutputPath(b) in existing
    decreases |entries|
    ensures var (events, result) := CopySource(b, env, existing, entries);
      && (result.Success? <==> forall i :: 0 <= i < |entries| ==> env.isFile(Join(b.root, entries[i])))
      && (result.Success? ==> events == seq(|entries|, i requires 0 <= i < |entries| => CopyFile(Join(b.root, entries[i]), OutputPath(b))))
      && (result.Failure? ==> exists k :: FirstNonFile(b, env, entries, events, result, k))
  {
    if |entries| > 0 {
      CopySourceOutcome(b, env, existing, entries[1..]);
      var src := Join(b.root, entries[0]);
      var (events, result) := CopySource(b, env, existing, entries[1..]);
      if env.isFile(src) {
        if result.Failure? {
          var k :| FirstNonFile(b, env, entries[1..], events, result, k);
          assert FirstNonFile(b, env, entries, [CopyFile(src, OutputPath(b))] + events, result, k + 1);
        } else {
          var all := seq(|entries|, i requires 0 <= i < |entries| => CopyFile(Join(b.root, entries[i]), OutputPath(b)));
          assert all == [CopyFile(src, OutputPath(b))] + events;
        }
      } else {
        assert FirstNonFile(b, env, entries, [], Failure(CopyError(b, env, src)), 0);
      }
    }
  }

  // ---------------------------------------------------------------- _release

  /** The archive `make_archive(str(final), 'zip', ...)` writes. */
  function ArchivePath(b: Builder): Path
  {
    AddExtension(FinalPath(b), ".zip")
  }

  /** `p` is `dir` or lies below it, so `rmtree(dir)` removes it. */
  predicate Within(p: Path, dir: Path)
  {
    |dir| <= |p| && p[..|dir|] == dir
  }

  /** `_release(make_zip)` with the stale archive it unlinks as a parameter. */
  function ReleaseWith(b: Builder, existing: set<Path>, makeZip: bool, stale: Path): (r: (seq<Event>, set<Path>))
  {
    var final := FinalPath(b);
    var clear := if final in existing then [RemoveTree(final), Unlink(stale)] else [];
    var cleared := if final in existing then set p | p in existing && !Within(p, final) && p != stale else existing;
    var archive := if makeZip then [MakeArchive(final)] else [];
    (clear + [CopyTree(OutputPath(b), final)] + archive,
     cleared + Ancestors(final) + {final} + (if makeZip then {ArchivePath(b)} else {}))
  }

  /** `_release` as written: the stale archive is `final.with_suffix('.zip')`. */
  function ReleaseAsWritten(b: Builder, existing: set<Path>, makeZip: bool): (r: (seq<Event>, set<Path>))
  {
    ReleaseWith(b, existing, makeZip, WithSuffix(FinalPath(b), ".zip"))
  }

  /** `_release` unlinking the archive an earlier release of this build wrote. */
  function Release(b: Builder, existing: set<Path>, makeZip: bool): (r: (seq<Event>, set<Path>))
  {
    ReleaseWith(b, existing, makeZip, ArchivePath(b))
  }

  /** The release replaces the previous one: the old tree and its archive
      are removed before the output is copied over, the archive is written
      exactly when asked for, and no stale archive survives a release
      without one. */
  lemma ReleaseReplacesArchive(b: Builder, existing: set<Path>, makeZip: bool)
    ensures var (events, after) := Release(b, existing, makeZip);
      && FinalPath(b) in after
      && (ArchivePath(b) in after <==> makeZip || (ArchivePath(b) in existing && FinalPath(b) !in existing))
      && (FinalPath(b) in existing ==> events[..2] == [RemoveTree(FinalPath(b)), Unlink(ArchivePath(b))])
      && (MakeArchive(FinalPath(b)) in events <==> makeZip)
  {
    ArchiveNotFinal(b);
  }

  lemma ArchiveNotFinal(b: Builder)
    ensures ArchivePath(b) != FinalPath(b)
  {
    var final := FinalPath(b);
    assert |ArchivePath(b)[|final| - 1]| == |final[|final| - 1]| + 4;
  }

  /** `rmtree` of an existing release leaves nothing below it: whatever the
      old tree held is gone, whichever archive is unlinked. */
  lemma ReleaseRemovesTree(b: Builder, existing: set<Path>, makeZip: bool, stale: Path)
    requires FinalPath(b) in existing
    ensures var after := ReleaseWith(b, existing, makeZip, stale).1;
      forall p :: p in existing && Within(p, FinalPath(b)) && p != FinalPath(b) ==> p !in after
  {
    var final := FinalPath(b);
    forall p | p in existing && Within(p, final) && p != final
      ensures p !in ReleaseWith(b, existing, makeZip, stale).1
    {
      assert |p| > |final|;
    }
  }

  /** As written, the archive unlinked is the one this release writes only
      when the release directory's name has no suffix. */
  lemma ReleaseAsWrittenStale(b: Builder)
    ensures WithSuffix(FinalPath(b), ".zip") == ArchivePath(b) <==> Suffix(FinalPath(b)[|FinalPath(b)| - 1]) == ""
  {
    WithSuffixVersusExtension(FinalPath(b), ".zip");
  }

  /** Releasing version `1.0` of `app` over an earlier one unlinks
      `app-1.zip`, the archive of version `1`, and leaves `app-1.0.zip`. */
  lemma ReleaseAsWrittenCounterexample()
    ensures var b10 := Builder("app", ["C:", "proj"], [], Some("1.0"), [], None, "amd64", "3.11.4");
      var b1 := b10.(version := Some("1"));
      var existing := {FinalPath(b10), ArchivePath(b10), ArchivePath(b1)};
      var (events, after) := ReleaseAsWritten(b10, existing, false);
      && Unlink(ArchivePath(b1)) in events
      && ArchivePath(b1) !in after
      && ArchivePath(b10) in after
  {
    var b10 := Builder("app", ["C:", "proj"], [], Some("1.0"), [], None, "amd64", "3.11.4");
    var b1 := b10.(version := Some("1"));
    var dir := ["C:", "proj", "release"];
    VersionedPaths(b10, b1, dir);
    StemOfVersion();
    assert WithSuffix(FinalPath(b10), ".zip") == ArchivePath(b1);
    var final, stale, own := FinalPath(b10), ArchivePath(b1), ArchivePath(b10);
    assert |own[3]| != |stale[3]| && |own[3]| != |final[3]|;
    ReleaseUnlinksStale(b10, {final, own, stale}, stale, own);
  }

  /** Releasing over an existing release with `stale` as the archive to
      drop unlinks it and keeps every other existing path outside the tree. */
  lemma ReleaseUnlinksStale(b: Builder, existing: set<Path>, stale: Path, keep: Path)
    requires FinalPath(b) in existing && keep in existing
    requires !Within(keep, FinalPath(b)) && keep != stale && stale != FinalPath(b)
    requires |stale| == |FinalPath(b)|
    ensures var (events, after) := ReleaseWith(b, existing, false, stale);
      && Unlink(stale) in events
      && stale !in after
      && keep in after
  {
    var final := FinalPath(b);
    var r := ReleaseWith(b, existing, false, stale);
    assert r.0[1] == Unlink(stale);
    assert stale !in Ancestors(final);
  }

  lemma VersionedPaths(b10: Builder, b1: Builder, dir: Path)
    requires b10 == Builder("app", ["C:", "proj"], [], Some("1.0"), [], None, "amd64", "3.11.4")
    requires b1 == b10.(version := Some("1")) && dir == ["C:", "proj", "release"]
    ensures FinalPath(b10) == dir + ["app-1.0"]
    ensures ArchivePath(b10) == dir + ["app-1.0" + ".zip"]
    ensures ArchivePath(b1) == dir + ["app-1" + ".zip"]
  {
    assert ReleaseDirName("app", Some("1.0")) == "app-1.0";
    assert ReleaseDirName("app", Some("1")) == "app-1";
  }

  lemma StemOfVersion()
    ensures Stem("app-1.0") == "app-1"
  {
    assert FindLast("app-1.0", '.', 7) == Some(5);
    assert Suffix("app-1.0") == ".0";
  }

  // ------------------------------------------------------------ make_bundle

  /** The stages of `make_bundle`, in the order it runs them. */
  datatype Stage =
    | DownloadPython | ExtractPython | InstallDependencies | CopySources
    | MakeEntrypointsStage | Compile | Clean | ReleaseStage

  function Rank(s: Stage): nat
  {
    match s
    case DownloadPython => 0
    case ExtractPython => 1
    case InstallDependencies => 2
    case CopySources => 3
    case MakeEntrypointsStage => 4
    case Compile => 5
    case Clean => 6
    case ReleaseStage => 7
  }

  /** One side effect and the stage that caused it. */
  datatype Step = Step(stage: Stage, event: Event)

  function Tag(stage: Stage, events: seq<Event>): (r: seq<Step>)
    ensures |r| == |events|
    ensures forall i :: 0 <= i < |events| ==> r[i] == Step(stage, events[i])
  {
    seq(|events|, i requires 0 <= i < |events| => Step(stage, events[i]))
  }

  /** The bundle options `make_bundle` takes. */
  datatype Options = Options(compile: bool, optimize: int, release: bool, makeZip: bool)

  /** The download and the command lines `make_bundle` derives from the
      builder: Python's URL and cached archive, pip's arguments,
      `compileall`'s, and the archive a release unlinks before replacing
      the release directory. */
  datatype Commands = Commands(pythonUrl: string, pythonArchive: Path, pip: seq<string>, compile: seq<string>, stale: Path)

  /** The commands as the source builds them: pip's version test as
      written, and the stale archive named with `with_suffix`. */
  function BundleCommands(b: Builder, host: Host, opts: Options): Commands
  {
    Commands(PythonUrl(b), CacheFile(b, PythonUrl(b)), PipArgsAsWritten(b, host), CompileArgs(b, opts.optimize),
             WithSuffix(FinalPath(b), ".zip"))
  }

  /** The commands with both findings corrected: pip compares with the
      host's Python version, and the release unlinks its own archive. */
  function IntendedCommands(b: Builder, host: Host, opts: Options): Commands
  {
    Commands(PythonUrl(b), CacheFile(b, PythonUrl(b)), PipArgs(b, host), CompileArgs(b, opts.optimize),
             ArchivePath(b))
  }

  /** The side effects of a run, the state it leaves, and whether it raised. */
  datatype Outcome = Outcome(trace: seq<Step>, state: State, result: Result<(), BuildError>)

  /** `_extract_python(path)`: skipped when the output directory exists;
      otherwise it is made, with the directories above it, and filled. */
  function ExtractPythonEvents(b: Builder, existing: set<Path>, archive: Path): (r: (seq<Event>, set<Path>))
    ensures r.0 == [] <==> OutputPath(b) in existing
    ensures r.0 != [] ==> r.0 == [ExtractZip(archive, OutputPath(b))]
    ensures OutputPath(b) in r.1 && existing <= r.1
    ensures r.0 == [] ==> r.1 == existing
    ensures r.0 != [] ==> r.1 == existing + Ancestors(OutputPath(b)) + {OutputPath(b)}
  {
    if OutputPath(b) in existing then ([], existing)
    else ([ExtractZip(archive, OutputPath(b))], existing + Ancestors(OutputPath(b)) + {OutputPath(b)})
  }

  /** Compiling, cleaning and releasing, once the entry points are made. */
  function Finish(b: Builder, st: State, opts: Options, cmds: Commands): (r: (seq<Step>, State))
  {
    var release := if opts.release then ReleaseWith(b, st.existing, opts.makeZip, cmds.stale) else ([], st.existing);
    (FinishTrace(opts, cmds.compile, OutputPath(b), release.0), st.(existing := release.1))
  }

  /** `_compile` when asked for, `_clean_output(source_too=compile)` on
      `dir`, then the release's side effects. */
  function FinishTrace(opts: Options, compile: seq<string>, dir: Path, release: seq<Event>): seq<Step>
  {
    Tag(Compile, if opts.compile then [RunTool(compile)] else [])
      + Tag(Clean, [CleanOutput(dir, opts.compile)])
      + Tag(ReleaseStage, release)
  }

  /** Everything after extraction: install, copy, entry points, then
      `Finish`; an exception ends the run where it is raised. */
  function Later(b: Builder, env: Env, st: State, opts: Options, cmds: Commands): Outcome
  {
    var copy := CopySource(b, env, st.existing, b.files);
    var copied := Tag(InstallDependencies, [RunTool(cmds.pip)]) + Tag(CopySources, copy.0);
    if copy.1.Failure? then Outcome(copied, st, copy.1)
    else
      var made := MakeEntrypoints(b, env, st);
      var entry := copied + Tag(MakeEntrypointsStage, made.1);
      if made.0.Failure? then Outcome(entry, made.2, Failure(made.0.error))
      else
        var finish := Finish(b, made.2, opts, cmds);
        Outcome(entry + finish.0, finish.1, Success(()))
  }

  /** The stages of `make_bundle` with the commands given. */
  function RunStages(b: Builder, env: Env, st: State, opts: Options, cmds: Commands): Outcome
  {
    var download := FetchMissing(st.existing, cmds.pythonUrl, cmds.pythonArchive);
    var extract := ExtractPythonEvents(b, download.1, cmds.pythonArchive);
    var later := Later(b, env, st.(existing := extract.1), opts, cmds);
    Outcome(Tag(DownloadPython, download.0) + Tag(ExtractPython, extract.0) + later.trace, later.state, later.result)
  }

  /** `make_bundle(compile, optimize, release, make_zip)` as written. */
  function MakeBundle(b: Builder, host: Host, env: Env, st: State, opts: Options): Outcome
  {
    RunStages(b, env, st, opts, BundleCommands(b, host, opts))
  }

  /** `make_bundle` with the pip command and the release corrected. */
  function MakeBundleIntended(b: Builder, host: Host, env: Env, st: State, opts: Options): Outcome
  {
    RunStages(b, env, st, opts, IntendedCommands(b, host, opts))
  }

  // ------------------------------------------------------- make_bundle facts

  /** Stage ranks never decrease along a trace. */
  ghost predicate Ordered(trace: seq<Step>)
  {
    forall i, j :: 0 <= i < j < |trace| ==> Rank(trace[i].stage) <= Rank(trace[j].stage)
  }

  ghost predicate RanksWithin(trace: seq<Step>, lo: nat, hi: nat)
  {
    forall i :: 0 <= i < |trace| ==> lo <= Rank(trace[i].stage) <= hi
  }

  /** Some step of the trace belongs to the stage. */
  ghost predicate Ran(trace: seq<Step>, stage: Stage)
  {
    exists i :: 0 <= i < |trace| && trace[i].stage == stage
  }

  lemma OrderedAppend(x: seq<Step>, y: seq<Step>, lo: nat, mid: nat, hi: nat)
    requires lo <= mid <= hi
    requires Ordered(x) && Ordered(y) && RanksWithin(x, lo, mid) && RanksWithin(y, mid, hi)
    ensures Ordered(x + y) && RanksWithin(x + y, lo, hi)
  {
    forall i | 0 <= i < |x + y|
      ensures lo <= Rank((x + y)[i].stage) <= hi
    {
      if i >= |x| {
        assert (x + y)[i] == y[i - |x|];
      } else {
        assert (x + y)[i] == x[i];
      }
    }
    forall i, j | 0 <= i < j < |x + y|
      ensures Rank((x + y)[i].stage) <= Rank((x + y)[j].stage)
    {
      if i >= |x| {
        assert (x + y)[i] == y[i - |x|] && (x + y)[j] == y[j - |x|];
      } else if j >= |x| {
        assert (x + y)[i] == x[i] && (x + y)[j] == y[j - |x|];
      } else {
        assert (x + y)[i] == x[i] && (x + y)[j] == x[j];
      }
    }
  }

  lemma RanAppend(x: seq<Step>, y: seq<Step>, stage: Stage)
    ensures Ran(x + y, stage) <==> Ran(x, stage) || Ran(y, stage)
  {
    if Ran(x + y, stage) {
      var i :| 0 <= i < |x + y| && (x + y)[i].stage == stage;
      if i >= |x| {
        assert y[i - |x|] == (x + y)[i];
      }
    }
    if Ran(y, stage) {
      var i :| 0 <= i < |y| && y[i].stage == stage;
      assert (x + y)[|x| + i] == y[i];
    }
    if Ran(x, stage) {
      var i :| 0 <= i < |x| && x[i].stage == stage;
      assert (x + y)[i] == x[i];
    }
  }

  lemma RanTag(stage: Stage, events: seq<Event>, other: Stage)
    ensures Ordered(Tag(stage, events)) && RanksWithin(Tag(stage, events), Rank(stage), Rank(stage))
    ensures Ran(Tag(stage, events), other) <==> other == stage && |events| > 0
  {
    if other == stage && |events| > 0 {
      assert Tag(stage, events)[0].stage == stage;
    }
  }

  lemma NotRanOutside(trace: seq<Step>, lo: nat, hi: nat, stage: Stage)
    requires RanksWithin(trace, lo, hi) && (Rank(stage) < lo || hi < Rank(stage))
    ensures !Ran(trace, stage)
  {
  }

  lemma FinishOrdered(b: Builder, st: State, opts: Options, cmds: Commands)
    ensures Ordered(Finish(b, st, opts, cmds).0) && RanksWithin(Finish(b, st, opts, cmds).0, 5, 7)
  {
    var release := if opts.release then ReleaseWith(b, st.existing, opts.makeZip, cmds.stale) else ([], st.existing);
    FinishTraceOrdered(opts, cmds.compile, OutputPath(b), release.0);
  }

  lemma FinishTraceOrdered(opts: Options, compile: seq<string>, dir: Path, release: seq<Event>)
    ensures Ordered(FinishTrace(opts, compile, dir, release)) && RanksWithin(FinishTrace(opts, compile, dir, release), 5, 7)
  {
    var t0 := Tag(Compile, if opts.compile then [RunTool(compile)] else []);
    var t1 := Tag(Clean, [CleanOutput(dir, opts.compile)]);
    var t2 := Tag(ReleaseStage, release);
    RanTag(Compile, if opts.compile then [RunTool(compile)] else [], Compile);
    RanTag(Clean, [CleanOutput(dir, opts.compile)], Clean);
    RanTag(ReleaseStage, release, ReleaseStage);
    OrderedAppend(t0, t1, 5, 5, 6);
    OrderedAppend(t0 + t1, t2, 5, 6, 7);
  }

  lemma FinishTraceSwitches(opts: Options, compile: seq<string>, dir: Path, release: seq<Event>)
    requires opts.release <==> |release| > 0
    ensures Switches(FinishTrace(opts, compile, dir, release), true, dir, opts, compile)
  {
    var c := if opts.compile then [RunTool(compile)] else [];
    var t0 := Tag(Compile, c);
    var t1 := Tag(Clean, [CleanOutput(dir, opts.compile)]);
    var t2 := Tag(ReleaseStage, release);
    var t := t0 + t1 + t2;
    forall s | s in {Compile, Clean, ReleaseStage}
      ensures Ran(t, s) <==> Ran(t0, s) || Ran(t1, s) || Ran(t2, s)
    {
      RanAppend(t0 + t1, t2, s);
      RanAppend(t0, t1, s);
    }
    RanTag(Compile, c, Compile);
    RanTag(Compile, c, Clean);
    RanTag(Compile, c, ReleaseStage);
    RanTag(Clean, [CleanOutput(dir, opts.compile)], Compile);
    RanTag(Clean, [CleanOutput(dir, opts.compile)], Clean);
    RanTag(Clean, [CleanOutput(dir, opts.compile)], ReleaseStage);
    RanTag(ReleaseStage, release, Compile);
    RanTag(ReleaseStage, release, Clean);
    RanTag(ReleaseStage, release, ReleaseStage);
    assert t[|t0|] == t1[0];
    if opts.compile {
      assert t[0] == t0[0];
    }
  }

  /** After extraction the stages still run in order. */
  lemma LaterOrdered(b: Builder, env: Env, st: State, opts: Options, cmds: Commands)
    ensures var o := Later(b, env, st, opts, cmds);
      Ordered(o.trace) && RanksWithin(o.trace, 2, 7)
  {
    var copy := CopySource(b, env, st.existing, b.files);
    var t0, t1 := Tag(InstallDependencies, [RunTool(cmds.pip)]), Tag(CopySources, copy.0);
    RanTag(InstallDependencies, [RunTool(cmds.pip)], Compile);
    RanTag(CopySources, copy.0, Compile);
    OrderedAppend(t0, t1, 2, 2, 3);
    if copy.1.Success? {
      var made := MakeEntrypoints(b, env, st);
      RanTag(MakeEntrypointsStage, made.1, Compile);
      OrderedAppend(t0 + t1, Tag(MakeEntrypointsStage, made.1), 2, 3, 4);
      if made.0.Success? {
        FinishOrdered(b, made.2, opts, cmds);
        OrderedAppend(t0 + t1 + Tag(MakeEntrypointsStage, made.1), Finish(b, made.2, opts, cmds).0, 2, 4, 7);
      }
    }
  }

  /** The first source entry that is not a file, when copying stops there. */
  ghost predicate StopsAt(b: Builder, env: Env, k: int)
  {
    && 0 <= k < |b.files|
    && !env.isFile(Join(b.root, b.files[k]))
    && forall i :: 0 <= i < k ==> env.isFile(Join(b.root, b.files[i]))
  }

  /** How the run ends: the first source entry that is not a file stops it
      with `copytree`'s error, and so does a builder without entry points. */
  lemma LaterResult(b: Builder, env: Env, st: State, opts: Options, cmds: Commands)
    requires OutputPath(b) in st.existing
    ensures var o := Later(b, env, st, opts, cmds);
      var allFiles := forall i :: 0 <= i < |b.files| ==> env.isFile(Join(b.root, b.files[i]));
      && (o.result.Success? <==> allFiles && b.entrypoints.Some?)
      && (allFiles && b.entrypoints.None? ==> o.result == Failure(NoEntrypoints))
      && (!allFiles ==> exists k :: StopsAt(b, env, k) && o.result == Failure(CopyError(b, env, Join(b.root, b.files[k]))))
  {
    var copy := CopySource(b, env, st.existing, b.files);
    CopySourceOutcome(b, env, st.existing, b.files);
    if copy.1.Failure? {
      var k :| FirstNonFile(b, env, b.files, copy.0, copy.1, k);
      assert StopsAt(b, env, k);
    }
  }

  /** Nothing under `build` that existed is gone after the run. */
  lemma LaterKeeps(b: Builder, env: Env, st: State, opts: Options, cmds: Commands, p: Path)
    requires !UnderBuild(b, cmds.stale)
    requires p in st.existing && |p| > |b.root| && p[|b.root|] == "build"
    ensures p in Later(b, env, st, opts, cmds).state.existing
  {
    var copy := CopySource(b, env, st.existing, b.files);
    if copy.1.Success? {
      var made := MakeEntrypoints(b, env, st);
      if made.0.Success? {
        FinishKeeps(b, made.2, opts, cmds);
      }
    }
  }

  /** Compilation ran exactly when asked for and the run succeeded, with
      `compile` as its command line; cleaning exactly when it succeeded,
      removing sources exactly when they were compiled; release exactly
      when asked for and the run succeeded. */
  ghost predicate Switches(trace: seq<Step>, ok: bool, dir: Path, opts: Options, compile: seq<string>)
  {
    && (Ran(trace, Compile) <==> opts.compile && ok)
    && (Ran(trace, Clean) <==> ok)
    && (Ran(trace, ReleaseStage) <==> opts.release && ok)
    && (ok ==> Step(Clean, CleanOutput(dir, opts.compile)) in trace)
    && (ok && opts.compile ==> Step(Compile, RunTool(compile)) in trace)
  }

  /** A run that stopped before compiling ran none of the last stages. */
  lemma FailedSwitches(trace: seq<Step>, dir: Path, opts: Options, compile: seq<string>)
    requires RanksWithin(trace, 0, 4)
    ensures Switches(trace, false, dir, opts, compile)
  {
    NotRanOutside(trace, 0, 4, Compile);
    NotRanOutside(trace, 0, 4, Clean);
    NotRanOutside(trace, 0, 4, ReleaseStage);
  }

  /** Steps of earlier stages in front of a trace change none of this. */
  lemma PrefixSwitches(head: seq<Step>, t: seq<Step>, ok: bool, dir: Path, opts: Options, compile: seq<string>)
    requires RanksWithin(head, 0, 4) && Switches(t, ok, dir, opts, compile)
    ensures Switches(head + t, ok, dir, opts, compile)
  {
    FailedSwitches(head, dir, opts, compile);
    RanAppend(head, t, Compile);
    RanAppend(head, t, Clean);
    RanAppend(head, t, ReleaseStage);
  }

  lemma FinishSwitches(b: Builder, st: State, opts: Options, cmds: Commands)
    ensures Switches(Finish(b, st, opts, cmds).0, true, OutputPath(b), opts, cmds.compile)
  {
    var release := if opts.release then ReleaseWith(b, st.existing, opts.makeZip, cmds.stale) else ([], st.existing);
    assert opts.release ==> |release.0| > 0;
    FinishTraceSwitches(opts, cmds.compile, OutputPath(b), release.0);
  }

  /** Which of compile, clean and release ran after extraction. */
  lemma LaterSwitches(b: Builder, env: Env, st: State, opts: Options, cmds: Commands)
    ensures var o := Later(b, env, st, opts, cmds);
      Switches(o.trace, o.result.Success?, OutputPath(b), opts, cmds.compile)
  {
    var copy := CopySource(b, env, st.existing, b.files);
    var t0, t1 := Tag(InstallDependencies, [RunTool(cmds.pip)]), Tag(CopySources, copy.0);
    RanTag(InstallDependencies, [RunTool(cmds.pip)], Compile);
    RanTag(CopySources, copy.0, Compile);
    OrderedAppend(t0, t1, 2, 2, 3);
    if copy.1.Success? {
      var made := MakeEntrypoints(b, env, st);
      var entry := t0 + t1 + Tag(MakeEntrypointsStage, made.1);
      RanTag(MakeEntrypointsStage, made.1, Compile);
      OrderedAppend(t0 + t1, Tag(MakeEntrypointsStage, made.1), 2, 3, 4);
      if made.0.Success? {
        FinishSwitches(b, made.2, opts, cmds);
        PrefixSwitches(entry, Finish(b, made.2, opts, cmds).0, true, OutputPath(b), opts, cmds.compile);
      } else {
        FailedSwitches(entry, OutputPath(b), opts, cmds.compile);
      }
    } else {
      FailedSwitches(t0 + t1, OutputPath(b), opts, cmds.compile);
    }
  }

  /** Releasing touches only the release directory and its archive, both
      under `release`; nothing under `build` is removed. */
  lemma FinishKeeps(b: Builder, st: State, opts: Options, cmds: Commands)
    requires !UnderBuild(b, cmds.stale)
    ensures var after := Finish(b, st, opts, cmds).1.existing;
      forall p :: p in st.existing && |p| > |b.root| && p[|b.root|] == "build" ==> p in after
  {
    ReleaseUnder(b);
    var final := FinalPath(b);
    if opts.release {
      var after := ReleaseWith(b, st.existing, opts.makeZip, cmds.stale).1;
      forall p | p in st.existing && |p| > |b.root| && p[|b.root|] == "build"
        ensures p in after
      {
        assert p[|b.root|] != final[|b.root|];
      }
    }
  }

  /** `p` lies under the project's `build` directory. */
  predicate UnderBuild(b: Builder, p: Path)
  {
    |p| > |b.root| && p[|b.root|] == "build"
  }

  lemma ReleaseUnder(b: Builder)
    ensures |FinalPath(b)| > |b.root| && FinalPath(b)[|b.root|] != "build"
    ensures !UnderBuild(b, ArchivePath(b)) && !UnderBuild(b, WithSuffix(FinalPath(b), ".zip"))
  {
    var r := Join(b.root, "release");
    assert r[|b.root|] == "release";
    assert FinalPath(b)[|b.root|] == "release" || FinalPath(b) == r;
    assert ArchivePath(b)[|b.root|] == "release" || ArchivePath(b)[|b.root|] == "release.zip";
    var w := WithSuffix(FinalPath(b), ".zip");
    assert w[|b.root|] == "release" || w[|b.root|] == Stem("release") + ".zip";
  }

  /** The stages run in the order download, extract, install, copy, entry
      points, compile, clean, release. */
  lemma BundleOrdered(b: Builder, host: Host, env: Env, st: State, opts: Options)
    ensures Ordered(MakeBundle(b, host, env, st, opts).trace)
  {
    StagesOrdered(b, env, st, opts, BundleCommands(b, host, opts));
  }

  lemma StagesOrdered(b: Builder, env: Env, st: State, opts: Options, cmds: Commands)
    ensures Ordered(RunStages(b, env, st, opts, cmds).trace)
  {
    var download := FetchMissing(st.existing, cmds.pythonUrl, cmds.pythonArchive);
    var extract := ExtractPythonEvents(b, download.1, cmds.pythonArchive);
    var later := Later(b, env, st.(existing := extract.1), opts, cmds);
    LaterOrdered(b, env, st.(existing := extract.1), opts, cmds);
    RanTag(DownloadPython, download.0, Compile);
    RanTag(ExtractPython, extract.0, Compile);
    OrderedAppend(Tag(DownloadPython, download.0), Tag(ExtractPython, extract.0), 0, 0, 1);
    OrderedAppend(Tag(DownloadPython, download.0) + Tag(ExtractPython, extract.0), later.trace, 0, 1, 7);
  }

  /** Whether the run fails, and with which error: the first source entry
      that is not a file stops it, with the error `copytree` raises for it,
      and so does a builder without entry points. */
  lemma BundleOutcome(b: Builder, host: Host, env: Env, st: State, opts: Options)
    ensures var o := MakeBundle(b, host, env, st, opts);
      var allFiles := forall i :: 0 <= i < |b.files| ==> env.isFile(Join(b.root, b.files[i]));
      && (o.result.Success? <==> allFiles && b.entrypoints.Some?)
      && (allFiles && b.entrypoints.None? ==> o.result == Failure(NoEntrypoints))
      && (!allFiles ==> exists k :: StopsAt(b, env, k) && o.result == Failure(CopyError(b, env, Join(b.root, b.files[k]))))
  {
    var cmds := BundleCommands(b, host, opts);
    var download := FetchMissing(st.existing, cmds.pythonUrl, cmds.pythonArchive);
    var extract := ExtractPythonEvents(b, download.1, cmds.pythonArchive);
    LaterResult(b, env, st.(existing := extract.1), opts, cmds);
  }

  /** Compilation and release run exactly when asked for and the run gets
      that far; cleaning follows every successful run, removing sources
      exactly when they were compiled, with the optimisation level clamped. */
  lemma BundleSwitches(b: Builder, host: Host, env: Env, st: State, opts: Options)
    ensures var o := MakeBundle(b, host, env, st, opts);
      Switches(o.trace, o.result.Success?, OutputPath(b), opts, CompileArgs(b, opts.optimize))
  {
    StagesSwitches(b, env, st, opts, BundleCommands(b, host, opts));
  }

  lemma StagesSwitches(b: Builder, env: Env, st: State, opts: Options, cmds: Commands)
    ensures var o := RunStages(b, env, st, opts, cmds);
      Switches(o.trace, o.result.Success?, OutputPath(b), opts, cmds.compile)
  {
    var download := FetchMissing(st.existing, cmds.pythonUrl, cmds.pythonArchive);
    var extract := ExtractPythonEvents(b, download.1, cmds.pythonArchive);
    var later := Later(b, env, st.(existing := extract.1), opts, cmds);
    LaterSwitches(b, env, st.(existing := extract.1), opts, cmds);
    RanTag(DownloadPython, download.0, Compile);
    RanTag(ExtractPython, extract.0, Compile);
    OrderedAppend(Tag(DownloadPython, download.0), Tag(ExtractPython, extract.0), 0, 0, 1);
    PrefixSwitches(Tag(DownloadPython, download.0) + Tag(ExtractPython, extract.0), later.trace,
                   later.result.Success?, OutputPath(b), opts, cmds.compile);
  }

  /** The Python archive is fetched exactly when it is not in the cache.
      It is extracted, into the output directory, exactly when that
      directory is missing, unless the project is named `cache` or has an
      empty name: then the output directory is the cache directory or the
      build directory, which the download has made or which already held
      the cached archive. */
  lemma BundleExtract(b: Builder, host: Host, env: Env, st: State, opts: Options)
    requires PlainUrlText(b.pyVersion) && PlainUrlText(b.machine)
    requires ParentsExist(st.existing)
    ensures var o := MakeBundle(b, host, env, st, opts);
      var archive := CachePath(b) + [PythonArchiveName(b)];
      var extracts := OutputPath(b) !in st.existing && b.name != "cache" && b.name != "";
      && (Ran(o.trace, DownloadPython) <==> archive !in st.existing)
      && (Ran(o.trace, ExtractPython) <==> extracts)
      && (extracts ==> Step(ExtractPython, ExtractZip(archive, OutputPath(b))) in o.trace)
  {
    var cmds := BundleCommands(b, host, opts);
    PythonCacheFile(b);
    assert cmds.pythonArchive == CachePath(b) + [PythonArchiveName(b)];
    StagesExtractCached(b, env, st, opts, cmds, PythonArchiveName(b));
  }

  /** `StagesExtract` for an archive kept in the cache directory, with the
      existing paths closed under parents. */
  lemma StagesExtractCached(b: Builder, env: Env, st: State, opts: Options, cmds: Commands, file: string)
    requires cmds.pythonArchive == CachePath(b) + [file]
    requires ParentsExist(st.existing)
    ensures var o := RunStages(b, env, st, opts, cmds);
      var extracts := OutputPath(b) !in st.existing && b.name != "cache" && b.name != "";
      && (Ran(o.trace, DownloadPython) <==> cmds.pythonArchive !in st.existing)
      && (Ran(o.trace, ExtractPython) <==> extracts)
      && (extracts ==> Step(ExtractPython, ExtractZip(cmds.pythonArchive, OutputPath(b))) in o.trace)
  {
    CachedFetchMakesOutput(b, st.existing, cmds.pythonUrl, file);
    StagesExtract(b, env, st, opts, cmds);
  }

  /** Fetching a cache file leaves the output directory missing exactly when
      it was missing and is not one of the directories the fetch makes. */
  lemma CachedFetchMakesOutput(b: Builder, existing: set<Path>, url: string, file: string)
    requires ParentsExist(existing)
    ensures var archive := CachePath(b) + [file];
      && archive != OutputPath(b)
      && (OutputPath(b) !in FetchMissing(existing, url, archive).1 <==>
            OutputPath(b) !in existing && b.name != "cache" && b.name != "")
  {
    var archive := CachePath(b) + [file];
    assert |archive| != |OutputPath(b)|;
    OutputAboveArchive(b, file);
    if archive in existing && (b.name == "cache" || b.name == "") {
      assert OutputPath(b) == archive[..|OutputPath(b)|];
    }
  }

  /** The output directory is one of the directories above a cached file
      exactly when the project is named `cache` or has an empty name. */
  lemma OutputAboveArchive(b: Builder, file: string)
    ensures OutputPath(b) in Ancestors(CachePath(b) + [file]) <==> b.name == "cache" || b.name == ""
  {
    var p := CachePath(b) + [file];
    OutputIsCacheOnlyForCache(b);
    if b.name == "cache" {
      assert CachePath(b) == p[..|CachePath(b)|];
    } else if b.name == "" {
      assert OutputPath(b) == p[..|OutputPath(b)|];
    }
    if OutputPath(b) in Ancestors(p) && b.name != "" {
      assert OutputPath(b)[|b.root| + 1] == p[|b.root| + 1];
    }
  }

  /** Downloading runs exactly when the archive is missing; extraction
      exactly when the output directory is missing once the download has
      made its directories. */
  lemma StagesExtract(b: Builder, env: Env, st: State, opts: Options, cmds: Commands)
    requires cmds.pythonArchive != OutputPath(b)
    ensures var o := RunStages(b, env, st, opts, cmds);
      var fetched := FetchMissing(st.existing, cmds.pythonUrl, cmds.pythonArchive).1;
      && (Ran(o.trace, DownloadPython) <==> cmds.pythonArchive !in st.existing)
      && (Ran(o.trace, ExtractPython) <==> OutputPath(b) !in fetched)
      && (OutputPath(b) !in fetched ==>
            Step(ExtractPython, ExtractZip(cmds.pythonArchive, OutputPath(b))) in o.trace)
  {
    var download := FetchMissing(st.existing, cmds.pythonUrl, cmds.pythonArchive);
    var extract := ExtractPythonEvents(b, download.1, cmds.pythonArchive);
    var st1 := st.(existing := extract.1);
    LaterOrdered(b, env, st1, opts, cmds);
    FrontRan(download.0, extract.0, Later(b, env, st1, opts, cmds).trace);
  }

  /** In a trace that starts with the download steps, then the extraction
      steps, then later stages only, each of the first two stages ran
      exactly when it had events, and the extraction's first event is in
      the trace. */
  lemma FrontRan(fetch: seq<Event>, unpack: seq<Event>, rest: seq<Step>)
    requires RanksWithin(rest, 2, 7)
    ensures var trace := Tag(DownloadPython, fetch) + Tag(ExtractPython, unpack) + rest;
      && (Ran(trace, DownloadPython) <==> |fetch| > 0)
      && (Ran(trace, ExtractPython) <==> |unpack| > 0)
      && (|unpack| > 0 ==> Step(ExtractPython, unpack[0]) in trace)
  {
    var t0, t1 := Tag(DownloadPython, fetch), Tag(ExtractPython, unpack);
    RanTag(DownloadPython, fetch, DownloadPython);
    RanTag(DownloadPython, fetch, ExtractPython);
    RanTag(ExtractPython, unpack, ExtractPython);
    RanTag(ExtractPython, unpack, DownloadPython);
    NotRanOutside(rest, 2, 7, DownloadPython);
    NotRanOutside(rest, 2, 7, ExtractPython);
    RanAppend(t0 + t1, rest, DownloadPython);
    RanAppend(t0 + t1, rest, ExtractPython);
    RanAppend(t0, t1, DownloadPython);
    RanAppend(t0, t1, ExtractPython);
    if |unpack| > 0 {
      assert (t0 + t1 + rest)[|t0|] == t1[0];
    }
  }

  /** Every run installs the dependencies with its pip command, right after
      the Python stages. */
  lemma StagesInstall(b: Builder, env: Env, st: State, opts: Options, cmds: Commands)
    ensures var o := RunStages(b, env, st, opts, cmds);
      var front := |FetchMissing(st.existing, cmds.pythonUrl, cmds.pythonArchive).0|
        + |ExtractPythonEvents(b, FetchMissing(st.existing, cmds.pythonUrl, cmds.pythonArchive).1, cmds.pythonArchive).0|;
      front < |o.trace| && o.trace[front] == Step(InstallDependencies, RunTool(cmds.pip))
  {
    var download := FetchMissing(st.existing, cmds.pythonUrl, cmds.pythonArchive);
    var extract := ExtractPythonEvents(b, download.1, cmds.pythonArchive);
    var later := Later(b, env, st.(existing := extract.1), opts, cmds);
    var front := Tag(DownloadPython, download.0) + Tag(ExtractPython, extract.0);
    LaterInstallsFirst(b, env, st.(existing := extract.1), opts, cmds);
    assert (front + later.trace)[|front|] == later.trace[0];
  }

  lemma LaterInstallsFirst(b: Builder, env: Env, st: State, opts: Options, cmds: Commands)
    ensures var t := Later(b, env, st, opts, cmds).trace;
      |t| > 0 && t[0] == Step(InstallDependencies, RunTool(cmds.pip))
  {
    var copy := CopySource(b, env, st.existing, b.files);
    var copied := Tag(InstallDependencies, [RunTool(cmds.pip)]) + Tag(CopySources, copy.0);
    assert copied[0] == Step(InstallDependencies, RunTool(cmds.pip));
    var made := MakeEntrypoints(b, env, st);
    var entry := copied + Tag(MakeEntrypointsStage, made.1);
    assert entry[0] == copied[0];
    if copy.1.Success? && made.0.Success? {
      var finish := Finish(b, made.2, opts, cmds);
      assert (entry + finish.0)[0] == entry[0];
    }
  }

  /** As written, `make_bundle` installs with the pip command as written;
      the corrected run installs with the corrected one. */
  lemma BundleInstall(b: Builder, host: Host, env: Env, st: State, opts: Options)
    ensures Step(InstallDependencies, RunTool(PipArgsAsWritten(b, host))) in MakeBundle(b, host, env, st, opts).trace
    ensures Step(InstallDependencies, RunTool(PipArgs(b, host))) in MakeBundleIntended(b, host, env, st, opts).trace
  {
    StagesInstall(b, env, st, opts, BundleCommands(b, host, opts));
    StagesInstall(b, env, st, opts, IntendedCommands(b, host, opts));
  }

  /** A second `make_bundle` with the state the first left behind neither
      downloads Python nor extracts it. */
  lemma BundleRerun(b: Builder, host: Host, env: Env, st: State, opts: Options)
    ensures var o := MakeBundle(b, host, env, st, opts);
      var again := MakeBundle(b, host, env, o.state, opts);
      !Ran(again.trace, DownloadPython) && !Ran(again.trace, ExtractPython)
  {
    var cmds := BundleCommands(b, host, opts);
    BuildPaths(b, PythonUrl(b));
    ReleaseUnder(b);
    StagesKeep(b, env, st, opts, cmds);
    StagesSkip(b, env, RunStages(b, env, st, opts, cmds).state, opts, cmds);
  }

  /** The cached archive and the output directory survive the run. */
  lemma StagesKeep(b: Builder, env: Env, st: State, opts: Options, cmds: Commands)
    requires |cmds.pythonArchive| > |b.root| && cmds.pythonArchive[|b.root|] == "build"
    requires !UnderBuild(b, cmds.stale)
    ensures var o := RunStages(b, env, st, opts, cmds);
      cmds.pythonArchive in o.state.existing && OutputPath(b) in o.state.existing
  {
    var download := FetchMissing(st.existing, cmds.pythonUrl, cmds.pythonArchive);
    var extract := ExtractPythonEvents(b, download.1, cmds.pythonArchive);
    var st1 := st.(existing := extract.1);
    LaterKeeps(b, env, st1, opts, cmds, cmds.pythonArchive);
    LaterKeeps(b, env, st1, opts, cmds, OutputPath(b));
  }

  /** The cache file and the output directory lie under `build`. */
  lemma BuildPaths(b: Builder, url: string)
    ensures var c := CacheFile(b, url);
      |c| > |b.root| && c[|b.root|] == "build"
    ensures |OutputPath(b)| > |b.root| && OutputPath(b)[|b.root|] == "build"
  {
  }

  /** With the archive cached and the output directory present, a run
      neither downloads nor extracts. */
  lemma StagesSkip(b: Builder, env: Env, st: State, opts: Options, cmds: Commands)
    requires cmds.pythonArchive in st.existing && OutputPath(b) in st.existing
    ensures var o := RunStages(b, env, st, opts, cmds);
      !Ran(o.trace, DownloadPython) && !Ran(o.trace, ExtractPython)
  {
    var download := FetchMissing(st.existing, cmds.pythonUrl, cmds.pythonArchive);
    var extract := ExtractPythonEvents(b, download.1, cmds.pythonArchive);
    var later := Later(b, env, st.(existing := extract.1), opts, cmds);
    LaterOrdered(b, env, st.(existing := extract.1), opts, cmds);
    assert Tag(DownloadPython, download.0) + Tag(ExtractPython, extract.0) + later.trace == later.trace;
    NotRanOutside(later.trace, 2, 7, DownloadPython);
    NotRanOutside(later.trace, 2, 7, ExtractPython);
  }

  // ------------------------------------------------- what each stage did

  /** The events of the steps a stage caused, in trace order. */
  function Events(trace: seq<Step>, stage: Stage): (r: seq<Event>)
    ensures |r| <= |trace|
  {
    if |trace| == 0 then []
    else (if trace[0].stage == stage then [trace[0].event] else []) + Events(trace[1..], stage)
  }

  lemma {:induction false} EventsAppend(x: seq<Step>, y: seq<Step>, s: Stage)
    decreases |x|
    ensures Events(x + y, s) == Events(x, s) + Events(y, s)
  {
    if |x| > 0 {
      assert (x + y)[1..] == x[1..] + y;
      EventsAppend(x[1..], y, s);
    } else {
      assert x + y == y;
    }
  }

  lemma {:induction false} EventsTag(stage: Stage, events: seq<Event>, s: Stage)
    decreases |events|
    ensures Events(Tag(stage, events), s) == if s == stage then events else []
  {
    if |events| > 0 {
      assert Tag(stage, events)[1..] == Tag(stage, events[1..]);
      EventsTag(stage, events[1..], s);
    }
  }

  /** Three tagged blocks and a tail: each block contributes its events
      to its own stage only. */
  lemma EventsOfBlocks(a: Stage, x: seq<Event>, c: Stage, y: seq<Event>, d: Stage, z: seq<Event>, tail: seq<Step>, s: Stage)
    ensures Events(Tag(a, x) + Tag(c, y) + Tag(d, z) + tail, s)
         == (if s == a then x else []) + (if s == c then y else []) + (if s == d then z else []) + Events(tail, s)
  {
    EventsTag(a, x, s);
    EventsTag(c, y, s);
    EventsTag(d, z, s);
    EventsAppend(Tag(a, x), Tag(c, y), s);
    EventsAppend(Tag(a, x) + Tag(c, y), Tag(d, z), s);
    EventsAppend(Tag(a, x) + Tag(c, y) + Tag(d, z), tail, s);
  }

  /** What each stage contributed to a run with the given commands: the
      download and extraction of Python, one pip run, the copies of the
      sources, and, as far as the run got, the entry points with their
      icons, compilation, cleaning and the release. */
  ghost predicate StageEvents(b: Builder, env: Env, st: State, opts: Options, cmds: Commands, trace: seq<Step>)
  {
    var download := FetchMissing(st.existing, cmds.pythonUrl, cmds.pythonArchive);
    var extract := ExtractPythonEvents(b, download.1, cmds.pythonArchive);
    var st1 := st.(existing := extract.1);
    && Events(trace, DownloadPython) == download.0
    && Events(trace, ExtractPython) == extract.0
    && LaterEvents(b, env, st1, opts, cmds, trace)
  }

  /** The stages after extraction, from the state extraction left. */
  ghost predicate LaterEvents(b: Builder, env: Env, st: State, opts: Options, cmds: Commands, trace: seq<Step>)
  {
    var copy := CopySource(b, env, st.existing, b.files);
    var made := MakeEntrypoints(b, env, st);
    var done := copy.1.Success? && made.0.Success?;
    && Events(trace, InstallDependencies) == [RunTool(cmds.pip)]
    && Events(trace, CopySources) == copy.0
    && Events(trace, MakeEntrypointsStage) == (if copy.1.Success? then made.1 else [])
    && Events(trace, Compile) == (if done && opts.compile then [RunTool(cmds.compile)] else [])
    && Events(trace, Clean) == (if done then [CleanOutput(OutputPath(b), opts.compile)] else [])
    && Events(trace, ReleaseStage) ==
         (if done && opts.release then ReleaseWith(b, made.2.existing, opts.makeZip, cmds.stale).0 else [])
  }

  lemma LaterStages(b: Builder, env: Env, st: State, opts: Options, cmds: Commands)
    ensures var o := Later(b, env, st, opts, cmds);
      && LaterEvents(b, env, st, opts, cmds, o.trace)
      && Events(o.trace, DownloadPython) == [] && Events(o.trace, ExtractPython) == []
  {
    var copy := CopySource(b, env, st.existing, b.files);
    var made := MakeEntrypoints(b, env, st);
    var done := copy.1.Success? && made.0.Success?;
    var m := if copy.1.Success? then made.1 else [];
    var c := if done && opts.compile then [RunTool(cmds.compile)] else [];
    var clean := if done then [CleanOutput(OutputPath(b), opts.compile)] else [];
    var rel := if done && opts.release then ReleaseWith(b, made.2.existing, opts.makeZip, cmds.stale).0 else [];
    var trace := Later(b, env, st, opts, cmds).trace;
    if done {
      assert Finish(b, made.2, opts, cmds).0 == Tag(Compile, c) + Tag(Clean, clean) + Tag(ReleaseStage, rel);
    }
    assert trace == Tag(InstallDependencies, [RunTool(cmds.pip)]) + Tag(CopySources, copy.0)
      + Tag(MakeEntrypointsStage, m) + (Tag(Compile, c) + Tag(Clean, clean) + Tag(ReleaseStage, rel));
    EventsOfLater([RunTool(cmds.pip)], copy.0, m, c, clean, rel, trace);
  }

  /** `Finish` compiles when asked for, always cleans (removing sources
      exactly when compiled) and releases when asked for, and nothing else. */
  lemma FinishStages(b: Builder, st: State, opts: Options, cmds: Commands)
    ensures var t := Finish(b, st, opts, cmds).0;
      && Events(t, Compile) == (if opts.compile then [RunTool(cmds.compile)] else [])
      && Events(t, Clean) == [CleanOutput(OutputPath(b), opts.compile)]
      && Events(t, ReleaseStage) ==
           (if opts.release then ReleaseWith(b, st.existing, opts.makeZip, cmds.stale).0 else [])
      && Events(t, DownloadPython) == [] && Events(t, ExtractPython) == []
      && Events(t, InstallDependencies) == [] && Events(t, CopySources) == []
      && Events(t, MakeEntrypointsStage) == []
  {
    var release := if opts.release then ReleaseWith(b, st.existing, opts.makeZip, cmds.stale) else ([], st.existing);
    EventsOfFinish(if opts.compile then [RunTool(cmds.compile)] else [], [CleanOutput(OutputPath(b), opts.compile)],
      release.0, Finish(b, st, opts, cmds).0);
  }

  /** The blocks of a run after extraction, each under its own stage. */
  lemma EventsOfLater(pip: seq<Event>, copy: seq<Event>, m: seq<Event>, c: seq<Event>, clean: seq<Event>, rel: seq<Event>, t: seq<Step>)
    requires t == Tag(InstallDependencies, pip) + Tag(CopySources, copy) + Tag(MakeEntrypointsStage, m)
      + (Tag(Compile, c) + Tag(Clean, clean) + Tag(ReleaseStage, rel))
    ensures Events(t, InstallDependencies) == pip && Events(t, CopySources) == copy
    ensures Events(t, MakeEntrypointsStage) == m && Events(t, Compile) == c
    ensures Events(t, Clean) == clean && Events(t, ReleaseStage) == rel
    ensures Events(t, DownloadPython) == [] && Events(t, ExtractPython) == []
  {
    var fin := Tag(Compile, c) + Tag(Clean, clean) + Tag(ReleaseStage, rel);
    EventsOfFinish(c, clean, rel, fin);
    EventsOfBlocks(InstallDependencies, pip, CopySources, copy, MakeEntrypointsStage, m, fin, InstallDependencies);
    EventsOfBlocks(InstallDependencies, pip, CopySources, copy, MakeEntrypointsStage, m, fin, CopySources);
    EventsOfBlocks(InstallDependencies, pip, CopySources, copy, MakeEntrypointsStage, m, fin, MakeEntrypointsStage);
    EventsOfBlocks(InstallDependencies, pip, CopySources, copy, MakeEntrypointsStage, m, fin, Compile);
    EventsOfBlocks(InstallDependencies, pip, CopySources, copy, MakeEntrypointsStage, m, fin, Clean);
    EventsOfBlocks(InstallDependencies, pip, CopySources, copy, MakeEntrypointsStage, m, fin, ReleaseStage);
    EventsOfBlocks(InstallDependencies, pip, CopySources, copy, MakeEntrypointsStage, m, fin, DownloadPython);
    EventsOfBlocks(InstallDependencies, pip, CopySources, copy, MakeEntrypointsStage, m, fin, ExtractPython);
  }

  /** The compile, clean and release blocks that end a run. */
  lemma EventsOfFinish(c: seq<Event>, clean: seq<Event>, rel: seq<Event>, t: seq<Step>)
    requires t == Tag(Compile, c) + Tag(Clean, clean) + Tag(ReleaseStage, rel)
    ensures Events(t, Compile) == c && Events(t, Clean) == clean && Events(t, ReleaseStage) == rel
    ensures Events(t, InstallDependencies) == [] && Events(t, CopySources) == []
    ensures Events(t, MakeEntrypointsStage) == []
    ensures Events(t, DownloadPython) == [] && Events(t, ExtractPython) == []
  {
    EventsOfFinishAt(c, clean, rel, t, Compile);
    EventsOfFinishAt(c, clean, rel, t, Clean);
    EventsOfFinishAt(c, clean, rel, t, ReleaseStage);
    EventsOfFinishAt(c, clean, rel, t, InstallDependencies);
    EventsOfFinishAt(c, clean, rel, t, CopySources);
    EventsOfFinishAt(c, clean, rel, t, MakeEntrypointsStage);
    EventsOfFinishAt(c, clean, rel, t, DownloadPython);
    EventsOfFinishAt(c, clean, rel, t, ExtractPython);
  }

  lemma EventsOfFinishAt(c: seq<Event>, clean: seq<Event>, rel: seq<Event>, t: seq<Step>, s: Stage)
    requires t == Tag(Compile, c) + Tag(Clean, clean) + Tag(ReleaseStage, rel)
    ensures Events(t, s) == if s == Compile then c else if s == Clean then clean else if s == ReleaseStage then rel else []
  {
    assert t == t + [];
    EventsOfBlocks(Compile, c, Clean, clean, ReleaseStage, rel, [], s);
  }

  /** Every run, whatever its commands, is made of its stages' events. */
  lemma StagesEvents(b: Builder, env: Env, st: State, opts: Options, cmds: Commands)
    ensures StageEvents(b, env, st, opts, cmds, RunStages(b, env, st, opts, cmds).trace)
  {
    var download := FetchMissing(st.existing, cmds.pythonUrl, cmds.pythonArchive);
    var extract := ExtractPythonEvents(b, download.1, cmds.pythonArchive);
    var st1 := st.(existing := extract.1);
    var later := Later(b, env, st1, opts, cmds).trace;
    LaterStages(b, env, st1, opts, cmds);
    var t := RunStages(b, env, st, opts, cmds).trace;
    assert t == Tag(DownloadPython, download.0) + Tag(ExtractPython, extract.0) + later;
    EventsOfPrefix(download.0, extract.0, later, t);
    LaterEventsAlike(b, env, st1, opts, cmds, later, t);
  }

  /** `LaterEvents` only looks at a trace through its stages' events. */
  lemma LaterEventsAlike(b: Builder, env: Env, st: State, opts: Options, cmds: Commands, t: seq<Step>, u: seq<Step>)
    requires LaterEvents(b, env, st, opts, cmds, t)
    requires forall s :: s != DownloadPython && s != ExtractPython ==> Events(u, s) == Events(t, s)
    ensures LaterEvents(b, env, st, opts, cmds, u)
  {
    assert Events(u, InstallDependencies) == Events(t, InstallDependencies);
    assert Events(u, CopySources) == Events(t, CopySources);
    assert Events(u, MakeEntrypointsStage) == Events(t, MakeEntrypointsStage);
    assert Events(u, Compile) == Events(t, Compile);
    assert Events(u, Clean) == Events(t, Clean);
    assert Events(u, ReleaseStage) == Events(t, ReleaseStage);
  }

  /** Python's download and extraction in front of the later stages. */
  lemma EventsOfPrefix(download: seq<Event>, extract: seq<Event>, later: seq<Step>, t: seq<Step>)
    requires t == Tag(DownloadPython, download) + Tag(ExtractPython, extract) + later
    requires Events(later, DownloadPython) == [] && Events(later, ExtractPython) == []
    ensures Events(t, DownloadPython) == download && Events(t, ExtractPython) == extract
    ensures forall s :: s != DownloadPython && s != ExtractPython ==> Events(t, s) == Events(later, s)
  {
    assert t == Tag(DownloadPython, download) + Tag(ExtractPython, extract) + Tag(InstallDependencies, []) + later;
    forall s | s != DownloadPython && s != ExtractPython
      ensures Events(t, s) == Events(later, s)
    {
      EventsOfBlocks(DownloadPython, download, ExtractPython, extract, InstallDependencies, [], later, s);
    }
    EventsOfBlocks(DownloadPython, download, ExtractPython, extract, InstallDependencies, [], later, DownloadPython);
    EventsOfBlocks(DownloadPython, download, ExtractPython, extract, InstallDependencies, [], later, ExtractPython);
  }

  /** `make_bundle` as written is made of its stages' events, with pip's
      command as written and the release unlinking the `with_suffix`
      archive; the corrected run differs in exactly those two commands. */
  lemma BundleStages(b: Builder, host: Host, env: Env, st: State, opts: Options)
    ensures var cmds := BundleCommands(b, host, opts);
      && StageEvents(b, env, st, opts, cmds, MakeBundle(b, host, env, st, opts).trace)
      && cmds.pip == PipArgsAsWritten(b, host)
      && cmds.stale == WithSuffix(FinalPath(b), ".zip")
      && cmds.compile == CompileArgs(b, opts.optimize)
    ensures var cmds := IntendedCommands(b, host, opts);
      && StageEvents(b, env, st, opts, cmds, MakeBundleIntended(b, host, env, st, opts).trace)
      && cmds.pip == PipArgs(b, host)
      && cmds.stale == ArchivePath(b)
      && cmds == BundleCommands(b, host, opts).(pip := PipArgs(b, host), stale := ArchivePath(b))
  {
    StagesEvents(b, env, st, opts, BundleCommands(b, host, opts));
    StagesEvents(b, env, st, opts, IntendedCommands(b, host, opts));
  }
}

=== FILE: icon.dfy ===
/** The Windows ICO container as `IconFile` reads it (ICONDIR header,
    ICONDIRENTRY directory, image blobs found by offset), and the
    RT_GROUP_ICON directory (GRPICONDIRENTRY records) built from it. */
module Icon {
  import opened Wrappers
  import opened LittleEndian

  const RT_ICON := 3
  const RT_GROUP_ICON := 14

  const HeaderSize := 6
  const EntrySize := 16
  const GroupEntrySize := 14

  /** ICONDIRHEADER: three signed 16-bit fields. */
  datatype IconDirHeader = IconDirHeader(reserved: int16, idType: int16, count: int16)

  /** ICONDIRENTRY: four signed bytes, two signed 16-bit and two signed
      32-bit fields; the last one is a byte offset into the icon file. */
  datatype IconDirEntry = IconDirEntry(
    width: int8, height: int8, colorCount: int8, reserved: int8,
    planes: int16, bitCount: int16, bytesInRes: int32, imageOffset: int32)

  /** GRPICONDIRENTRY: the same fields, but the trailing field is a signed
      16-bit resource id instead of a 32-bit file offset. */
  datatype GroupIconDirEntry = GroupIconDirEntry(
    width: int8, height: int8, colorCount: int8, reserved: int8,
    planes: int16, bitCount: int16, bytesInRes: int32, id: int16)

  /** A parsed icon file: the header, one entry per declared image, and the
      bytes read for each entry, index-aligned with the entries. */
  datatype IconFile = IconFile(header: IconDirHeader, entries: seq<IconDirEntry>, images: seq<seq<byte>>)

  datatype IconError =
    | Truncated            // a header or directory entry read came back short
    | NegativeSeek(offset: int)  // an entry's image offset is negative
    | NegativeRead(size: int)    // an entry's byte count is below -1
    | IdOutOfRange(id: int)      // a group record's id does not fit 16 bits

  // --------------------------------------------------------------- layouts

  /** Field widths in bytes: ICONDIRHEADER, the seven fields an ICONDIRENTRY
      shares with a GRPICONDIRENTRY, and the two full entry layouts. */
  const HeaderWidths: seq<nat> := [2, 2, 2]
  const CommonWidths: seq<nat> := [1, 1, 1, 1, 2, 2, 4]
  const EntryWidths: seq<nat> := CommonWidths + [4]
  const GroupEntryWidths: seq<nat> := CommonWidths + [2]

  lemma LayoutWidths()
    ensures Width(HeaderWidths) == HeaderSize
    ensures Width(CommonWidths) == 12
    ensures Width(EntryWidths) == EntrySize
    ensures Width(GroupEntryWidths) == GroupEntrySize
    ensures forall i :: 0 <= i < |HeaderWidths| ==> HeaderWidths[i] >= 1
    ensures forall i :: 0 <= i < |EntryWidths| ==> EntryWidths[i] >= 1
  {
    assert Width([2]) == 2 && Width([4]) == 4;
    assert Width([2, 2]) == 4;
    assert Width(HeaderWidths) == 2 + Width([2, 2]);
    assert Width([2, 4]) == 6;
    assert Width([2, 2, 4]) == 8;
    assert Width([1, 2, 2, 4]) == 9;
    assert Width([1, 1, 2, 2, 4]) == 10;
    assert Width([1, 1, 1, 2, 2, 4]) == 11;
    assert Width(CommonWidths) == 1 + Width([1, 1, 1, 2, 2, 4]);
    EncodeWidthAppend(CommonWidths, [4]);
    EncodeWidthAppend(CommonWidths, [2]);
  }

  lemma {:induction false} EncodeWidthAppend(ws1: seq<nat>, ws2: seq<nat>)
    ensures Width(ws1 + ws2) == Width(ws1) + Width(ws2)
  {
    if |ws1| > 0 {
      assert (ws1 + ws2)[1..] == ws1[1..] + ws2;
      EncodeWidthAppend(ws1[1..], ws2);
    } else {
      assert ws1 + ws2 == ws2;
    }
  }

  // ---------------------------------------------------------------- header

  function HeaderValues(h: IconDirHeader): (vs: seq<int>)
    ensures Fits(vs, HeaderWidths)
  {
    [h.reserved, h.idType, h.count]
  }

  function HeaderOf(vs: seq<int>): IconDirHeader
    requires Fits(vs, HeaderWidths)
  {
    assert FitsSigned(vs[0], 2) && FitsSigned(vs[1], 2) && FitsSigned(vs[2], 2);
    IconDirHeader(vs[0], vs[1], vs[2])
  }

  function EncodeHeader(h: IconDirHeader): (b: seq<byte>)
    ensures |b| == HeaderSize
  {
    LayoutWidths();
    EncodeFields(HeaderValues(h), HeaderWidths)
  }

  function DecodeHeader(b: seq<byte>): IconDirHeader
    requires |b| == HeaderSize
  {
    LayoutWidths();
    HeaderOf(DecodeFields(b, HeaderWidths))
  }

  /** The header layout is a bijection between headers and 6-byte strings. */
  lemma HeaderRoundTrip(h: IconDirHeader, b: seq<byte>)
    requires |b| == HeaderSize
    ensures DecodeHeader(EncodeHeader(h)) == h
    ensures EncodeHeader(DecodeHeader(b)) == b
  {
    LayoutWidths();
    DecodeEncodeFields(HeaderValues(h), HeaderWidths);
    var vs := DecodeFields(b, HeaderWidths);
    assert HeaderValues(HeaderOf(vs)) == vs;
    EncodeDecodeFields(b, HeaderWidths);
  }

  // ----------------------------------------------------------------- entry

  function CommonValues(e: IconDirEntry): (vs: seq<int>)
    ensures Fits(vs, CommonWidths)
  {
    [e.width, e.height, e.colorCount, e.reserved, e.planes, e.bitCount, e.bytesInRes]
  }

  function EntryValues(e: IconDirEntry): (vs: seq<int>)
    ensures Fits(vs, EntryWidths)
  {
    FitsAppend(CommonValues(e), CommonWidths, [e.imageOffset], [4]);
    CommonValues(e) + [e.imageOffset]
  }

  function EntryOf(vs: seq<int>): IconDirEntry
    requires Fits(vs, EntryWidths)
  {
    assert FitsSigned(vs[0], 1) && FitsSigned(vs[1], 1) && FitsSigned(vs[2], 1) && FitsSigned(vs[3], 1);
    assert FitsSigned(vs[4], 2) && FitsSigned(vs[5], 2) && FitsSigned(vs[6], 4) && FitsSigned(vs[7], 4);
    IconDirEntry(vs[0], vs[1], vs[2], vs[3], vs[4], vs[5], vs[6], vs[7])
  }

  function EncodeEntry(e: IconDirEntry): (b: seq<byte>)
    ensures |b| == EntrySize
  {
    LayoutWidths();
    EncodeFields(EntryValues(e), EntryWidths)
  }

  function DecodeEntry(b: seq<byte>): IconDirEntry
    requires |b| == EntrySize
  {
    LayoutWidths();
    EntryOf(DecodeFields(b, EntryWidths))
  }

  /** Decoding an encoded entry gives the entry back. */
  lemma EntryDecodeEncode(e: IconDirEntry)
    ensures DecodeEntry(EncodeEntry(e)) == e
  {
    LayoutWidths();
    DecodeEncodeFields(EntryValues(e), EntryWidths);
  }

  /** Re-encoding a decoded 16-byte record gives the same bytes. */
  lemma EntryEncodeDecode(b: seq<byte>)
    requires |b| == EntrySize
    ensures EncodeEntry(DecodeEntry(b)) == b
  {
    LayoutWidths();
    var vs := DecodeFields(b, EntryWidths);
    assert EntryValues(EntryOf(vs)) == vs;
    EncodeDecodeFields(b, EntryWidths);
  }

  /** A directory entry rewritten as a group record: every field is kept
      except the file offset, which is replaced by the resource id. */
  function ToGroupEntry(e: IconDirEntry, id: int16): (g: GroupIconDirEntry)
  {
    GroupIconDirEntry(e.width, e.height, e.colorCount, e.reserved, e.planes, e.bitCount, e.bytesInRes, id)
  }

  function GroupValues(g: GroupIconDirEntry): (vs: seq<int>)
    ensures Fits(vs, GroupEntryWidths)
  {
    var common := [g.width, g.height, g.colorCount, g.reserved, g.planes, g.bitCount, g.bytesInRes];
    assert Fits(common, CommonWidths);
    FitsAppend(common, CommonWidths, [g.id], [2]);
    common + [g.id]
  }

  function EncodeGroupEntry(g: GroupIconDirEntry): (b: seq<byte>)
    ensures |b| == GroupEntrySize
  {
    LayoutWidths();
    EncodeFields(GroupValues(g), GroupEntryWidths)
  }

  /** A group record is the first 12 bytes of the directory entry it came
      from, followed by the id as a signed 16-bit little-endian value. */
  lemma GroupEntryLayout(e: IconDirEntry, id: int16)
    ensures EncodeGroupEntry(ToGroupEntry(e, id)) == EncodeEntry(e)[..12] + EncodeInt16(id)
  {
    LayoutWidths();
    var common := CommonValues(e);
    EncodeFieldsAppend(common, CommonWidths, [e.imageOffset], [4]);
    EncodeFieldsAppend(common, CommonWidths, [id], [2]);
    assert GroupValues(ToGroupEntry(e, id)) == common + [id];
    assert EncodeFields([id], [2]) == EncodeSigned(id, 2) + EncodeFields([], []);
  }

  // --------------------------------------------------------------- parsing

  /** How many directory entries the reader consumes: `range(idCount)` is
      empty for a negative count. */
  function DirectoryCount(h: IconDirHeader): nat
  {
    if h.count < 0 then 0 else h.count as nat
  }

  /** Bytes `read(size)` returns after `seek(offset)` on a file holding
      `data`: cut short at end of file, and everything up to end of file
      for a size of -1. A buffered reader rejects any smaller size. */
  function ReadAt(data: seq<byte>, offset: nat, size: int): (r: seq<byte>)
    requires size >= -1
    ensures size >= 0 && offset + size <= |data| ==> r == data[offset..offset + size]
    ensures size >= 0 && offset <= |data| < offset + size ==> r == data[offset..]
    ensures size == -1 && offset <= |data| ==> r == data[offset..]
    ensures offset >= |data| ==> r == []
    ensures size >= 0 ==> |r| <= size
  {
    var start := if offset <= |data| then offset else |data|;
    var end := if size == -1 || start + size > |data| then |data| else start + size;
    data[start..end]
  }

  /** The seek and the read for an entry's image both accept its fields. */
  predicate Readable(e: IconDirEntry)
  {
    e.imageOffset >= 0 && e.bytesInRes >= -1
  }

  /** What reading an unreadable entry raises: the seek comes first. */
  function ReadError(e: IconDirEntry): IconError
  {
    if e.imageOffset < 0 then NegativeSeek(e.imageOffset) else NegativeRead(e.bytesInRes)
  }

  /** Directory entry i sits right after the header and the i entries before it. */
  function EntryStart(i: nat): nat
  {
    HeaderSize + 16 * i
  }

  /** The n entries stored back-to-back from `from` on. */
  function ParseEntries(data: seq<byte>, from: nat, n: nat): (r: seq<IconDirEntry>)
    requires from + 16 * n <= |data|
    ensures |r| == n
    ensures forall i :: 0 <= i < n ==>
      r[i] == DecodeEntry(data[from + 16 * i .. from + 16 * i + EntrySize])
  {
    seq(n, i requires 0 <= i < n => DecodeEntry(data[from + 16 * i .. from + 16 * i + EntrySize]))
  }

  /** The image blob of every entry, in entry order; the first entry whose
      seek or read raises stops the reading. */
  function ReadImages(data: seq<byte>, entries: seq<IconDirEntry>): (r: Result<seq<seq<byte>>, IconError>)
    decreases |entries|
    ensures r.Success? <==> forall i :: 0 <= i < |entries| ==> Readable(entries[i])
    ensures r.Success? ==> |r.value| == |entries|
    ensures r.Success? ==> forall i :: 0 <= i < |entries| ==>
      r.value[i] == ReadAt(data, entries[i].imageOffset as nat, entries[i].bytesInRes)
    ensures r.Failure? ==> exists i :: FirstUnreadable(entries, i) && r.error == ReadError(entries[i])
  {
    if |entries| == 0 then Success([])
    else
      var e := entries[0];
      if !Readable(e) then
        assert FirstUnreadable(entries, 0);
        Failure(ReadError(e))
      else
        match ReadImages(data, entries[1..])
        case Failure(err) =>
          FirstUnreadableShift(entries, err);
          Failure(err)
        case Success(rest) =>
          Success([ReadAt(data, e.imageOffset as nat, e.bytesInRes)] + rest)
  }

  lemma FirstUnreadableShift(entries: seq<IconDirEntry>, err: IconError)
    requires |entries| > 0 && Readable(entries[0])
    requires exists i :: FirstUnreadable(entries[1..], i) && err == ReadError(entries[1..][i])
    ensures exists i :: FirstUnreadable(entries, i) && err == ReadError(entries[i])
  {
    var i :| FirstUnreadable(entries[1..], i) && err == ReadError(entries[1..][i]);
    assert FirstUnreadable(entries, i + 1);
  }

  /** Entry i is the first one that cannot be read. */
  ghost predicate FirstUnreadable(entries: seq<IconDirEntry>, i: int)
  {
    0 <= i < |entries| && !Readable(entries[i]) && forall j :: 0 <= j < i ==> Readable(entries[j])
  }

  /** The header and directory of an icon file, before any image is read. */
  datatype Directory = Directory(header: IconDirHeader, entries: seq<IconDirEntry>)

  /** Reading the 6-byte header and then max(idCount, 0) 16-byte entries;
      a short read of either fails. */
  function ParseDirectory(data: seq<byte>): (r: Result<Directory, IconError>)
    ensures r.Failure? ==> r.error == Truncated
    ensures |data| < HeaderSize ==> r.Failure?
    ensures |data| >= HeaderSize ==>
      (r.Failure? <==> |data| < EntryStart(DirectoryCount(DecodeHeader(data[..HeaderSize]))))
    ensures r.Success? ==>
      && r.value.header == DecodeHeader(data[..HeaderSize])
      && |r.value.entries| == DirectoryCount(r.value.header)
      && EntryStart(|r.value.entries|) <= |data|
    ensures r.Success? ==> forall i {:trigger EntryStart(i)} :: 0 <= i < |r.value.entries| ==>
      r.value.entries[i] == DecodeEntry(data[EntryStart(i)..EntryStart(i) + EntrySize])
  {
    if |data| < HeaderSize then Failure(Truncated)
    else
      var header := DecodeHeader(data[..HeaderSize]);
      var n := DirectoryCount(header);
      if |data| < EntryStart(n) then Failure(Truncated)
      else Success(Directory(header, ParseEntries(data, HeaderSize, n)))
  }

  /** `IconFile(path)` on a file holding `data`: the directory, then one
      image per entry, read in entry order. */
  function Parse(data: seq<byte>): (r: Result<IconFile, IconError>)
    ensures ParseDirectory(data).Failure? ==> r == Failure(Truncated)
    ensures ParseDirectory(data).Success? ==>
      (r.Failure? <==> exists i :: 0 <= i < |ParseDirectory(data).value.entries| &&
                         !Readable(ParseDirectory(data).value.entries[i]))
    ensures ParseDirectory(data).Success? && r.Failure? ==>
      exists i :: FirstUnreadable(ParseDirectory(data).value.entries, i) &&
        r.error == ReadError(ParseDirectory(data).value.entries[i])
    ensures r.Success? ==>
      && ParseDirectory(data) == Success(Directory(r.value.header, r.value.entries))
      && |r.value.images| == |r.value.entries|
    ensures r.Success? ==> forall i :: 0 <= i < |r.value.images| ==>
      Readable(r.value.entries[i]) &&
      r.value.images[i] == ReadAt(data, r.value.entries[i].imageOffset as nat, r.value.entries[i].bytesInRes)
  {
    var dir :- ParseDirectory(data);
    var images :- ReadImages(data, dir.entries);
    Success(IconFile(dir.header, dir.entries, images))
  }

  // ----------------------------------------------------------- serialising

  /** `group_icon_header()`: the header rebuilt from its parsed fields. */
  function GroupIconHeader(f: IconFile): (b: seq<byte>)
    ensures |b| == HeaderSize
    ensures DecodeHeader(b) == f.header
  {
    HeaderRoundTrip(f.header, EncodeHeader(f.header));
    EncodeHeader(f.header)
  }

  /** The group records of `entries`, each carrying `id`, concatenated. */
  function GroupRecords(entries: seq<IconDirEntry>, id: int16): (b: seq<byte>)
    ensures |b| == 14 * |entries|
  {
    var blocks := seq(|entries|, i requires 0 <= i < |entries| => EncodeGroupEntry(ToGroupEntry(entries[i], id)));
    FlattenLength(blocks, 14);
    Flatten(blocks)
  }

  /** `group_icon_header_entires(id)`: building a record with an id outside
      16 bits raises, but only once there is a record to build. */
  function GroupIconEntries(f: IconFile, id: int): (r: Result<seq<byte>, IconError>)
    ensures r.Failure? <==> |f.entries| > 0 && !(-0x8000 <= id < 0x8000)
    ensures r.Success? ==> |r.value| == 14 * |f.entries|
  {
    if |f.entries| == 0 then Success([])
    else if -0x8000 <= id < 0x8000 then Success(GroupRecords(f.entries, id as int16))
    else Failure(IdOutOfRange(id))
  }

  /** The concatenated 16-byte encodings of a directory. */
  function EncodeEntries(entries: seq<IconDirEntry>): (b: seq<byte>)
    ensures |b| == 16 * |entries|
  {
    var blocks := seq(|entries|, i requires 0 <= i < |entries| => EncodeEntry(entries[i]));
    FlattenLength(blocks, 16);
    Flatten(blocks)
  }

  // ------------------------------------------------ fixed-size block strings

  /** The concatenation of a sequence of byte blocks. */
  function Flatten(blocks: seq<seq<byte>>): seq<byte>
  {
    if |blocks| == 0 then [] else blocks[0] + Flatten(blocks[1..])
  }

  ghost predicate Uniform(blocks: seq<seq<byte>>, k: nat)
  {
    forall j :: 0 <= j < |blocks| ==> |blocks[j]| == k
  }

  lemma {:induction false} FlattenLength(blocks: seq<seq<byte>>, k: nat)
    requires Uniform(blocks, k)
    ensures |Flatten(blocks)| == k * |blocks|
  {
    if |blocks| > 0 {
      FlattenLength(blocks[1..], k);
      assert k * |blocks| == k + k * (|blocks| - 1);
    }
  }

  /** Dropping i uniform blocks drops k * i bytes. */
  lemma {:induction false} FlattenDrop(blocks: seq<seq<byte>>, k: nat, i: nat)
    requires Uniform(blocks, k) && i <= |blocks|
    ensures k * i <= |Flatten(blocks)|
    ensures Flatten(blocks)[k * i..] == Flatten(blocks[i..])
    decreases i
  {
    if i > 0 {
      assert Flatten(blocks) == blocks[0] + Flatten(blocks[1..]);
      FlattenDrop(blocks[1..], k, i - 1);
      assert blocks[1..][i - 1..] == blocks[i..];
      assert k * i == k + k * (i - 1);
    }
  }

  /** Block i of a flattened uniform sequence sits at offset k * i. */
  lemma FlattenBlock(blocks: seq<seq<byte>>, k: nat, i: nat)
    requires Uniform(blocks, k) && i < |blocks|
    ensures k * i + k <= |Flatten(blocks)|
    ensures Flatten(blocks)[k * i .. k * i + k] == blocks[i]
  {
    FlattenDrop(blocks, k, i);
    var tail := blocks[i..];
    assert Flatten(tail) == blocks[i] + Flatten(tail[1..]);
    assert Flatten(blocks)[k * i .. k * i + k] == Flatten(tail)[..k];
  }

  /** A string made of |blocks| k-byte slices, slice i equal to block i, is
      the flattening of the blocks. */
  lemma {:induction false} FlattenUnique(s: seq<byte>, blocks: seq<seq<byte>>, k: nat)
    requires Uniform(blocks, k) && |s| == k * |blocks|
    requires forall i :: 0 <= i < |blocks| ==> k * i + k <= |s| && s[k * i .. k * i + k] == blocks[i]
    ensures s == Flatten(blocks)
  {
    if |blocks| > 0 {
      var rest := blocks[1..];
      assert k * |blocks| == k + k * (|blocks| - 1);
      forall i | 0 <= i < |rest|
        ensures k * i + k <= |s[k..]| && s[k..][k * i .. k * i + k] == rest[i]
      {
        assert k * (i + 1) == k * i + k;
        assert s[k * (i + 1) .. k * (i + 1) + k] == blocks[i + 1];
      }
      FlattenUnique(s[k..], rest, k);
      assert s[0 * k .. 0 * k + k] == blocks[0];
      assert s == s[..k] + s[k..];
    }
  }

  /** Parsing then re-serialising the header and directory reproduces the
      leading bytes of the file exactly. */
  lemma DirectoryRoundTrip(data: seq<byte>, dir: Directory)
    requires ParseDirectory(data) == Success(dir)
    ensures EncodeHeader(dir.header) + EncodeEntries(dir.entries) == data[..EntryStart(|dir.entries|)]
  {
    EntriesRoundTrip(data, HeaderSize, dir.entries);
    HeaderThenEntries(data, dir.header, dir.entries);
  }

  lemma HeaderThenEntries(data: seq<byte>, h: IconDirHeader, entries: seq<IconDirEntry>)
    requires EntryStart(|entries|) <= |data|
    requires h == DecodeHeader(data[..HeaderSize])
    requires EncodeEntries(entries) == data[HeaderSize..EntryStart(|entries|)]
    ensures EncodeHeader(h) + EncodeEntries(entries) == data[..EntryStart(|entries|)]
  {
    HeaderRoundTrip(h, data[..HeaderSize]);
    assert data[..EntryStart(|entries|)] == data[..HeaderSize] + data[HeaderSize..EntryStart(|entries|)];
  }

  lemma EntriesRoundTrip(data: seq<byte>, from: nat, entries: seq<IconDirEntry>)
    requires from + 16 * |entries| <= |data|
    requires forall i :: 0 <= i < |entries| ==>
      entries[i] == DecodeEntry(data[from + 16 * i .. from + 16 * i + EntrySize])
    ensures EncodeEntries(entries) == data[from..from + 16 * |entries|]
  {
    var blocks := seq(|entries|, i requires 0 <= i < |entries| => EncodeEntry(entries[i]));
    var s := data[from..from + 16 * |entries|];
    forall i | 0 <= i < |blocks|
      ensures 16 * i + 16 <= |s| && s[16 * i .. 16 * i + 16] == blocks[i]
    {
      EntryBlock(data, from, entries, i);
    }
    FlattenUnique(s, blocks, 16);
  }

  lemma EntryBlock(data: seq<byte>, from: nat, entries: seq<IconDirEntry>, i: nat)
    requires from + 16 * |entries| <= |data| && i < |entries|
    requires entries[i] == DecodeEntry(data[from + 16 * i .. from + 16 * i + EntrySize])
    ensures 16 * i + 16 <= 16 * |entries|
    ensures data[from..from + 16 * |entries|][16 * i .. 16 * i + 16] == EncodeEntry(entries[i])
  {
    var raw := data[from + 16 * i .. from + 16 * i + 16];
    EntryEncodeDecode(raw);
    SliceOfSlice(data, from, from + 16 * |entries|, 16 * i, 16 * i + 16);
  }

  /** Record i of the group directory is the first 12 bytes of directory
      entry i followed by the id; every record carries the same id. */
  lemma GroupRecordsLayout(entries: seq<IconDirEntry>, id: int16, i: nat)
    requires i < |entries|
    ensures GroupRecords(entries, id)[14 * i .. 14 * i + 12] == EncodeEntry(entries[i])[..12]
    ensures GroupRecords(entries, id)[14 * i + 12 .. 14 * (i + 1)] == EncodeInt16(id)
  {
    var blocks := seq(|entries|, i requires 0 <= i < |entries| => EncodeGroupEntry(ToGroupEntry(entries[i], id)));
    FlattenBlock(blocks, 14, i);
    GroupEntryLayout(entries[i], id);
    var rec := GroupRecords(entries, id)[14 * i .. 14 * i + 14];
    assert rec == blocks[i];
    assert GroupRecords(entries, id)[14 * i .. 14 * i + 12] == rec[..12];
    assert GroupRecords(entries, id)[14 * i + 12 .. 14 * (i + 1)] == rec[12..];
  }

  /** On a parsed file, group record i keeps bytes 0..12 of the file's
      directory entry i unchanged and replaces the 4-byte offset by the
      2-byte id. */
  lemma GroupEntriesPreserveDirectory(data: seq<byte>, f: IconFile, id: int16, i: nat)
    requires ParseDirectory(data) == Success(Directory(f.header, f.entries))
    requires i < |f.entries|
    ensures GroupIconEntries(f, id).Success?
    ensures GroupIconEntries(f, id).value[14 * i .. 14 * i + 12]
      == data[EntryStart(i) .. EntryStart(i) + 12]
    ensures GroupIconEntries(f, id).value[14 * i + 12 .. 14 * (i + 1)]
      == EncodeInt16(id)
  {
    DirectoryEntryBytes(data, Directory(f.header, f.entries), i);
    GroupRecordOfBytes(data, f, id, i);
  }

  /** Entry i of a parsed directory is the decoding of its 16 bytes. */
  lemma DirectoryEntryBytes(data: seq<byte>, dir: Directory, i: nat)
    requires ParseDirectory(data) == Success(dir)
    requires i < |dir.entries|
    ensures EntryStart(i) + EntrySize <= |data|
    ensures dir.entries[i] == DecodeEntry(data[EntryStart(i)..EntryStart(i) + EntrySize])
  {
  }

  /** The group record of an entry decoded from bytes starts with the
      first 12 of those bytes. */
  lemma GroupRecordOfBytes(data: seq<byte>, f: IconFile, id: int16, i: nat)
    requires i < |f.entries| && EntryStart(i) + EntrySize <= |data|
    requires f.entries[i] == DecodeEntry(data[EntryStart(i)..EntryStart(i) + EntrySize])
    ensures GroupIconEntries(f, id).Success?
    ensures GroupIconEntries(f, id).value[14 * i .. 14 * i + 12]
      == data[EntryStart(i) .. EntryStart(i) + 12]
    ensures GroupIconEntries(f, id).value[14 * i + 12 .. 14 * (i + 1)]
      == EncodeInt16(id)
  {
    var raw := data[EntryStart(i)..EntryStart(i) + EntrySize];
    EntryEncodeDecode(raw);
    GroupRecordsLayout(f.entries, id, i);
    assert raw[..12] == data[EntryStart(i) .. EntryStart(i) + 12];
    GroupIconEntriesValue(f, id);
  }

  lemma GroupIconEntriesValue(f: IconFile, id: int16)
    ensures GroupIconEntries(f, id) == Success(GroupRecords(f.entries, id))
  {
  }

  /** `group_icon_header()` of a parsed file is byte-identical to the
      file's first six bytes. */
  lemma GroupIconHeaderRoundTrip(data: seq<byte>, f: IconFile)
    requires Parse(data) == Success(f)
    ensures |data| >= HeaderSize
    ensures GroupIconHeader(f) == data[..HeaderSize]
  {
    ParsedDirectory(data, f);
    DirectoryHeaderBytes(data, Directory(f.header, f.entries));
  }

  lemma ParsedDirectory(data: seq<byte>, f: IconFile)
    requires Parse(data) == Success(f)
    ensures ParseDirectory(data) == Success(Directory(f.header, f.entries))
  {
  }

  lemma DirectoryHeaderBytes(data: seq<byte>, dir: Directory)
    requires ParseDirectory(data) == Success(dir)
    ensures |data| >= HeaderSize
    ensures EncodeHeader(dir.header) == data[..HeaderSize]
  {
    HeaderRoundTrip(dir.header, data[..HeaderSize]);
  }

  lemma SliceOfSlice(data: seq<byte>, a: nat, b: nat, lo: nat, hi: nat)
    requires a <= b <= |data| && lo <= hi <= b - a
    ensures data[a..b][lo..hi] == data[a + lo .. a + hi]
  {
    assert forall j :: 0 <= j < hi - lo ==> data[a..b][lo..hi][j] == data[a + lo + j];
  }
}

=== FILE: icon_resource.dfy ===
/** `apply_icon`: the resource-update session that embeds an icon file in
    an executable, as the sequence of Win32 resource calls it issues. */
module IconResource {
  import opened Wrappers
  import opened LittleEndian
  import opened Icon

  /** The Win32 resource-update calls, with the arguments the source passes. */
  datatype ResourceCall =
    | BeginUpdate(target: string, deleteExisting: bool)
    | UpdateResource(resType: int, name: int, data: seq<byte>)
    | EndUpdate(discard: bool)

  /** One RT_ICON update named 1 per image, in image order. */
  function ImageUpdates(images: seq<seq<byte>>): (r: seq<ResourceCall>)
    ensures |r| == |images|
    ensures forall i :: 0 <= i < |images| ==> r[i] == UpdateResource(RT_ICON, 1, images[i])
  {
    if |images| == 0 then []
    else [UpdateResource(RT_ICON, 1, images[0])] + ImageUpdates(images[1..])
  }

  /** `apply_icon(target, icon file)` on an icon file holding `icon`: the
      icon is parsed before the session opens, so a malformed icon issues
      no call at all. */
  function ApplyIcon(target: string, icon: seq<byte>): (r: Result<seq<ResourceCall>, IconError>)
    ensures r.Failure? <==> Parse(icon).Failure?
    ensures r.Failure? ==> r.error == Parse(icon).error
  {
    var f :- Parse(icon);
    // id 1 fits 16 bits, so building the group records cannot raise
    var payload := GroupIconHeader(f) + GroupIconEntries(f, 1).value;
    Success([BeginUpdate(target, false), UpdateResource(RT_GROUP_ICON, 0, payload)]
            + ImageUpdates(f.images) + [EndUpdate(false)])
  }

  /** How many calls in a trace update a resource of the given type. */
  function CountUpdates(trace: seq<ResourceCall>, resType: int): nat
  {
    if |trace| == 0 then 0
    else (if trace[0].UpdateResource? && trace[0].resType == resType then 1 else 0)
         + CountUpdates(trace[1..], resType)
  }

  lemma {:induction false} CountUpdatesAppend(a: seq<ResourceCall>, b: seq<ResourceCall>, resType: int)
    ensures CountUpdates(a + b, resType) == CountUpdates(a, resType) + CountUpdates(b, resType)
  {
    if |a| > 0 {
      assert (a + b)[1..] == a[1..] + b;
      CountUpdatesAppend(a[1..], b, resType);
    } else {
      assert a + b == b;
    }
  }

  lemma {:induction false} ImageUpdatesCount(images: seq<seq<byte>>)
    ensures CountUpdates(ImageUpdates(images), RT_GROUP_ICON) == 0
    ensures CountUpdates(ImageUpdates(images), RT_ICON) == |images|
  {
    if |images| > 0 {
      ImageUpdatesCount(images[1..]);
    }
  }

  /** The session for a well-formed icon: open, exactly one RT_GROUP_ICON
      update named 0 whose payload is the header followed by the group
      records with id 1, one RT_ICON update named 1 per image in image
      order, then commit. */
  lemma ApplyIconTrace(target: string, icon: seq<byte>, f: IconFile)
    requires Parse(icon) == Success(f)
    ensures ApplyIcon(target, icon).Success?
    ensures var t := ApplyIcon(target, icon).value;
      && |t| == |f.images| + 3
      && t[0] == BeginUpdate(target, false)
      && t[1] == UpdateResource(RT_GROUP_ICON, 0, GroupIconHeader(f) + GroupRecords(f.entries, 1))
      && (forall i :: 0 <= i < |f.images| ==> t[2 + i] == UpdateResource(RT_ICON, 1, f.images[i]))
      && t[|t| - 1] == EndUpdate(false)
      && CountUpdates(t, RT_GROUP_ICON) == 1
      && CountUpdates(t, RT_ICON) == |f.images|
  {
    GroupIconEntriesValue(f, 1);
    var head := [BeginUpdate(target, false), UpdateResource(RT_GROUP_ICON, 0, GroupIconHeader(f) + GroupRecords(f.entries, 1))];
    var images := ImageUpdates(f.images);
    var t := ApplyIcon(target, icon).value;
    assert t == head + images + [EndUpdate(false)];
    CountUpdatesAppend(head + images, [EndUpdate(false)], RT_GROUP_ICON);
    CountUpdatesAppend(head, images, RT_GROUP_ICON);
    CountUpdatesAppend(head + images, [EndUpdate(false)], RT_ICON);
    CountUpdatesAppend(head, images, RT_ICON);
    ImageUpdatesCount(f.images);
  }

  /** The RT_GROUP_ICON payload of a well-formed icon file: the file's own
      six header bytes, then one 14-byte record per image whose first 12
      bytes are those of the file's directory entry and whose last two
      encode id 1. */
  lemma GroupPayloadLayout(icon: seq<byte>, f: IconFile, i: nat)
    requires Parse(icon) == Success(f)
    requires i < |f.entries|
    ensures var payload := GroupIconHeader(f) + GroupRecords(f.entries, 1);
      && |payload| == HeaderSize + GroupEntrySize * |f.entries|
      && payload[..HeaderSize] == icon[..HeaderSize]
      && payload[HeaderSize + 14 * i .. HeaderSize + 14 * i + 12] == icon[EntryStart(i) .. EntryStart(i) + 12]
      && payload[HeaderSize + 14 * i + 12 .. HeaderSize + 14 * (i + 1)] == [1, 0]
  {
    ParsedDirectory(icon, f);
    DirectoryPayloadLayout(icon, f, i);
  }

  lemma DirectoryPayloadLayout(icon: seq<byte>, f: IconFile, i: nat)
    requires ParseDirectory(icon) == Success(Directory(f.header, f.entries))
    requires i < |f.entries|
    ensures var payload := GroupIconHeader(f) + GroupRecords(f.entries, 1);
      && |payload| == HeaderSize + GroupEntrySize * |f.entries|
      && payload[..HeaderSize] == icon[..HeaderSize]
      && payload[HeaderSize + 14 * i .. HeaderSize + 14 * i + 12] == icon[EntryStart(i) .. EntryStart(i) + 12]
      && payload[HeaderSize + 14 * i + 12 .. HeaderSize + 14 * (i + 1)] == [1, 0]
  {
    DirectoryHeaderBytes(icon, Directory(f.header, f.entries));
    GroupEntriesPreserveDirectory(icon, f, 1, i);
    GroupIconEntriesValue(f, 1);
    PayloadSlices(GroupIconHeader(f), GroupRecords(f.entries, 1), i);
    Int16One();
  }

  lemma Int16One()
    ensures EncodeInt16(1) == [1, 0]
  {
    assert EncodeInt16(1) == EncodeUnsigned(1, 2);
  }

  lemma PayloadSlices(header: seq<byte>, records: seq<byte>, i: nat)
    requires |header| == HeaderSize && 14 * (i + 1) <= |records|
    ensures (header + records)[..HeaderSize] == header
    ensures (header + records)[HeaderSize + 14 * i .. HeaderSize + 14 * i + 12] == records[14 * i .. 14 * i + 12]
    ensures (header + records)[HeaderSize + 14 * i + 12 .. HeaderSize + 14 * (i + 1)] == records[14 * i + 12 .. 14 * (i + 1)]
  {
  }
}

=== FILE: icon_spec.dfy ===
/** `split_icon`: an entry-point spec such as `"pkg.mod:run [icon=app.ico,gui]"`
    loses its `icon=` flag, and the icon path is returned beside what is
    left of the spec.

    The source splits the spec with the regular expression
    `\s*\[([^\]]+)\]`, splits the first captured group with `,\s*`,
    partitions every piece at its first `=`, and collects the pieces into
    a `dict`. Each of those steps is modelled on its own below, with a
    declarative description of what it computes. */
module IconSpec {
  import opened Wrappers
  import opened Text

  // ------------------------------------------------------------ characters

  /** Python's `\s` in a `str` pattern: the characters `str.isspace()`
      accepts (bidirectional class WS, B or S, or category Zs). */
  predicate IsSpace(c: char)
  {
    || c == ' ' || ('\t' <= c <= '\r') || ('\U{1c}' <= c <= '\U{1f}')
    || c == '\U{85}' || c == '\U{a0}' || c == '\U{1680}'
    || ('\U{2000}' <= c <= '\U{200a}') || c == '\U{2028}' || c == '\U{2029}'
    || c == '\U{202f}' || c == '\U{205f}' || c == '\U{3000}'
  }

  /** The first index at or after `i` that does not hold whitespace. */
  function SkipSpace(s: string, i: nat): (j: nat)
    requires i <= |s|
    ensures i <= j <= |s|
    ensures forall k :: i <= k < j ==> IsSpace(s[k])
    ensures j < |s| ==> !IsSpace(s[j])
    decreases |s| - i
  {
    if i < |s| && IsSpace(s[i]) then SkipSpace(s, i + 1) else i
  }

  // ----------------------------------------------------- the bracket group

  /** A match of `\s*\[([^\]]+)\]`: the whitespace run starts at `start`,
      the `[` is at `open` and the closing `]` at `close`. */
  datatype Match = Match(start: nat, open: nat, close: nat)

  /** The pattern matches `s[m.start..m.close + 1]`. Given the start, the
      rest is forced: `\s*` must stop right before a `[`, and `[^\]]+`
      must stop right before the first `]` after it. */
  predicate IsMatch(s: string, m: Match)
  {
    && m.start <= m.open && m.open + 1 < m.close < |s|
    && (forall k :: m.start <= k < m.open ==> IsSpace(s[k]))
    && s[m.open] == '['
    && (forall k :: m.open < k < m.close ==> s[k] != ']')
    && s[m.close] == ']'
  }

  /** The match `re.split` splits at first: no match starts further left. */
  ghost predicate IsFirstMatch(s: string, m: Match)
  {
    IsMatch(s, m) && forall m' :: IsMatch(s, m') ==> m.start <= m'.start
  }

  /** The text the group captures. */
  function Group(s: string, m: Match): string
    requires m.open < m.close <= |s|
  {
    s[m.open + 1..m.close]
  }

  /** Two matches that start at the same index are the same match. */
  lemma MatchDeterminedByStart(s: string, m1: Match, m2: Match)
    requires IsMatch(s, m1) && IsMatch(s, m2) && m1.start == m2.start
    ensures m1 == m2
  {
  }

  /** Trying the pattern at index `p`, as the regex engine does. */
  function MatchAt(s: string, p: nat): (r: Option<Match>)
    requires p <= |s|
    ensures r.Some? ==> IsMatch(s, r.value) && r.value.start == p
    ensures r.None? ==> forall m :: IsMatch(s, m) ==> m.start != p
  {
    var q := SkipSpace(s, p);
    if q < |s| && s[q] == '[' then
      match FindChar(s, ']', q + 1)
      case Some(k) =>
        if q + 1 < k then Some(Match(p, q, k))
        else
          NoMatchAt(s, p, q);
          None
      case None => NoMatchAt(s, p, q); None
    else
      NoMatchAt(s, p, q);
      None
  }

  /** Any match starting at `p` has its `[` where whitespace skipping from
      `p` stops and its `]` at the first `]` after that. */
  lemma NoMatchAt(s: string, p: nat, q: nat)
    requires p <= |s| && q == SkipSpace(s, p)
    ensures forall m :: IsMatch(s, m) && m.start == p ==>
      && m.open == q
      && FindChar(s, ']', q + 1) == Some(m.close)
  {
    forall m | IsMatch(s, m) && m.start == p
      ensures m.open == q && FindChar(s, ']', q + 1) == Some(m.close)
    {
    }
  }

  /** The leftmost match starting at or after `p`. */
  function FirstMatch(s: string, p: nat): (r: Option<Match>)
    requires p <= |s|
    ensures r.Some? ==> IsMatch(s, r.value) && p <= r.value.start
    ensures r.Some? ==> forall m :: IsMatch(s, m) && p <= m.start ==> r.value.start <= m.start
    ensures r.None? ==> forall m :: IsMatch(s, m) ==> m.start < p
    decreases |s| - p
  {
    if p == |s| then None
    else match MatchAt(s, p)
      case Some(m) => Some(m)
      case None => FirstMatch(s, p + 1)
  }

  /** `re.split` returns a single piece exactly when nothing matches, and
      otherwise splits at the leftmost match. */
  lemma FirstMatchIsFirst(s: string)
    ensures FirstMatch(s, 0).None? <==> forall m :: !IsMatch(s, m)
    ensures FirstMatch(s, 0).Some? ==> IsFirstMatch(s, FirstMatch(s, 0).value)
    ensures forall m :: IsFirstMatch(s, m) ==> FirstMatch(s, 0) == Some(m)
  {
    forall m | IsFirstMatch(s, m)
      ensures FirstMatch(s, 0) == Some(m)
    {
      var r := FirstMatch(s, 0);
      assert r.Some?;
      MatchDeterminedByStart(s, m, r.value);
    }
  }

  /** Text after the first match cannot move it: the same match is the
      first one of any extension of the string. */
  lemma FirstMatchExtend(s: string, t: string, m: Match)
    requires IsFirstMatch(s, m)
    ensures IsFirstMatch(s + t, m)
  {
    var u := s + t;
    assert IsMatch(u, m);
    forall m' | IsMatch(u, m')
      ensures m.start <= m'.start
    {
      if m'.start < m.start {
        MatchInsidePrefix(s, t, m, m');
        assert false;
      }
    }
  }

  lemma MatchInsidePrefix(s: string, t: string, m: Match, m': Match)
    requires IsMatch(s, m) && IsMatch(s + t, m') && m'.start < m.start
    ensures m'.close < |s|
    ensures IsMatch(s, m')
  {
    var u := s + t;
    assert forall k :: 0 <= k < |s| ==> u[k] == s[k];
  }

  // ----------------------------------------------------------- comma split

  /** `re.split(r",\s*", g)`: the pieces between commas, each piece after
      the first without the whitespace that follows its comma. */
  function SplitCommas(g: string): (r: seq<string>)
    ensures |r| >= 1
    ensures forall i :: 0 <= i < |r| ==> ',' !in r[i]
    ensures forall i :: 1 <= i < |r| ==> r[i] == [] || !IsSpace(r[i][0])
    ensures exists gaps :: AllSpace(gaps) && |gaps| + 1 == |r| && JoinGaps(r, gaps) == g
    decreases |g|
  {
    match FindChar(g, ',', 0)
    case None =>
      assert JoinGaps([g], []) == g;
      [g]
    case Some(c) =>
      var s := SkipSpace(g, c + 1);
      var rest := g[s..];
      assert rest == [] || !IsSpace(rest[0]);
      SplitStep(g, c, s, SplitCommas(rest));
      [g[..c]] + SplitCommas(rest)
  }

  /** The pieces, each but the first preceded by a comma and its gap. */
  function JoinGaps(pieces: seq<string>, gaps: seq<string>): string
    requires |gaps| + 1 == |pieces|
    decreases |gaps|
  {
    if |gaps| == 0 then pieces[0]
    else pieces[0] + "," + gaps[0] + JoinGaps(pieces[1..], gaps[1..])
  }

  /** Every gap is whitespace only. */
  ghost predicate AllSpace(gaps: seq<string>)
  {
    forall i, k :: 0 <= i < |gaps| && 0 <= k < |gaps[i]| ==> IsSpace(gaps[i][k])
  }

  lemma JoinGapsCons(head: string, gap: string, tail: seq<string>, gaps: seq<string>)
    requires |gaps| + 1 == |tail|
    ensures JoinGaps([head] + tail, [gap] + gaps) == head + "," + gap + JoinGaps(tail, gaps)
  {
    assert ([head] + tail)[1..] == tail;
    assert ([gap] + gaps)[1..] == gaps;
  }

  /** Splitting at the comma at `c`, whose gap runs to `s`, keeps the
      pieces joinable back into `g`. */
  lemma SplitStep(g: string, c: nat, s: nat, sub: seq<string>)
    requires c < s <= |g| && g[c] == ','
    requires forall k :: c + 1 <= k < s ==> IsSpace(g[k])
    requires exists gaps :: AllSpace(gaps) && |gaps| + 1 == |sub| && JoinGaps(sub, gaps) == g[s..]
    ensures exists gaps :: AllSpace(gaps) && |gaps| + 1 == |[g[..c]] + sub| && JoinGaps([g[..c]] + sub, gaps) == g
  {
    var gaps :| AllSpace(gaps) && |gaps| + 1 == |sub| && JoinGaps(sub, gaps) == g[s..];
    var gap := g[c + 1..s];
    JoinGapsCons(g[..c], gap, sub, gaps);
    assert g == g[..c] + "," + gap + g[s..];
    var all := [gap] + gaps;
    forall i, k | 0 <= i < |all| && 0 <= k < |all[i]|
      ensures IsSpace(all[i][k])
    {
      if i == 0 {
        assert all[i][k] == g[c + 1 + k];
      } else {
        assert all[i] == gaps[i - 1];
      }
    }
    assert JoinGaps([g[..c]] + sub, all) == g;
  }

  /** A joined list starts with its first piece, then a comma if more
      pieces follow. */
  lemma JoinGapsStart(pieces: seq<string>, gaps: seq<string>)
    requires |gaps| + 1 == |pieces|
    ensures var g := JoinGaps(pieces, gaps);
      && |pieces[0]| <= |g| && g[..|pieces[0]|] == pieces[0]
      && (|gaps| > 0 ==> |pieces[0]| < |g| && g[|pieces[0]|] == ',')
      && (|gaps| == 0 ==> g == pieces[0])
  {
  }

  /** The first occurrence of `ch` at or after `i`, found where it is. */
  lemma FindCharAt(s: string, ch: char, c: nat)
    requires c < |s| && s[c] == ch
    requires forall k :: 0 <= k < c ==> s[k] != ch
    ensures FindChar(s, ch, 0) == Some(c)
  {
  }

  /** Skipping whitespace from `from` stops right after a whitespace gap
      that is followed by the end or by a non-space. */
  lemma GapSkipped(g: string, from: nat, gap: string, tail: string)
    requires from <= |g| && g[from..] == gap + tail
    requires forall k :: 0 <= k < |gap| ==> IsSpace(gap[k])
    requires tail == [] || !IsSpace(tail[0])
    ensures SkipSpace(g, from) == from + |gap|
  {
    var e := from + |gap|;
    forall k | from <= k < e
      ensures IsSpace(g[k])
    {
      assert g[k] == g[from..][k - from] == gap[k - from];
    }
    if e < |g| {
      assert g[e] == g[from..][|gap|] == tail[0];
    }
  }

  /** Splitting undoes joining with whitespace gaps, for pieces a split can
      produce: `"a, b"` splits into `"a"` and `"b"`. */
  lemma {:induction false} SplitJoinGaps(pieces: seq<string>, gaps: seq<string>)
    requires |gaps| + 1 == |pieces| && AllSpace(gaps) && SplitShaped(pieces)
    ensures SplitCommas(JoinGaps(pieces, gaps)) == pieces
    decreases |gaps|
  {
    var g := JoinGaps(pieces, gaps);
    if |gaps| == 0 {
      assert FindChar(g, ',', 0) == None;
    } else {
      var c := |pieces[0]|;
      ShapedTails(pieces, gaps);
      HeadSplit(pieces, gaps);
      SplitJoinGaps(pieces[1..], gaps[1..]);
      SplitCommasAt(g, c);
      var rest := g[c + 1 + |gaps[0]|..];
      assert rest == JoinGaps(pieces[1..], gaps[1..]);
      assert SplitCommas(g) == [pieces[0]] + SplitCommas(rest);
      HeadTail(pieces);
    }
  }

  /** `re.split(r",\s*", "a, b")` gives `["a", "b"]`. */
  lemma SplitCommasSpaced()
    ensures SplitCommas("a, b") == ["a", "b"]
  {
    var pieces, gaps := ["a", "b"], [" "];
    assert JoinGaps(pieces, gaps) == "a, b";
    assert IsSpace(' ');
    SplitJoinGaps(pieces, gaps);
  }

  lemma HeadTail<T>(s: seq<T>)
    requires |s| > 0
    ensures [s[0]] + s[1..] == s
  {
  }

  /** What a split produces: no piece holds a comma and no piece after the
      first starts with whitespace. */
  ghost predicate SplitShaped(pieces: seq<string>)
  {
    && (forall i :: 0 <= i < |pieces| ==> ',' !in pieces[i])
    && (forall i :: 1 <= i < |pieces| ==> pieces[i] == [] || !IsSpace(pieces[i][0]))
  }

  lemma ShapedTails(pieces: seq<string>, gaps: seq<string>)
    requires |gaps| + 1 == |pieces| && |gaps| > 0 && AllSpace(gaps) && SplitShaped(pieces)
    ensures SplitShaped(pieces[1..]) && AllSpace(gaps[1..])
    ensures ',' !in pieces[0] && (pieces[1] == [] || !IsSpace(pieces[1][0]))
  {
    forall i, k | 0 <= i < |gaps[1..]| && 0 <= k < |gaps[1..][i]|
      ensures IsSpace(gaps[1..][i][k])
    {
      assert gaps[1..][i] == gaps[i + 1];
    }
    forall i | 0 <= i < |pieces[1..]|
      ensures ',' !in pieces[1..][i]
    {
      assert pieces[1..][i] == pieces[i + 1];
    }
  }

  /** A string splits at its first comma, resuming after the whitespace
      that follows it. */
  lemma SplitCommasAt(g: string, c: nat)
    requires FindChar(g, ',', 0) == Some(c)
    ensures SplitCommas(g) == [g[..c]] + SplitCommas(g[SkipSpace(g, c + 1)..])
  {
  }

  /** A joined list of two or more pieces splits at the comma after its
      first piece, and the split resumes right after that comma's gap. */
  lemma HeadSplit(pieces: seq<string>, gaps: seq<string>)
    requires |gaps| + 1 == |pieces| && |gaps| > 0 && AllSpace(gaps)
    requires ',' !in pieces[0]
    requires pieces[1] == [] || !IsSpace(pieces[1][0])
    ensures var g := JoinGaps(pieces, gaps);
      var c, s := |pieces[0]|, |pieces[0]| + 1 + |gaps[0]|;
      && s <= |g|
      && FindChar(g, ',', 0) == Some(c)
      && SkipSpace(g, c + 1) == s
      && g[..c] == pieces[0]
      && g[s..] == JoinGaps(pieces[1..], gaps[1..])
  {
    var g := JoinGaps(pieces, gaps);
    var tail := JoinGaps(pieces[1..], gaps[1..]);
    var c := |pieces[0]|;
    assert g == pieces[0] + "," + gaps[0] + tail;
    assert g[..c] == pieces[0];
    forall k | 0 <= k < c
      ensures g[k] != ','
    {
      assert g[k] == pieces[0][k];
    }
    FindCharAt(g, ',', c);
    JoinGapsStart(pieces[1..], gaps[1..]);
    assert g[c + 1..] == gaps[0] + tail;
    assert forall k :: 0 <= k < |gaps[0]| ==> IsSpace(gaps[0][k]);
    GapSkipped(g, c + 1, gaps[0], tail);
    assert g[c + 1 + |gaps[0]|..] == tail;
  }

  /** `",".join(pieces)`. */
  function JoinComma(pieces: seq<string>): string
  {
    if |pieces| == 0 then ""
    else if |pieces| == 1 then pieces[0]
    else pieces[0] + "," + JoinComma(pieces[1..])
  }

  /** Splitting undoes joining, for pieces a split can produce: no piece
      holds a comma and no later piece starts with whitespace. */
  lemma SplitJoin(pieces: seq<string>)
    requires |pieces| >= 1
    requires forall i :: 0 <= i < |pieces| ==> ',' !in pieces[i]
    requires forall i :: 1 <= i < |pieces| ==> pieces[i] == [] || !IsSpace(pieces[i][0])
    ensures SplitCommas(JoinComma(pieces)) == pieces
  {
    var gaps := seq(|pieces| - 1, _ => "");
    JoinCommaGaps(pieces, gaps);
    SplitJoinGaps(pieces, gaps);
  }

  /** `",".join` is the join with empty gaps. */
  lemma {:induction false} JoinCommaGaps(pieces: seq<string>, gaps: seq<string>)
    requires |gaps| + 1 == |pieces|
    requires forall i :: 0 <= i < |gaps| ==> gaps[i] == ""
    ensures JoinGaps(pieces, gaps) == JoinComma(pieces)
    decreases |gaps|
  {
    if |gaps| > 0 {
      JoinCommaGaps(pieces[1..], gaps[1..]);
    }
  }

  // ------------------------------------------------------ flags as a dict

  /** `x.partition('=')[::2]`: the text before the first `=` and the text
      after it, or the whole piece and `""` when there is no `=`. */
  function Partition(x: string): (r: (string, string))
    ensures '=' !in r.0
    ensures '=' in x ==> x == r.0 + "=" + r.1
    ensures '=' !in x ==> r == (x, "")
  {
    match FindChar(x, '=', 0)
    case None => (x, "")
    case Some(i) =>
      assert x == x[..i] + "=" + x[i + 1..];
      (x[..i], x[i + 1..])
  }

  /** A `dict[str, str]` as its items in iteration order. */
  type Flags = seq<(string, string)>

  function Keys(d: Flags): (ks: seq<string>)
    ensures |ks| == |d|
    ensures forall i :: 0 <= i < |d| ==> ks[i] == d[i].0
  {
    seq(|d|, i requires 0 <= i < |d| => d[i].0)
  }

  predicate Distinct(xs: seq<string>)
  {
    forall i, j :: 0 <= i < j < |xs| ==> xs[i] != xs[j]
  }

  /** `d.get(k)`. */
  function Lookup(d: Flags, k: string): (r: Option<string>)
    ensures r.Some? <==> k in Keys(d)
    ensures r.Some? ==> (k, r.value) in d
  {
    if |d| == 0 then None
    else if d[0].0 == k then Some(d[0].1)
    else
      assert Keys(d) == [d[0].0] + Keys(d[1..]);
      Lookup(d[1..], k)
  }

  /** In a dict whose keys are distinct, every item is what its key looks up. */
  lemma {:induction false} LookupItem(d: Flags, i: nat)
    requires Distinct(Keys(d)) && i < |d|
    ensures Lookup(d, d[i].0) == Some(d[i].1)
  {
    if i > 0 {
      assert Keys(d)[0] != Keys(d)[i];
      assert Keys(d[1..]) == Keys(d)[1..];
      LookupItem(d[1..], i - 1);
    }
  }

  /** `d[k] = v`: an existing key keeps its place and takes the new value,
      a new key goes to the end. */
  function Insert(d: Flags, k: string, v: string): (r: Flags)
    ensures Keys(r) == if k in Keys(d) then Keys(d) else Keys(d) + [k]
    ensures forall k' :: Lookup(r, k') == if k' == k then Some(v) else Lookup(d, k')
  {
    if |d| == 0 then [(k, v)]
    else if d[0].0 == k then
      KeysCons((k, v), d[1..]);
      KeysCons(d[0], d[1..]);
      assert d == [d[0]] + d[1..];
      [(k, v)] + d[1..]
    else
      var r := [d[0]] + Insert(d[1..], k, v);
      KeysCons(d[0], d[1..]);
      KeysCons(d[0], Insert(d[1..], k, v));
      assert d == [d[0]] + d[1..];
      r
  }

  lemma KeysCons(x: (string, string), d: Flags)
    ensures Keys([x] + d) == [x.0] + Keys(d)
  {
    var l, r := Keys([x] + d), [x.0] + Keys(d);
    forall i | 0 <= i < |l|
      ensures l[i] == r[i]
    {
      if i > 0 {
        assert ([x] + d)[i] == d[i - 1];
      }
    }
  }

  /** `dict(pairs)`. */
  function BuildFlags(pairs: Flags): Flags
  {
    if |pairs| == 0 then []
    else
      var last := pairs[|pairs| - 1];
      Insert(BuildFlags(pairs[..|pairs| - 1]), last.0, last.1)
  }

  /** `d` without key `k`, the other items in their order. */
  function RemoveKey(d: Flags, k: string): (r: Flags)
    ensures Keys(r) == Remove(Keys(d), k)
    ensures forall k' :: k' != k ==> Lookup(r, k') == Lookup(d, k')
    ensures Lookup(r, k) == None
  {
    if |d| == 0 then []
    else
      KeysCons(d[0], d[1..]);
      assert d == [d[0]] + d[1..];
      var rest := RemoveKey(d[1..], k);
      if d[0].0 == k then rest
      else
        KeysCons(d[0], rest);
        LookupCons(d[0], rest);
        [d[0]] + rest
  }

  lemma LookupCons(x: (string, string), d: Flags)
    ensures forall k :: Lookup([x] + d, k) == if x.0 == k then Some(x.1) else Lookup(d, k)
  {
    assert ([x] + d)[1..] == d;
  }

  /** `d.pop(k, None)`: the value of `k`, and what the dict holds after. */
  function Pop(d: Flags, k: string): (r: (Option<string>, Flags))
    ensures r.0 == Lookup(d, k)
    ensures Lookup(r.1, k) == None
    ensures Keys(r.1) == Remove(Keys(d), k)
  {
    (Lookup(d, k), RemoveKey(d, k))
  }

  // --------------------------------------------- reference definitions

  /** `xs` with every `x` removed. */
  function Remove(xs: seq<string>, x: string): (r: seq<string>)
    ensures forall y :: y in r <==> y in xs && y != x
    ensures Distinct(xs) ==> Distinct(r)
  {
    if |xs| == 0 then []
    else if xs[0] == x then Remove(xs[1..], x)
    else
      assert Distinct(xs) ==> xs[0] !in xs[1..];
      [xs[0]] + Remove(xs[1..], x)
  }

  /** Where `x` first occurs in `xs`. */
  function FirstIndex(xs: seq<string>, x: string): (r: nat)
    requires x in xs
    ensures r < |xs| && xs[r] == x
    ensures forall j :: 0 <= j < r ==> xs[j] != x
  {
    if xs[0] == x then 0 else 1 + FirstIndex(xs[1..], x)
  }

  lemma FirstIndexPrefix(xs: seq<string>, n: nat, x: string)
    requires n <= |xs| && x in xs[..n]
    ensures FirstIndex(xs, x) == FirstIndex(xs[..n], x)
  {
    var a, b := FirstIndex(xs, x), FirstIndex(xs[..n], x);
    assert xs[b] == x;
  }

  /** The distinct elements of `xs` in the order of their first occurrence. */
  function Dedup(xs: seq<string>): (r: seq<string>)
    ensures forall y :: y in r <==> y in xs
    ensures Distinct(r)
    ensures forall i, j :: 0 <= i < j < |r| ==> FirstIndex(xs, r[i]) < FirstIndex(xs, r[j])
  {
    if |xs| == 0 then []
    else
      var init := xs[..|xs| - 1];
      var last := xs[|xs| - 1];
      var d := Dedup(init);
      assert xs == init + [last];
      forall y | y in d
        ensures FirstIndex(xs, y) == FirstIndex(init, y) < |init|
      {
        FirstIndexPrefix(xs, |init|, y);
      }
      if last in d then d
      else
        assert FirstIndex(xs, last) == |init|;
        d + [last]
  }

  /** The value of the last pair with key `k`: the one `dict(pairs)` keeps. */
  function LastValue(pairs: Flags, k: string): (r: Option<string>)
    ensures r.Some? <==> k in Keys(pairs)
  {
    if |pairs| == 0 then None
    else
      var n := |pairs| - 1;
      assert Keys(pairs) == Keys(pairs[..n]) + [pairs[n].0];
      if pairs[n].0 == k then Some(pairs[n].1) else LastValue(pairs[..n], k)
  }

  /** `dict(pairs)` keeps each key once, where it first occurs. */
  lemma {:induction false} BuildFlagsKeys(pairs: Flags)
    ensures Keys(BuildFlags(pairs)) == Dedup(Keys(pairs))
  {
    if |pairs| > 0 {
      var n := |pairs| - 1;
      assert Keys(pairs[..n]) == Keys(pairs)[..n];
      BuildFlagsKeys(pairs[..n]);
    }
  }

  /** `dict(pairs)[k]` is the value of the last pair with key `k`. */
  lemma {:induction false} BuildFlagsLookup(pairs: Flags, k: string)
    ensures Lookup(BuildFlags(pairs), k) == LastValue(pairs, k)
  {
    if |pairs| > 0 {
      BuildFlagsLookup(pairs[..|pairs| - 1], k);
    }
  }

  // ------------------------------------------------------------ split_icon

  /** The `(key, value)` pairs the source builds its dict from. */
  function FlagPairs(group: string): (pairs: Flags)
    ensures |pairs| == |SplitCommas(group)|
  {
    var pieces := SplitCommas(group);
    seq(|pieces|, i requires 0 <= i < |pieces| => Partition(pieces[i]))
  }

  /** `f"{k}={v}" if v else k`. */
  function RenderFlag(k: string, v: string): string
  {
    if v == "" then k else k + "=" + v
  }

  function Render(d: Flags): seq<string>
  {
    seq(|d|, i requires 0 <= i < |d| => RenderFlag(d[i].0, d[i].1))
  }

  function ValueOr(o: Option<string>): string
  {
    if o.Some? then o.value else ""
  }

  /** The flags that survive, described without the dict: every key other
      than `icon` once, in first-occurrence order, with its last value. */
  function RemainingFlags(pairs: Flags): seq<string>
  {
    var ks := Remove(Dedup(Keys(pairs)), "icon");
    seq(|ks|, i requires 0 <= i < |ks| => RenderFlag(ks[i], ValueOr(LastValue(pairs, ks[i]))))
  }

  /** `""` counts as no icon (`if not icon`). */
  function NonEmpty(o: Option<string>): Option<string>
  {
    if o == Some("") then None else o
  }

  /** What `split_icon` returns once its first group is found: `cmd` is
      the text before the group and `group` what the group captured. */
  function SplitGroup(spec: string, cmd: string, group: string): (r: (string, Option<string>))
    ensures r.1.Some? ==> r.1.value != ""
    ensures r.1.None? ==> r.0 == spec
  {
    var (icon, rest) := Pop(BuildFlags(FlagPairs(group)), "icon");
    if icon.None? || icon.value == "" then (spec, None)
    else if |rest| > 0 then (cmd + " [" + JoinComma(Render(rest)) + "]", icon)
    else (cmd, icon)
  }

  /** `split_icon(spec)`: the command to hand to the script maker and the
      icon, if one was given. */
  function SplitIcon(spec: string): (r: (string, Option<string>))
    ensures r.1.Some? ==> r.1.value != ""
    ensures r.1.None? ==> r.0 == spec
  {
    match FirstMatch(spec, 0)
    case None => (spec, None)
    case Some(m) => SplitGroup(spec, spec[..m.start], Group(spec, m))
  }

  lemma SplitIconAt(spec: string, m: Match)
    requires IsFirstMatch(spec, m)
    ensures SplitIcon(spec) == SplitGroup(spec, spec[..m.start], Group(spec, m))
  {
    FirstMatchIsFirst(spec);
  }

  /** With no whitespace-prefixed, non-empty bracket group the spec is
      returned as it is, without an icon. */
  lemma SplitIconNoGroup(spec: string)
    requires forall m :: !IsMatch(spec, m)
    ensures SplitIcon(spec) == (spec, None)
  {
    FirstMatchIsFirst(spec);
  }

  /** The icon is the value of the last `icon` flag of the first group,
      unless that value is empty; with no such flag there is no icon. */
  lemma SplitIconIcon(spec: string, m: Match)
    requires IsFirstMatch(spec, m)
    ensures SplitIcon(spec).1 == NonEmpty(LastValue(FlagPairs(Group(spec, m)), "icon"))
  {
    SplitIconAt(spec, m);
    BuildFlagsLookup(FlagPairs(Group(spec, m)), "icon");
  }

  /** When an icon is found, the command is the text before the group's
      leading whitespace, followed, when flags other than `icon` were
      given, by those flags in first-occurrence order with their last
      values, as `k=v` or a bare `k`, comma-joined in brackets. */
  lemma SplitIconCommand(spec: string, m: Match)
    requires IsFirstMatch(spec, m)
    requires SplitIcon(spec).1.Some?
    ensures var pairs := FlagPairs(Group(spec, m));
      SplitIcon(spec).0 ==
        if OnlyIcon(pairs) then spec[..m.start]
        else spec[..m.start] + " [" + JoinComma(RemainingFlags(pairs)) + "]"
  {
    SplitIconAt(spec, m);
    GroupCommand(spec, spec[..m.start], Group(spec, m));
  }

  lemma GroupCommand(spec: string, cmd: string, group: string)
    requires SplitGroup(spec, cmd, group).1.Some?
    ensures var pairs := FlagPairs(group);
      SplitGroup(spec, cmd, group).0 ==
        if OnlyIcon(pairs) then cmd
        else cmd + " [" + JoinComma(RemainingFlags(pairs)) + "]"
  {
    var pairs := FlagPairs(group);
    var rest := RemoveKey(BuildFlags(pairs), "icon");
    GroupShape(spec, cmd, group);
    RemainingAgree(pairs);
    RestEmpty(pairs);
  }

  /** Every flag of the group is `icon`. */
  predicate OnlyIcon(pairs: Flags)
  {
    forall i :: 0 <= i < |pairs| ==> pairs[i].0 == "icon"
  }

  lemma GroupShape(spec: string, cmd: string, group: string)
    requires SplitGroup(spec, cmd, group).1.Some?
    ensures var rest := RemoveKey(BuildFlags(FlagPairs(group)), "icon");
      SplitGroup(spec, cmd, group).0 ==
        if |rest| == 0 then cmd else cmd + " [" + JoinComma(Render(rest)) + "]"
  {
  }

  lemma RestEmpty(pairs: Flags)
    ensures |RemoveKey(BuildFlags(pairs), "icon")| == 0 <==> OnlyIcon(pairs)
  {
    var rest := RemoveKey(BuildFlags(pairs), "icon");
    BuildFlagsKeys(pairs);
    var ks := Remove(Dedup(Keys(pairs)), "icon");
    assert Keys(rest) == ks;
    if !OnlyIcon(pairs) {
      var i :| 0 <= i < |pairs| && pairs[i].0 != "icon";
      assert pairs[i].0 in Keys(pairs);
      assert pairs[i].0 in ks;
    }
  }

  /** What the dict code renders is the reference description. */
  lemma RemainingAgree(pairs: Flags)
    ensures var rest := RemoveKey(BuildFlags(pairs), "icon");
      && Keys(rest) == Remove(Dedup(Keys(pairs)), "icon")
      && Render(rest) == RemainingFlags(pairs)
  {
    var d := BuildFlags(pairs);
    var rest := RemoveKey(d, "icon");
    BuildFlagsKeys(pairs);
    var ks := Remove(Dedup(Keys(pairs)), "icon");
    assert Keys(rest) == ks;
    forall i | 0 <= i < |rest|
      ensures Render(rest)[i] == RemainingFlags(pairs)[i]
    {
      LookupItem(rest, i);
      BuildFlagsLookup(pairs, ks[i]);
      assert Keys(rest)[i] == ks[i];
    }
  }

  /** Once the first group is found, the text after it is never looked at:
      appending to the spec changes neither the icon nor, when an icon is
      found, the command. */
  lemma SplitIconIgnoresTail(s: string, t: string, m: Match)
    requires IsFirstMatch(s, m)
    ensures SplitIcon(s + t).1 == SplitIcon(s).1
    ensures SplitIcon(s).1.Some? ==> SplitIcon(s + t).0 == SplitIcon(s).0
  {
    SplitIconAt(s, m);
    SplitIconAtExtended(s, t, m);
    GroupIgnoresSpec(s, s + t, s[..m.start], Group(s, m));
  }

  lemma SplitIconAtExtended(s: string, t: string, m: Match)
    requires IsFirstMatch(s, m)
    ensures SplitIcon(s + t) == SplitGroup(s + t, s[..m.start], Group(s, m))
  {
    FirstMatchExtend(s, t, m);
    SplitIconAt(s + t, m);
    ExtendSlices(s, t, m);
  }

  lemma ExtendSlices(s: string, t: string, m: Match)
    requires m.start <= m.open < m.close < |s|
    ensures (s + t)[..m.start] == s[..m.start]
    ensures Group(s + t, m) == Group(s, m)
  {
  }

  /** The spec itself is only returned, never inspected, once the group
      is known. */
  lemma GroupIgnoresSpec(spec: string, spec': string, cmd: string, group: string)
    ensures SplitGroup(spec', cmd, group).1 == SplitGroup(spec, cmd, group).1
    ensures SplitGroup(spec, cmd, group).1.Some? ==>
      SplitGroup(spec', cmd, group).0 == SplitGroup(spec, cmd, group).0
  {
  }
}

=== FILE: little_endian.dfy ===
/** Fixed-width little-endian integers, as the `construct` field types
    `Int8sl`, `Int16sl` and `Int32sl` lay them out: two's complement,
    least significant byte first. */
module LittleEndian {

  type byte = x: int | 0 <= x < 256

  type int8 = x: int | -0x80 <= x < 0x80
  type int16 = x: int | -0x8000 <= x < 0x8000
  type int32 = x: int | -0x8000_0000 <= x < 0x8000_0000

  /** 256 to the power n: the number of values n bytes can hold. */
  function Pow256(n: nat): (r: int)
    ensures r >= 1
  {
    if n == 0 then 1 else 256 * Pow256(n - 1)
  }

  /** Half of Pow256(n): the magnitude of the most negative n-byte value. */
  function Half(n: nat): (r: int)
    requires n >= 1
    ensures 2 * r == Pow256(n)
  {
    128 * Pow256(n - 1)
  }

  /** The unsigned value of a little-endian byte string. */
  function DecodeUnsigned(b: seq<byte>): (u: int)
    ensures 0 <= u < Pow256(|b|)
  {
    if |b| == 0 then 0
    else
      var rest := DecodeUnsigned(b[1..]);
      assert 256 * rest <= 256 * (Pow256(|b| - 1) - 1);
      b[0] + 256 * rest
  }

  /** The n little-endian bytes of an unsigned value that fits in them. */
  function EncodeUnsigned(u: int, n: nat): (b: seq<byte>)
    requires 0 <= u < Pow256(n)
    ensures |b| == n
    ensures DecodeUnsigned(b) == u
  {
    if n == 0 then []
    else
      assert u / 256 < Pow256(n - 1);
      [u % 256] + EncodeUnsigned(u / 256, n - 1)
  }

  /** Encoding is also a left inverse: re-encoding a decoded byte string
      gives back the same bytes. */
  lemma {:induction false} EncodeDecodeUnsigned(b: seq<byte>)
    ensures EncodeUnsigned(DecodeUnsigned(b), |b|) == b
  {
    if |b| > 0 {
      var rest := DecodeUnsigned(b[1..]);
      var u := DecodeUnsigned(b);
      assert u % 256 == b[0] && u / 256 == rest;
      EncodeDecodeUnsigned(b[1..]);
      assert b == [b[0]] + b[1..];
    }
  }

  /** The two's-complement value of a non-empty little-endian byte string. */
  function DecodeSigned(b: seq<byte>): (x: int)
    requires |b| >= 1
    ensures -Half(|b|) <= x < Half(|b|)
  {
    var u := DecodeUnsigned(b);
    if u >= Half(|b|) then u - Pow256(|b|) else u
  }

  /** The n-byte two's-complement encoding of a value in range; it raises in
      the source when the value is out of range, which callers model. */
  function EncodeSigned(x: int, n: nat): (b: seq<byte>)
    requires n >= 1 && -Half(n) <= x < Half(n)
    ensures |b| == n
    ensures DecodeSigned(b) == x
  {
    EncodeUnsigned(if x < 0 then x + Pow256(n) else x, n)
  }

  lemma EncodeDecodeSigned(b: seq<byte>)
    requires |b| >= 1
    ensures EncodeSigned(DecodeSigned(b), |b|) == b
  {
    EncodeDecodeUnsigned(b);
  }

  function DecodeInt8(b: seq<byte>): int8
    requires |b| == 1
  {
    DecodeSigned(b)
  }

  function DecodeInt16(b: seq<byte>): int16
    requires |b| == 2
  {
    DecodeSigned(b)
  }

  function DecodeInt32(b: seq<byte>): int32
    requires |b| == 4
  {
    DecodeSigned(b)
  }

  function EncodeInt8(x: int8): (b: seq<byte>)
    ensures |b| == 1 && DecodeInt8(b) == x
  {
    EncodeSigned(x, 1)
  }

  function EncodeInt16(x: int16): (b: seq<byte>)
    ensures |b| == 2 && DecodeInt16(b) == x
  {
    EncodeSigned(x, 2)
  }

  function EncodeInt32(x: int32): (b: seq<byte>)
    ensures |b| == 4 && DecodeInt32(b) == x
  {
    EncodeSigned(x, 4)
  }

  // ------------------------------------------------------ struct layouts

  /** The total byte width of a struct whose fields have widths `ws`. */
  function Width(ws: seq<nat>): nat
  {
    if |ws| == 0 then 0 else ws[0] + Width(ws[1..])
  }

  /** Values `vs` fit signed fields of widths `ws`, one value per field. */
  predicate Fits(vs: seq<int>, ws: seq<nat>)
  {
    && |vs| == |ws|
    && forall i :: 0 <= i < |ws| ==> FitsSigned(vs[i], ws[i])
  }

  /** x is representable as a w-byte two's-complement integer. */
  predicate FitsSigned(x: int, w: nat)
  {
    w >= 1 && -Half(w) <= x < Half(w)
  }

  /** A struct of signed little-endian fields, packed with no padding. */
  function EncodeFields(vs: seq<int>, ws: seq<nat>): (b: seq<byte>)
    requires Fits(vs, ws)
    ensures |b| == Width(ws)
  {
    if |ws| == 0 then []
    else EncodeSigned(vs[0], ws[0]) + EncodeFields(vs[1..], ws[1..])
  }

  /** The field values of a packed struct of widths `ws`. */
  function DecodeFields(b: seq<byte>, ws: seq<nat>): (vs: seq<int>)
    requires |b| == Width(ws)
    requires forall i :: 0 <= i < |ws| ==> ws[i] >= 1
    ensures Fits(vs, ws)
  {
    if |ws| == 0 then []
    else [DecodeSigned(b[..ws[0]])] + DecodeFields(b[ws[0]..], ws[1..])
  }

  lemma {:induction false} DecodeEncodeFields(vs: seq<int>, ws: seq<nat>)
    requires Fits(vs, ws)
    ensures DecodeFields(EncodeFields(vs, ws), ws) == vs
  {
    if |ws| > 0 {
      FitsTail(vs, ws);
      var head := EncodeSigned(vs[0], ws[0]);
      var b := EncodeFields(vs, ws);
      assert b == head + EncodeFields(vs[1..], ws[1..]);
      assert b[..ws[0]] == head;
      assert b[ws[0]..] == EncodeFields(vs[1..], ws[1..]);
      DecodeEncodeFields(vs[1..], ws[1..]);
      assert vs == [vs[0]] + vs[1..];
    }
  }

  lemma {:induction false} EncodeDecodeFields(b: seq<byte>, ws: seq<nat>)
    requires |b| == Width(ws)
    requires forall i :: 0 <= i < |ws| ==> ws[i] >= 1
    ensures EncodeFields(DecodeFields(b, ws), ws) == b
  {
    if |ws| > 0 {
      var vs := DecodeFields(b, ws);
      assert vs[1..] == DecodeFields(b[ws[0]..], ws[1..]);
      EncodeDecodeSigned(b[..ws[0]]);
      EncodeDecodeFields(b[ws[0]..], ws[1..]);
      assert b == b[..ws[0]] + b[ws[0]..];
    }
  }

  lemma FitsTail(vs: seq<int>, ws: seq<nat>)
    requires Fits(vs, ws) && |ws| > 0
    ensures FitsSigned(vs[0], ws[0]) && Fits(vs[1..], ws[1..])
  {
    assert forall i :: 0 <= i < |ws| - 1 ==> vs[1..][i] == vs[i + 1] && ws[1..][i] == ws[i + 1];
  }

  lemma FitsAppend(vs1: seq<int>, ws1: seq<nat>, vs2: seq<int>, ws2: seq<nat>)
    requires Fits(vs1, ws1) && Fits(vs2, ws2)
    ensures Fits(vs1 + vs2, ws1 + ws2)
  {
    var vs, ws := vs1 + vs2, ws1 + ws2;
    forall i | 0 <= i < |ws| ensures FitsSigned(vs[i], ws[i]) {
      if i < |ws1| {
        assert vs[i] == vs1[i] && ws[i] == ws1[i];
      } else {
        assert vs[i] == vs2[i - |ws1|] && ws[i] == ws2[i - |ws1|];
      }
    }
  }

  /** Packing two field lists one after the other packs their concatenation. */
  lemma {:induction false} EncodeFieldsAppend(vs1: seq<int>, ws1: seq<nat>, vs2: seq<int>, ws2: seq<nat>)
    requires Fits(vs1, ws1) && Fits(vs2, ws2)
    ensures Fits(vs1 + vs2, ws1 + ws2)
    ensures EncodeFields(vs1 + vs2, ws1 + ws2) == EncodeFields(vs1, ws1) + EncodeFields(vs2, ws2)
  {
    FitsAppend(vs1, ws1, vs2, ws2);
    var vs, ws := vs1 + vs2, ws1 + ws2;
    if |ws1| > 0 {
      assert vs[1..] == vs1[1..] + vs2;
      assert ws[1..] == ws1[1..] + ws2;
      assert vs[0] == vs1[0] && ws[0] == ws1[0];
      EncodeFieldsAppend(vs1[1..], ws1[1..], vs2, ws2);
    } else {
      assert vs == vs2 && ws == ws2;
    }
  }
}

=== FILE: paths.dfy ===
/** The slice of `pathlib` and `urllib.parse` the builder relies on to name
    its files: joining components, `with_suffix`, `PurePosixPath.name` and
    the path part of `urlparse`. */
module Paths {
  import opened Wrappers
  import opened Text

  // ------------------------------------------------------------------ paths

  /** A resolved file-system path as its components, drive first. */
  type Path = seq<string>

  /** `p / seg` for one relative component; `pathlib` drops an empty one. */
  function Join(p: Path, seg: string): (r: Path)
    ensures seg == "" ==> r == p
    ensures seg != "" ==> r == p + [seg]
  {
    if seg == "" then p else p + [seg]
  }

  /** The directories above `p`, each a proper non-empty prefix of it: what
      `mkdir(parents=True)` on its parent creates. */
  function Ancestors(p: Path): (r: set<Path>)
    ensures forall k :: 0 < k < |p| ==> p[..k] in r
    ensures forall q :: q in r ==> 0 < |q| < |p| && q == p[..|q|]
  {
    set k | 0 < k < |p| :: p[..k]
  }

  /** A file system in which the directory above every existing path
      exists too. */
  ghost predicate ParentsExist(existing: set<Path>)
  {
    forall p, k :: p in existing && 0 < k < |p| ==> p[..k] in existing
  }

  /** `str(p)` of a Windows path. */
  function Str(p: Path): string
  {
    if |p| == 0 then ""
    else if |p| == 1 then p[0]
    else p[0] + "\\" + Str(p[1..])
  }

  /** `i` is the position of the last `c` in `s`. */
  ghost predicate IsLast(s: string, c: char, i: int)
  {
    0 <= i < |s| && s[i] == c && forall k :: i < k < |s| ==> s[k] != c
  }

  /** `PurePath.suffix` of a final component: from its last dot, provided
      the dot is neither the first nor the last character. */
  function Suffix(name: string): (r: string)
    ensures r == "" || (r[0] == '.' && |r| >= 2 && |r| < |name| && r == name[|name| - |r|..])
    ensures r != "" ==> '.' !in r[1..]
    ensures forall i :: IsLast(name, '.', i) ==> r == if 0 < i < |name| - 1 then name[i..] else ""
    ensures (forall k :: 0 <= k < |name| ==> name[k] != '.') ==> r == ""
  {
    match FindLast(name, '.', |name|)
    case None => ""
    case Some(i) =>
      if 0 < i < |name| - 1 then
        assert forall k :: 1 <= k < |name| - i ==> name[i..][k] == name[i + k];
        name[i..]
      else ""
  }

  /** `PurePath.stem`: the final component without its suffix. */
  function Stem(name: string): (r: string)
    ensures |r| <= |name| && r == name[..|r|]
    ensures Suffix(name) == "" <==> r == name
  {
    name[..|name| - |Suffix(name)|]
  }

  /** `p.with_suffix(suffix)`: the suffix of the final component is
      replaced, or `suffix` is added when there is none. */
  function WithSuffix(p: Path, suffix: string): (r: Path)
    requires |p| > 0
    ensures |r| == |p| && r[..|p| - 1] == p[..|p| - 1]
    ensures r[|p| - 1] == Stem(p[|p| - 1]) + suffix
  {
    p[..|p| - 1] + [Stem(p[|p| - 1]) + suffix]
  }

  /** `str(p) + ext` read back as a path: `ext` appended to the final
      component, whatever it already ends with. */
  function AddExtension(p: Path, ext: string): (r: Path)
    requires |p| > 0
    ensures |r| == |p| && r[..|p| - 1] == p[..|p| - 1]
    ensures r[|p| - 1] == p[|p| - 1] + ext
  {
    p[..|p| - 1] + [p[|p| - 1] + ext]
  }

  /** Replacing the suffix and appending an extension name the same file
      exactly when the final component has no suffix. */
  lemma WithSuffixVersusExtension(p: Path, ext: string)
    requires |p| > 0
    ensures WithSuffix(p, ext) == AddExtension(p, ext) <==> Suffix(p[|p| - 1]) == ""
  {
    var last := p[|p| - 1];
    if WithSuffix(p, ext) == AddExtension(p, ext) {
      assert WithSuffix(p, ext)[|p| - 1] == AddExtension(p, ext)[|p| - 1];
      assert |Stem(last) + ext| == |last + ext|;
    }
  }

  // ------------------------------------------------------------------- URLs

  /** `urllib.parse.scheme_chars`. */
  predicate IsSchemeChar(c: char)
  {
    ('a' <= c <= 'z') || ('A' <= c <= 'Z') || ('0' <= c <= '9') || c == '+' || c == '-' || c == '.'
  }

  predicate IsAsciiAlpha(c: char)
  {
    ('a' <= c <= 'z') || ('A' <= c <= 'Z')
  }

  /** `str.lower()` on the ASCII letters a scheme can hold. */
  function Lower(s: string): (r: string)
    ensures |r| == |s|
    ensures forall k :: 0 <= k < |s| ==> r[k] == if 'A' <= s[k] <= 'Z' then (s[k] as int + 32) as char else s[k]
  {
    if |s| == 0 then ""
    else [if 'A' <= s[0] <= 'Z' then (s[0] as int + 32) as char else s[0]] + Lower(s[1..])
  }

  /** `urllib.parse.uses_params`: the schemes whose last path segment may
      carry `;parameters`. */
  const UsesParams: set<string> := {"", "ftp", "hdl", "prospero", "http", "imap", "https", "shttp",
                                    "rtsp", "rtsps", "rtspu", "sip", "sips", "mms", "sftp", "tel"}

  datatype Url = Url(scheme: string, netloc: string, path: string, params: string, query: string, fragment: string)

  /** `s.split(c, 1)` when `c` occurs, and `(s, "")` when it does not. */
  function SplitOnce(s: string, c: char): (r: (string, string))
    ensures c !in r.0
    ensures c in s ==> s == r.0 + [c] + r.1
    ensures c !in s ==> r == (s, "")
  {
    match FindChar(s, c, 0)
    case None => (s, "")
    case Some(i) =>
      assert s == s[..i] + [c] + s[i + 1..];
      (s[..i], s[i + 1..])
  }

  /** The scheme, when the text before the first `:` is a valid one. */
  function SplitScheme(url: string): (r: (string, string))
  {
    match FindChar(url, ':', 0)
    case None => ("", url)
    case Some(i) =>
      if i > 0 && IsAsciiAlpha(url[0]) && forall k :: 0 <= k < i ==> IsSchemeChar(url[k])
      then (Lower(url[..i]), url[i + 1..])
      else ("", url)
  }

  /** `_splitnetloc(url, 2)`: the authority runs to the first `/`, `?` or `#`. */
  function SplitNetloc(url: string): (r: (string, string))
    requires |url| >= 2
    ensures r.0 + r.1 == url[2..]
    ensures '/' !in r.0 && '?' !in r.0 && '#' !in r.0
  {
    var rest := url[2..];
    var d := FirstOf(rest, 0);
    assert rest == rest[..d] + rest[d..];
    (rest[..d], rest[d..])
  }

  /** The first index at or after `i` holding `/`, `?` or `#`, or the length. */
  function FirstOf(s: string, i: nat): (d: nat)
    requires i <= |s|
    ensures i <= d <= |s|
    ensures forall k :: i <= k < d ==> s[k] != '/' && s[k] != '?' && s[k] != '#'
    ensures d < |s| ==> s[d] == '/' || s[d] == '?' || s[d] == '#'
    decreases |s| - i
  {
    if i == |s| || s[i] == '/' || s[i] == '?' || s[i] == '#' then i else FirstOf(s, i + 1)
  }

  /** `_splitparams`: parameters start at the first `;` of the last segment. */
  function SplitParams(url: string): (r: (string, string))
  {
    var from := match FindLast(url, '/', |url|) case Some(j) => j case None => 0;
    match FindChar(url, ';', from)
    case None => (url, "")
    case Some(i) => (url[..i], url[i + 1..])
  }

  /** `urllib.parse.urlparse(url)`. */
  function UrlParse(url: string): Url
  {
    var scheme := SplitScheme(url);
    var netloc := if |scheme.1| >= 2 && scheme.1[..2] == "//" then SplitNetloc(scheme.1) else ("", scheme.1);
    var fragment := SplitOnce(netloc.1, '#');
    var query := SplitOnce(fragment.0, '?');
    var params := if scheme.0 in UsesParams && ';' in query.0 then SplitParams(query.0) else (query.0, "");
    Url(scheme.0, netloc.0, params.0, params.1, query.1, fragment.1)
  }

  /** `PurePosixPath(path).name`: the last component, skipping empty and
      `.` components. */
  function PosixName(path: string): (r: string)
    ensures '/' !in r && r != "."
    ensures r == "" <==> NoName(path)
    ensures r != "" ==> exists i :: NameAt(path, r, i)
    decreases |path|
  {
    match FindLast(path, '/', |path|)
    case None =>
      if path == "." || path == "" then
        assert NoName(path);
        ""
      else
        assert path[0..|path|] == path;
        NamedNotEmpty(path, path, 0);
        assert NameAt(path, path, 0);
        path
    case Some(i) =>
      var last := path[i + 1..];
      assert path == path[..i] + "/" + last;
      if last == "" || last == "." then
        var r := PosixName(path[..i]);
        NoNameJoin(path[..i], last);
        NameThroughDot(path[..i], last, r);
        r
      else
        assert path[i + 1..i + 1 + |last|] == last;
        NamedNotEmpty(path, last, i + 1);
        assert NameAt(path, last, i + 1);
        last
  }

  /** A name of `head` stays the name once an empty or `.` component is
      added. */
  lemma NameThroughDot(head: string, last: string, r: string)
    requires last == "" || last == "."
    requires r != "" ==> exists j :: NameAt(head, r, j)
    ensures r != "" ==> exists j :: NameAt(head + "/" + last, r, j)
  {
    if r != "" {
      var path := head + "/" + last;
      var j :| NameAt(head, r, j);
      assert path[j..j + |r|] == head[j..j + |r|];
      assert path[j + |r|..] == head[j + |r|..] + "/" + last;
      NoNameJoin(head[j + |r|..], last);
      assert NameAt(path, r, j);
    }
  }

  /** Character `k` of `s` is a `.` component on its own. */
  predicate LoneDot(s: string, k: nat)
    requires k < |s|
  {
    s[k] == '.' && (k == 0 || s[k - 1] == '/') && (k + 1 == |s| || s[k + 1] == '/')
  }

  /** Every component of `s` is empty or `.`, so `s` names nothing. */
  ghost predicate NoName(s: string)
  {
    forall k :: 0 <= k < |s| && s[k] != '/' ==> LoneDot(s, k)
  }

  /** `name` is a whole component of `path`, starting at `i`, and every
      component after it is empty or `.`. */
  ghost predicate NameAt(path: string, name: string, i: int)
  {
    && 0 <= i && i + |name| <= |path| && path[i..i + |name|] == name
    && (i == 0 || path[i - 1] == '/')
    && (i + |name| == |path| || path[i + |name|] == '/')
    && NoName(path[i + |name|..])
  }

  /** A component other than empty and `.` is a name. */
  lemma NamedNotEmpty(path: string, name: string, i: nat)
    requires i + |name| <= |path| && path[i..i + |name|] == name
    requires '/' !in name && name != "" && name != "."
    ensures !NoName(path)
  {
    assert path[i] == name[0];
    if name[0] == '.' {
      assert |name| >= 2 && path[i + 1] == name[1];
    }
  }

  /** Adding an empty or `.` component keeps a path nameless, and only a
      nameless path stays so. */
  lemma NoNameJoin(a: string, last: string)
    requires last == "" || last == "."
    ensures NoName(a + "/" + last) <==> NoName(a)
  {
    var c := a + "/" + last;
    assert c[|a|] == '/';
    if NoName(c) {
      forall k | 0 <= k < |a| && a[k] != '/'
        ensures LoneDot(a, k)
      {
        assert c[k] == a[k];
        assert LoneDot(c, k);
        assert k > 0 ==> c[k - 1] == a[k - 1];
        assert k + 1 < |a| ==> c[k + 1] == a[k + 1];
      }
    }
    if NoName(a) {
      forall k | 0 <= k < |c| && c[k] != '/'
        ensures LoneDot(c, k)
      {
        if k < |a| {
          assert c[k] == a[k];
          assert LoneDot(a, k);
          assert k > 0 ==> c[k - 1] == a[k - 1];
          assert k + 1 < |a| ==> c[k + 1] == a[k + 1];
        } else {
          assert k == |a| + 1 && c[k - 1] == '/';
        }
      }
    }
  }

  /** `scheme://host<dir>/name`. */
  function PlainUrl(scheme: string, host: string, dir: string, name: string): string
  {
    scheme + "://" + host + (dir + "/" + name)
  }

  /** A plain URL `scheme://host/dir/name` parses back into its parts, and
      the `PurePosixPath` name of its path is `name`. */
  lemma UrlParseRoundTrip(scheme: string, host: string, dir: string, name: string)
    requires |scheme| > 0 && IsAsciiAlpha(scheme[0])
    requires forall k :: 0 <= k < |scheme| ==> IsSchemeChar(scheme[k]) && !('A' <= scheme[k] <= 'Z')
    requires '/' !in host && '?' !in host && '#' !in host
    requires '?' !in dir && '#' !in dir && ';' !in dir
    requires dir == "" || dir[0] == '/'
    requires '/' !in name && '?' !in name && '#' !in name && ';' !in name
    requires name != "" && name != "."
    ensures var r := UrlParse(PlainUrl(scheme, host, dir, name));
      && r.scheme == scheme && r.netloc == host && r.path == dir + "/" + name
      && PosixName(r.path) == name
  {
    var path := dir + "/" + name;
    PathChars(dir, name);
    UrlParseParts(scheme, host, path);
    PosixNamePart(dir, name);
  }

  lemma PathChars(dir: string, name: string)
    requires '?' !in dir && '#' !in dir && ';' !in dir
    requires dir == "" || dir[0] == '/'
    requires '?' !in name && '#' !in name && ';' !in name
    ensures var path := dir + "/" + name;
      |path| > 0 && path[0] == '/' && '?' !in path && '#' !in path && ';' !in path
  {
  }

  /** `scheme://host/path` with nothing after the path. */
  lemma UrlParseParts(scheme: string, host: string, path: string)
    requires |scheme| > 0 && IsAsciiAlpha(scheme[0])
    requires forall k :: 0 <= k < |scheme| ==> IsSchemeChar(scheme[k]) && !('A' <= scheme[k] <= 'Z')
    requires '/' !in host && '?' !in host && '#' !in host
    requires |path| > 0 && path[0] == '/'
    requires '?' !in path && '#' !in path && ';' !in path
    ensures UrlParse(scheme + "://" + host + path) == Url(scheme, host, path, "", "", "")
  {
    var rest := "//" + host + path;
    UrlShape(scheme, host, path);
    SchemePart(scheme, rest);
    NetlocPart(host, path);
    assert SplitOnce(path, '#') == (path, "");
    assert SplitOnce(path, '?') == (path, "");
  }

  lemma UrlShape(scheme: string, host: string, path: string)
    ensures scheme + "://" + host + path == scheme + ":" + ("//" + host + path)
    ensures |"//" + host + path| >= 2 && ("//" + host + path)[..2] == "//"
  {
  }

  lemma SchemePart(scheme: string, rest: string)
    requires |scheme| > 0 && IsAsciiAlpha(scheme[0])
    requires forall k :: 0 <= k < |scheme| ==> IsSchemeChar(scheme[k]) && !('A' <= scheme[k] <= 'Z')
    ensures SplitScheme(scheme + ":" + rest) == (scheme, rest)
  {
    var url := scheme + ":" + rest;
    assert forall k :: 0 <= k < |scheme| ==> url[k] == scheme[k] && url[k] != ':';
    assert url[|scheme|] == ':';
    assert FindChar(url, ':', 0) == Some(|scheme|);
    assert url[..|scheme|] == scheme;
    assert url[|scheme| + 1..] == rest;
    assert Lower(scheme) == scheme;
  }

  lemma NetlocPart(host: string, path: string)
    requires '/' !in host && '?' !in host && '#' !in host
    requires |path| > 0 && path[0] == '/'
    ensures SplitNetloc("//" + host + path) == (host, path)
  {
    var url := "//" + host + path;
    var rest := url[2..];
    assert rest == host + path;
    assert forall k :: 0 <= k < |host| ==> rest[k] == host[k];
    assert rest[|host|] == '/';
    assert FirstOf(rest, 0) == |host|;
  }

  lemma PosixNamePart(dir: string, name: string)
    requires '/' !in name && name != "" && name != "."
    ensures PosixName(dir + "/" + name) == name
  {
    var path := dir + "/" + name;
    assert path[|dir|] == '/';
    assert forall k :: |dir| < k < |path| ==> path[k] == name[k - |dir| - 1];
    assert FindLast(path, '/', |path|) == Some(|dir|);
    assert path[|dir| + 1..] == name;
  }
}

=== FILE: text.dfy ===
/** Searching strings the way `str.find` and `str.rfind` do. */
module Text {
  import opened Wrappers

  /** The first index at or after `i` holding `c`, if there is one. */
  function FindChar(s: string, c: char, i: nat): (r: Option<nat>)
    requires i <= |s|
    ensures r.None? ==> forall k :: i <= k < |s| ==> s[k] != c
    ensures r.Some? ==> i <= r.value < |s| && s[r.value] == c
    ensures r.Some? ==> forall k :: i <= k < r.value ==> s[k] != c
    decreases |s| - i
  {
    if i == |s| then None
    else if s[i] == c then Some(i)
    else FindChar(s, c, i + 1)
  }

  /** The last index below `n` holding `c`, if there is one. */
  function FindLast(s: string, c: char, n: nat): (r: Option<nat>)
    requires n <= |s|
    ensures r.None? ==> forall k :: 0 <= k < n ==> s[k] != c
    ensures r.Some? ==> r.value < n && s[r.value] == c
    ensures r.Some? ==> forall k :: r.value < k < n ==> s[k] != c
  {
    if n == 0 then None
    else if s[n - 1] == c then Some(n - 1)
    else FindLast(s, c, n - 1)
  }
}

=== FILE: wizard.dfy ===
/** The entry-point string the configuration wizard writes, and why
    `split_icon` reads it back. */
module Wizard {
  import opened Wrappers
  import opened Text
  import opened IconSpec

  /** The script value stored for a command and an (optional) icon answer. */
  function WizardEntry(cmd: string, icon: string): (r: string)
    ensures icon == "" ==> r == cmd
    ensures icon != "" ==> |r| == |cmd| + |icon| + 8 && r[..|cmd|] == cmd
    ensures icon != "" ==>
      && r[|cmd|..|cmd| + 7] == " [icon="
      && r[|cmd| + 7..|r| - 1] == icon
      && r[|r| - 1] == ']'
  {
    if icon == "" then cmd else cmd + " [icon=" + icon + "]"
  }

  /** What the wizard writes, `split_icon` splits back into the command and
      the icon, provided the command has no `[` and does not end in
      whitespace and the icon has no `,` or `]`. A command written without
      an icon comes back unchanged. */
  lemma WizardRoundTrip(cmd: string, icon: string)
    requires '[' !in cmd
    requires cmd == [] || !IsSpace(cmd[|cmd| - 1])
    requires ',' !in icon && ']' !in icon
    ensures SplitIcon(WizardEntry(cmd, icon)) == (cmd, if icon == "" then None else Some(icon))
  {
    var s := WizardEntry(cmd, icon);
    if icon == "" {
      NoBracket(cmd);
    } else {
      var m := Match(|cmd|, |cmd| + 1, |s| - 1);
      WrittenFirstMatch(cmd, icon);
      WrittenSlices(cmd, icon);
      IconFlagPairs(icon);
      SplitIconIcon(s, m);
      SplitIconCommand(s, m);
    }
  }

  /** A command without `[` has no bracket group. */
  lemma NoBracket(cmd: string)
    requires '[' !in cmd
    ensures SplitIcon(cmd) == (cmd, None)
  {
    assert forall k :: 0 <= k < |cmd| ==> cmd[k] != '[';
    SplitIconNoGroup(cmd);
  }

  /** The group the wizard writes is the first match of the string. */
  lemma WrittenFirstMatch(cmd: string, icon: string)
    requires '[' !in cmd
    requires cmd == [] || !IsSpace(cmd[|cmd| - 1])
    requires icon != "" && ']' !in icon
    ensures var s := cmd + " [icon=" + icon + "]";
      IsFirstMatch(s, Match(|cmd|, |cmd| + 1, |s| - 1))
  {
    var s := cmd + " [icon=" + icon + "]";
    var m := Match(|cmd|, |cmd| + 1, |s| - 1);
    assert s == cmd + " [" + "icon=" + icon + "]";
    assert IsMatch(s, m);
    forall m' | IsMatch(s, m')
      ensures m.start <= m'.start
    {
      StartAfterCommand(cmd, icon, s, m');
    }
  }

  lemma WrittenSlices(cmd: string, icon: string)
    ensures var s := cmd + " [icon=" + icon + "]";
      && s[..|cmd|] == cmd
      && Group(s, Match(|cmd|, |cmd| + 1, |s| - 1)) == "icon=" + icon
  {
    var s := cmd + " [icon=" + icon + "]";
    assert s == cmd + " [" + ("icon=" + icon) + "]";
  }

  /** The group `icon=<icon>` is one flag, `icon`, with the icon as value. */
  lemma IconFlagPairs(icon: string)
    requires ',' !in icon
    ensures FlagPairs("icon=" + icon) == [("icon", icon)]
    ensures LastValue(FlagPairs("icon=" + icon), "icon") == Some(icon)
    ensures OnlyIcon(FlagPairs("icon=" + icon))
  {
    var g := "icon=" + icon;
    assert FindChar(g, ',', 0) == None;
    assert SplitCommas(g) == [g];
    assert Partition(g) == ("icon", icon) by {
      assert g == "icon" + "=" + icon;
      assert g[..5] == "icon=";
      assert FindChar(g, '=', 4) == Some(4);
      assert FindChar(g, '=', 2) == Some(4);
      assert FindChar(g, '=', 0) == Some(4);
      assert g[..4] == "icon" && g[5..] == icon;
    }
    assert LastValue([("icon", icon)], "icon") == Some(icon);
  }

  /** Every `[` of the written string is past the command, and the
      command's last character stops any whitespace run reaching it. */
  lemma StartAfterCommand(cmd: string, icon: string, s: string, m: Match)
    requires '[' !in cmd
    requires cmd == [] || !IsSpace(cmd[|cmd| - 1])
    requires s == cmd + " [icon=" + icon + "]"
    requires IsMatch(s, m)
    ensures |cmd| <= m.start
  {
    assert forall k :: 0 <= k < |cmd| ==> s[k] == cmd[k] && s[k] != '[';
    assert |cmd| > 0 ==> !IsSpace(s[|cmd| - 1]);
  }
}

=== FILE: wrappers.dfy ===
/** Failure-compatible wrappers used throughout the model: `Option` for the
    Python `None`-or-value results and `Result` for operations that raise. */
module Wrappers {

  datatype Option<+T> = None | Some(value: T)

  datatype Result<+T, +E> = Success(value: T) | Failure(error: E) {

    predicate IsFailure() {
      Failure?
    }

    function PropagateFailure<U>(): Result<U, E>
      requires Failure?
    {
      Failure(error)
    }

    function Extract(): T
      requires Success?
    {
      value
    }
  }
}
